=== FILE: README.md ===
# Bond yield surface construction — a Dafny model

This project models the core of a Python package that builds credit yield
surfaces. The grids it works on hold one row per rating (AAA … D) and one
column per tenor in days, and some cells may be missing. The package does
four things:

- it loads such grids per date from a wide table whose column headers read
  `RATING::DAYS`;
- it maps rating labels to numbers, by a fixed table, by a row's mean yield,
  or by a scale optimised so that yield slopes along the rating axis stay
  small;
- it fills missing cells with an interpolator, either linear along each
  rating's row or a thin-plate spline over the plane;
- it scores an interpolator by k-fold cross-validation, averaged over dates
  and weighted by sample count.

The Dafny modules follow the Python files one to one:

| module | file |
|---|---|
| `Frames`, `Wrappers`, `Stats` | shared data model: grids, scales, errors, `Option`/`Result`, sums and means |
| `TenorConverter` | `data_processing/tenor_converter.py` |
| `RatingConverter` | `data_processing/rating_converter.py` |
| `SlopeRating` | `data_processing/rating_converter_by_slopes.py` |
| `ExampleConstraints` | `data_processing/example_contraints.py` |
| `Loader` | `data_processing/loader.py` |
| `Linear` | `interpolators/linear.py` |
| `ThinPlateSpline` | `interpolators/thin_plate_spline.py` |
| `GridFilling` | `interpolators/interpolate_bond_yields.py` |
| `CrossValidation` | `analysis/cross_validation.py` |
| `CrossValidators` | `analysis/cross_validator.py` |
| `SlopeBasedValidation` | `analysis/cross_validator_slope_rating_slope.py` |
| `FakeData` | `tests/generate_fake_data.py` |

Representation choices:

- A float cell is `Option<real>`, where `None` is NaN.
- A grid is a value of type `Table(index, columns, cells)`. Where the Python
  code rewrites a DataFrame in place (the grid filler), the grid is a `Frame`
  object whose fields the methods reassign.
- A Python dict from labels to positions is a `Scale`: its labels in
  insertion order and their values alongside.
- The interpolator classes, the optimizer (SLSQP), the shuffled `KFold`
  splitter, `interp1d`, the Green's-function profile and the linear solve are
  function parameters.
- Exceptions are `Failure` values of a `Result`, named after their cause.
- Methods with loops are proved equal to recursive specification functions.
  The properties the code promises are then proved about those functions.

Where the behaviour the code documents differs from the code itself, the
model follows the code:

- The slope objective of `optimize_ratings` adds up one slope per position,
  between rows i+1 and i+2. It does not take the difference of two adjacent
  slopes, and row 0 never contributes.
- `optimize_ratings` passes only the adjacent-gap constraint of 0.02. The
  floor on the first rating, the two wider top gaps and the pin of the last
  rating to 1 appear only in `generate_constraints`, and that function raises
  a `TypeError` as written (see Findings).
- The spline's affine term is evaluated at the first training point, not at
  the query (see Findings).
- The grid filler has only the sparse mode. It predicts the missing cells
  alone, and it turns the row labels into text rather than numbers.
- The slope validators prepare every date's grid first and only then
  cross-validate any of them.

## Model

| member | source | states |
|---|---|---|
| TenorConverter.ScaleTenor | bond_yield/data_processing/tenor_converter.py:21-32 | the identity scaler returns its argument for every real tenor |
| TenorConverter.ScaleTenorIdempotent | bond_yield/data_processing/tenor_converter.py:32 | scaling twice equals scaling once |
| TenorConverter.ScaleTenorMonotone | bond_yield/data_processing/tenor_converter.py:32 | scaling preserves the order of tenors |
| RatingConverter.SimpleConvert | bond_yield/data_processing/rating_converter.py:40-41 | the result lies in 0..14 and is 0 exactly for a rating outside the map |
| RatingConverter.SimpleScaleListed | bond_yield/data_processing/rating_converter.py:23-38 | the i-th listed rating maps to i+1 |
| RatingConverter.SimpleScaleIncreasing | bond_yield/data_processing/rating_converter.py:23-38 | the fixed scale strictly increases in listed order |
| RatingConverter.SimpleScaleKeys | bond_yield/data_processing/rating_converter.py:23-38 | a rating is in the map iff it is one of the fourteen listed labels |
| RatingConverter.SimpleScaleInjective | bond_yield/data_processing/rating_converter.py:23-38 | two known ratings with the same number are the same rating |
| RatingConverter.PresentValues | bond_yield/data_processing/rating_converter.py:66 | the non-NaN values of a row: there are none iff the whole row is NaN, and each value occurs among them exactly as often as the row's cells hold it |
| RatingConverter.RowMean | bond_yield/data_processing/rating_converter.py:66 | pandas' row mean is NaN iff every cell is NaN |
| RatingConverter.RowMeanWithin | bond_yield/data_processing/rating_converter.py:66 | a row mean lies between any bounds of the row's present values |
| RatingConverter.YieldBasedConvert | bond_yield/data_processing/rating_converter.py:64-69 | an unknown rating gives 0; a known rating gives the mean of its row |
| Stats.MeanWithin | bond_yield/analysis/cross_validation.py:44 | a mean lies between any lower and upper bound of its terms |
| Stats.SumNonNegative | bond_yield/analysis/cross_validation.py:44 | a sum of non-negative terms is non-negative |
| Stats.MeanNonNegative | bond_yield/analysis/cross_validation.py:44 | a mean of non-negative errors is non-negative |
| Frames.Lookup | bond_yield/data_processing/rating_converter_by_slopes.py:41 | dict lookup: found iff some label equals the key, and then the value stored alongside it |
| Frames.LookupAt | bond_yield/analysis/cross_validator.py:73 | with distinct labels, looking up the i-th label gives the i-th value |
| Frames.HasRepeat | bond_yield/analysis/cross_validation.py:28-30 | true exactly when some label occurs at two positions, the case in which a label read returns several rows |
| Frames.HasRepeatedRead | bond_yield/analysis/cross_validation.py:27-30 | true exactly when reading every cell by its labels meets a row label shared by two rows or a column label shared by two columns, the other axis being non-empty |
| SlopeRating.Calculate | bond_yield/data_processing/rating_converter_by_slopes.py:14-20 | the absolute value or the square of the slope; never negative; 0 for a zero slope |
| SlopeRating.AdjConstraint | bond_yield/data_processing/rating_converter_by_slopes.py:49-50 | one value r[i]-r[i-1]-0.02 per adjacent pair, n-1 values in all |
| SlopeRating.AdjConstraintFeasible | bond_yield/data_processing/rating_converter_by_slopes.py:48-56 | every constraint value is non-negative iff every adjacent gap is at least 0.02 |
| SlopeRating.FeasibleSpread | bond_yield/data_processing/rating_converter_by_slopes.py:49-56 | at a feasible point, ratings i ≤ j are at least 0.02·(j-i) apart, so the point is strictly increasing |
| SlopeRating.ColumnSum | bond_yield/data_processing/rating_converter_by_slopes.py:61-69 | the penalties of one column are non-negative, and zero when there is no slope position |
| SlopeRating.ObjectiveSum | bond_yield/data_processing/rating_converter_by_slopes.py:60-71 | the penalties over all columns are non-negative, and zero with fewer than three ratings |
| SlopeRating.SlopeObjective | bond_yield/data_processing/rating_converter_by_slopes.py:58-71 | fails with a positional index error iff the ratings outrun the grid's rows; otherwise non-negative; 0 with fewer than three ratings or no column |
| SlopeRating.ColumnSumIgnoresRowZero | bond_yield/data_processing/rating_converter_by_slopes.py:61-69 | a column's penalties do not depend on row 0 or on rating 0 |
| SlopeRating.ObjectiveIgnoresRowZero | bond_yield/data_processing/rating_converter_by_slopes.py:58-71 | the objective as written never reads row 0 of the grid or rating 0 |
| SlopeRating.ObjectiveOnThreeRows | bond_yield/data_processing/rating_converter_by_slopes.py:58-71 | on three rows and one column, the objective is the penalty of the single slope (y2-y1)/(r2-r1) |
| SlopeRating.ZipScale | bond_yield/data_processing/rating_converter_by_slopes.py:79 | `dict(zip(labels, x))` pairs labels and values up to the shorter length |
| SlopeRating.ZipScaleKeepsLabels | bond_yield/data_processing/rating_converter_by_slopes.py:44-79 | zipping a valid scale's labels with a point of equal length keeps the labels, and each label then looks up its new value |
| SlopeRating.OptimizeStepKeepsScale | bond_yield/data_processing/rating_converter_by_slopes.py:74-81 | a step keeps the scale valid; a reported failure keeps the scale unchanged; a success keeps a prefix of the labels |
| SlopeRating.SlopeMinimizingRatingConverter.constructor | bond_yield/data_processing/rating_converter_by_slopes.py:27-30 | stores the grid, the initial scale and the strategy |
| SlopeRating.SlopeMinimizingRatingConverter.Convert | bond_yield/data_processing/rating_converter_by_slopes.py:32-41 | the stored value of a known label, 0 for any other label |
| SlopeRating.SlopeMinimizingRatingConverter.Objective | bond_yield/data_processing/rating_converter_by_slopes.py:58-71 | the nested loop computes exactly `SlopeObjective` |
| SlopeRating.SlopeMinimizingRatingConverter.OptimizeRatings | bond_yield/data_processing/rating_converter_by_slopes.py:43-81 | an optimizer exception propagates and leaves the scale as it was; otherwise the scale becomes the step's result |
| ExampleConstraints.PyIndex | bond_yield/data_processing/example_contraints.py:13-15 | Python indexing: defined iff -n ≤ i < n, negative positions counting from the end |
| ExampleConstraints.Eval | bond_yield/data_processing/example_contraints.py:7-15 | each in-range closure returns its gap, floor or pin expression |
| ExampleConstraints.EvaluateEntries | bond_yield/data_processing/example_contraints.py:11-16 | evaluating the list display succeeds iff no entry subtracts a number from a closure; otherwise it fails with a `TypeError` |
| ExampleConstraints.PairGaps | bond_yield/data_processing/example_contraints.py:6-9 | n-3 gap predicates (none below three ratings), the i-th bound to its own i |
| ExampleConstraints.Bounds | bond_yield/data_processing/example_contraints.py:3 | one (0, 1) bound pair per rating |
| ExampleConstraints.GenerateConstraints | bond_yield/data_processing/example_contraints.py:2-18 | as written, it fails with a `TypeError` for every input |
| ExampleConstraints.GenerateConstraintsIntended | bond_yield/data_processing/example_contraints.py:2-18 | the corrected version: the bounds, the pair gaps, then the floor, the two top gaps and the pin, in that order |
| ExampleConstraints.IntendedFeasible | bond_yield/data_processing/example_contraints.py:6-16 | a vector satisfies every corrected constraint iff r[0] ≥ 0.15, every lower pair is 0.02 apart, the top two pairs are 0.2 apart, and the last rating is 1 |
| Loader.FindSep | bond_yield/data_processing/loader.py:29 | the first separator position at or after i, or the length when there is none |
| Loader.Split | bond_yield/data_processing/loader.py:29 | `str.split("::")` gives at least one piece |
| Loader.SplitJoin | bond_yield/data_processing/loader.py:29 | joining the pieces with "::" gives the header back |
| Loader.SplitPiecesClean | bond_yield/data_processing/loader.py:29 | no piece contains the separator |
| Loader.SplitPair | bond_yield/data_processing/loader.py:29 | for a clean left piece a and a clean b, `(a+"::"+b).split("::")` is [a, b] |
| Loader.Strip | bond_yield/data_processing/loader.py:30 | `str.strip()`: the result neither begins nor ends with whitespace, and it is the input with only whitespace cut from its two ends |
| Loader.ShowNat | bond_yield/tests/generate_fake_data.py:26 | a decimal rendering is a non-empty run of digits |
| Loader.ParseShowNat | bond_yield/data_processing/loader.py:30 | `int()` of a rendered natural number gives that number back |
| Loader.ParseShowNegative | bond_yield/data_processing/loader.py:30 | `int()` of a minus sign followed by a rendered n gives -n |
| Loader.ParseIntIgnoresSpace | bond_yield/data_processing/loader.py:30 | leading or trailing whitespace does not change what `int()` returns |
| Loader.ParseIntNeedsDigit | bond_yield/data_processing/loader.py:30 | a text without a digit is refused by `int()` |
| Loader.ParseHeader | bond_yield/data_processing/loader.py:29-30 | a header fails only with the unpacking error or the integer error |
| Loader.ParseHeaderMeaning | bond_yield/data_processing/loader.py:29-30 | the unpacking error occurs iff the split does not give two pieces; on success, header = rating + "::" + t with `int(t)` the tenor |
| Loader.HeaderRoundTrip | bond_yield/data_processing/loader.py:29-30 | parsing `rating::days` gives back (rating, days) |
| Loader.LexStrictTotal | bond_yield/data_processing/loader.py:36 | Python's string order, which pivot sorts ratings by, is a strict total order |
| Loader.InsertSortedAscending | bond_yield/data_processing/loader.py:36 | insertion keeps a run ascending and adds exactly the new element |
| Loader.SortedDistinctSpec | bond_yield/data_processing/loader.py:36 | pivot's axis is ascending and holds exactly the values that occur |
| Loader.IndexOf | bond_yield/data_processing/loader.py:31 | the first position of a date, as `df.at` finds it |
| Loader.Ratings | bond_yield/data_processing/loader.py:36 | the Rating column of the triples, position by position |
| Loader.Tenors | bond_yield/data_processing/loader.py:36 | the Tenor column of the triples, position by position |
| Loader.Pivot | bond_yield/data_processing/loader.py:35-36 | fails with the duplicate-entries error iff two triples name the same cell; otherwise the grid is rectangular |
| Loader.PivotRows | bond_yield/data_processing/loader.py:36 | the rows are the distinct ratings, ascending |
| Loader.PivotColumns | bond_yield/data_processing/loader.py:36 | the columns are the distinct tenors, ascending |
| Loader.CellOfFound | bond_yield/data_processing/loader.py:36 | without duplicates, a triple's cell holds that triple's value |
| Loader.CellOfMissing | bond_yield/data_processing/loader.py:36 | a cell no triple names holds NaN |
| Loader.PivotPlacement | bond_yield/data_processing/loader.py:35-36 | each triple's value sits in the pivot at its rating's row and its tenor's column |
| Loader.PivotMissing | bond_yield/data_processing/loader.py:36 | a pivot cell that no triple names is NaN |
| Loader.RowTriplesSuccess | bond_yield/data_processing/loader.py:28-32 | on success there is one triple per column, holding the header's rating and tenor and the cell's value |
| Loader.RowTriplesFailure | bond_yield/data_processing/loader.py:28-32 | a failure is the error of the first bad header |
| Loader.RowTriplesTotal | bond_yield/data_processing/loader.py:28-32 | with every header well-formed, the row never fails |
| Loader.RowTriplesPrefixFails | bond_yield/data_processing/loader.py:28-32 | once a header fails, the later columns are never read |
| Loader.CollectTriples | bond_yield/data_processing/loader.py:27-32 | the column loop computes exactly `RowTriples` |
| Loader.UniqueDates | bond_yield/data_processing/loader.py:26 | `index.unique()`: distinct, holding exactly the dates of the table, in order of each date's first row |
| Loader.LoadDatesPrefixFails | bond_yield/data_processing/loader.py:26-37 | once a date fails, the later dates change nothing |
| Loader.LoadDatesSnoc | bond_yield/data_processing/loader.py:26-37 | one more loaded date extends the dates and the grids by that date and its grid |
| Loader.LoadDatesStop | bond_yield/data_processing/loader.py:26-37 | a date whose grid fails ends the whole load with that error |
| Loader.LoadBondYields | bond_yield/data_processing/loader.py:22-39 | the nested loops compute exactly `LoadSpec` |
| Loader.LoadDatesGrids | bond_yield/data_processing/loader.py:26-37 | on success there is one grid per date, the one built for that date |
| Loader.LoadDatesFailure | bond_yield/data_processing/loader.py:26-37 | the load fails iff some date's grid fails |
| Loader.OneGridPerDate | bond_yield/data_processing/loader.py:22-39 | the loaded dates are the distinct dates of the table, ordered by their first row, each with its own grid |
| Loader.LoadPlacement | bond_yield/data_processing/loader.py:26-37 | the cell of column k in date i's row sits in date i's grid at the rating and tenor that column's header names |
| Loader.LoadHeaderFails | bond_yield/data_processing/loader.py:26-32 | a bad header makes the load fail whenever there is a date; a table without dates loads to nothing |
| FakeData.ColumnNames | bond_yield/tests/generate_fake_data.py:26 | one name per (rating, tenor) pair |
| FakeData.ColumnNamesLayout | bond_yield/tests/generate_fake_data.py:26 | rating-major layout: name i·m+j is `ratings[i]::tenors[j]` |
| FakeData.NamesRoundTrip | bond_yield/tests/generate_fake_data.py:26 | every generated name parses back to its (rating, tenor) |
| FakeData.ColumnNameInjective | bond_yield/tests/generate_fake_data.py:26 | different (rating, tenor) pairs give different names |
| FakeData.NamesDistinct | bond_yield/tests/generate_fake_data.py:26 | distinct ratings and tenors give distinct column names |
| FakeData.TenorsShape | bond_yield/tests/generate_fake_data.py:19 | ten tenors, strictly increasing whole years in days, from 365 to 3650 |
| FakeData.RatingsShape | bond_yield/tests/generate_fake_data.py:18 | ten distinct ratings, none containing a colon |
| FakeData.GeneratedNamesDistinct | bond_yield/tests/generate_fake_data.py:18-26 | the generated header has 100 distinct names |
| FakeData.GeneratedNameParses | bond_yield/tests/generate_fake_data.py:18-26 | name p parses to (ratings[p/10], tenors[p%10]) |
| FakeData.Cells | bond_yield/tests/generate_fake_data.py:29-32 | each drawn yield becomes a present cell in the same position |
| FakeData.GenerateFakeBondYields | bond_yield/tests/generate_fake_data.py:6-33 | the table has the given dates, the 100 generated headers, and the drawn yields as its cells |
| FakeData.GeneratedRowParses | bond_yield/tests/generate_fake_data.py:26 | any row under generated headers turns into triples without error |
| FakeData.TripleAt | bond_yield/tests/generate_fake_data.py:26 | triple p of such a row carries rating i and tenor j with p = i·m+j |
| FakeData.GeneratedRowPivots | bond_yield/tests/generate_fake_data.py:26 | with distinct ratings and tenors, such a row pivots without duplicate entries |
| FakeData.LoadGeneratedShape | bond_yield/tests/generate_fake_data.py:6-33 | a table of generated shape loads, with its distinct dates in order |
| FakeData.LoadGeneratedShapeCell | bond_yield/tests/generate_fake_data.py:6-33 | in a loaded table of generated shape, each rating and tenor holds the cell of its column |
| FakeData.GeneratedHasShape | bond_yield/tests/generate_fake_data.py:6-33 | the generated table has the generated shape |
| FakeData.LoadGeneratedSucceeds | bond_yield/tests/generate_fake_data.py:6-33 | loading the generated table never fails, and it gives one grid per distinct date |
| FakeData.LoadGeneratedCell | bond_yield/tests/generate_fake_data.py:6-33 | in the loaded grid of each date, rating a and tenor b hold the yield drawn for column 10a+b on that date's first row |
| Linear.Where | bond_yield/interpolators/linear.py:27 | the ascending positions of exactly the points of rating k |
| Linear.UniqueKeys | bond_yield/interpolators/linear.py:23 | the distinct ratings of the training points, each occurring in X |
| Linear.Insert | bond_yield/interpolators/linear.py:28 | insertion adds exactly one knot, as a multiset |
| Linear.InsertSorted | bond_yield/interpolators/linear.py:28 | insertion keeps a run sorted by tenor |
| Linear.SortByTenor | bond_yield/interpolators/linear.py:28-30 | argsort by tenor: sorted, and a permutation of the group |
| Linear.KnotsOf | bond_yield/interpolators/linear.py:29-30 | the knots are the sorted tenors and their y values, position by position |
| Linear.Gather | bond_yield/interpolators/linear.py:29-30 | the (tenor, y) pair at each selected position |
| Linear.GroupKnots | bond_yield/interpolators/linear.py:26-34 | fails iff y is too short for the group or the group has fewer than two knots; otherwise the knots come in equal-length pairs |
| Linear.GroupKnotsSorted | bond_yield/interpolators/linear.py:26-34 | a group's knots are its points sorted by tenor |
| Linear.FitKeys | bond_yield/interpolators/linear.py:26-34 | every fitted key has its group's knots; there is no error iff every key's group succeeds, and then every key is fitted |
| Linear.FitKeysRaised | bond_yield/interpolators/linear.py:26-34 | the error the loop leaves is the error of some key's group |
| Linear.FitKeysStops | bond_yield/interpolators/linear.py:26-34 | after an error, later keys change nothing |
| Linear.LinearFit | bond_yield/interpolators/linear.py:23-34 | the fit raises exactly when the knots of some rating of X cannot be built |
| Linear.LinearFitKeys | bond_yield/interpolators/linear.py:11-34 | a successful fit covers every rating of X, each with that rating's sorted knots |
| Linear.Predictions | bond_yield/interpolators/linear.py:48-57 | one prediction per query, in query order |
| Linear.LinearFitPredict | bond_yield/interpolators/linear.py:11-57 | fails iff the fit fails; otherwise one prediction per query |
| Linear.LinearInterpolator.constructor | bond_yield/interpolators/linear.py:7-9 | a new interpolator has no fitted groups |
| Linear.LinearInterpolator.Fit | bond_yield/interpolators/linear.py:11-34 | the stored groups and the error are those of `LinearFit` |
| Linear.LinearInterpolator.FitEach | bond_yield/interpolators/linear.py:26-34 | the loop over keys leaves the state `FitKeys` describes |
| Linear.LinearInterpolator.Interpolate | bond_yield/interpolators/linear.py:36-57 | not fitted, with a query, raises; otherwise the group interpolant at each query's tenor, or 0 for an unseen rating |
| Linear.FitThenInterpolate | bond_yield/interpolators/linear.py:7-57 | a fresh fit followed by interpolate equals `LinearFitPredict` |
| ThinPlateSpline.GreenSymmetric | bond_yield/interpolators/thin_plate_spline.py:18-24 | the kernel is symmetric in its two points |
| ThinPlateSpline.KernelMatrix | bond_yield/interpolators/thin_plate_spline.py:26-38 | an n×n matrix with a zero diagonal and the kernel of points i and j elsewhere |
| ThinPlateSpline.KernelMatrixSymmetric | bond_yield/interpolators/thin_plate_spline.py:26-38 | the kernel matrix is symmetric |
| ThinPlateSpline.ConstructN | bond_yield/interpolators/thin_plate_spline.py:40-45 | one row [1, x, y] per point |
| ThinPlateSpline.Regularised | bond_yield/interpolators/thin_plate_spline.py:58 | M + λI: λ added on the diagonal only |
| ThinPlateSpline.RegularisedKernel | bond_yield/interpolators/thin_plate_spline.py:53-58 | the regularised kernel matrix has λ on the diagonal and the kernel elsewhere |
| ThinPlateSpline.Predict | bond_yield/interpolators/thin_plate_spline.py:67-75 | as written: the kernel sum at each query plus the affine value of the first training point |
| ThinPlateSpline.PredictAffineConstant | bond_yield/interpolators/thin_plate_spline.py:74-75 | as written, every query receives the same affine term |
| ThinPlateSpline.PredictAffineFromFirstRow | bond_yield/interpolators/thin_plate_spline.py:74-75 | counterexample: for the surface z = x, the code as written predicts 0 at (5, 0) where the intended value is 5 |
| ThinPlateSpline.PredictIntended | bond_yield/interpolators/thin_plate_spline.py:67-75 | corrected: one prediction per query, with the affine term taken at the query |
| ThinPlateSpline.KernelPartZero | bond_yield/interpolators/thin_plate_spline.py:72-73 | zero kernel weights give a zero kernel sum |
| ThinPlateSpline.PredictIntendedReproducesAffine | bond_yield/interpolators/thin_plate_spline.py:67-75 | corrected: with zero kernel weights, the prediction equals the affine surface at every query |
| ThinPlateSpline.ThinPlateSplineInterpolator.constructor | bond_yield/interpolators/thin_plate_spline.py:5-16 | stores λ; nothing is fitted yet |
| ThinPlateSpline.ThinPlateSplineInterpolator.Default | bond_yield/interpolators/thin_plate_spline.py:5-16 | λ defaults to 0.1; nothing is fitted yet |
| ThinPlateSpline.ThinPlateSplineInterpolator.ConstructM | bond_yield/interpolators/thin_plate_spline.py:26-38 | the double loop fills a fresh array with `KernelMatrix`, which is symmetric |
| ThinPlateSpline.ThinPlateSplineInterpolator.Fit | bond_yield/interpolators/thin_plate_spline.py:47-65 | stores the points and N = `ConstructN(points)`; stores the solver's coefficients, or raises its error and keeps the coefficients of any earlier fit |
| ThinPlateSpline.ThinPlateSplineInterpolator.Interpolate | bond_yield/interpolators/thin_plate_spline.py:67-75 | not fitted raises; otherwise `Predict`, whose affine row is N[0] = [1, x0, y0] |
| GridFilling.StringIndex | bond_yield/interpolators/interpolate_bond_yields.py:22 | `astype(str)`: every label becomes text; text labels stay, and a number becomes its printed form |
| GridFilling.AllPositions | bond_yield/interpolators/interpolate_bond_yields.py:26 | every cell of the grid exactly once, in row-major order |
| GridFilling.Select | bond_yield/interpolators/interpolate_bond_yields.py:23-33 | the listed cells whose presence is as requested, in order |
| GridFilling.SelectCount | bond_yield/interpolators/interpolate_bond_yields.py:23-33 | present and missing cells together number all listed cells |
| GridFilling.PresentMissingPartition | bond_yield/interpolators/interpolate_bond_yields.py:23-33 | each cell is in the training list iff present and in the query list iff missing; both lists are row-major and together cover the grid |
| GridFilling.PointsAt | bond_yield/interpolators/interpolate_bond_yields.py:26 | the (row label, tenor) point of each listed cell |
| GridFilling.ValuesAt | bond_yield/interpolators/interpolate_bond_yields.py:27 | the value of each listed cell |
| GridFilling.Fill | bond_yield/interpolators/interpolate_bond_yields.py:39-40 | the writes keep the grid's shape |
| GridFilling.FillSpec | bond_yield/interpolators/interpolate_bond_yields.py:39-40 | after n writes, cell ps[k] holds prediction k, and every cell not written is unchanged |
| GridFilling.FillMissing | bond_yield/interpolators/interpolate_bond_yields.py:33-40 | writing one prediction per missing cell fills the missing cells from the predictions |
| GridFilling.FillKeepsPresent | bond_yield/interpolators/interpolate_bond_yields.py:39-42 | present cells keep their values |
| GridFilling.FillWritesMissing | bond_yield/interpolators/interpolate_bond_yields.py:39-40 | the k-th missing cell receives the k-th prediction |
| GridFilling.FillCompletes | bond_yield/interpolators/interpolate_bond_yields.py:35-40 | with numeric predictions, no cell is missing afterwards |
| GridFilling.FilledCells | bond_yield/interpolators/interpolate_bond_yields.py:22-42 | a row label shared by two rows (with a column present) or a tenor shared by two columns (with a row present) raises first, then a grid with no present cell; otherwise fails iff the fit on the present cells fails |
| GridFilling.PreFitError | bond_yield/interpolators/interpolate_bond_yields.py:22-30 | an exception before the fit exactly when a label read meets a repeated row or column label, or no cell is present, the repeated label taking precedence |
| GridFilling.FitAndFill | bond_yield/interpolators/interpolate_bond_yields.py:30-40 | fails iff the linear fit on the present cells fails |
| GridFilling.FilledCellsSpec | bond_yield/interpolators/interpolate_bond_yields.py:22-42 | the filled cells are the predictions for the missing cells written into them, with the rest unchanged |
| GridFilling.CompleteGridUnchanged | bond_yield/interpolators/interpolate_bond_yields.py:33-42 | a grid with no missing cell comes back unchanged, and nothing is queried |
| GridFilling.WriteCells | bond_yield/interpolators/interpolate_bond_yields.py:39-40 | the write loop leaves the cells `Fill` describes and does not touch the index or the columns |
| GridFilling.NewMatrixInterpolator | bond_yield/interpolators/interpolate_bond_yields.py:8-10 | the constructor's assertion fails iff the candidate is not a base interpolator |
| GridFilling.MatrixInterpolator.constructor | bond_yield/interpolators/interpolate_bond_yields.py:8-10 | stores the interpolator |
| GridFilling.MatrixInterpolator.FillFromFit | bond_yield/interpolators/interpolate_bond_yields.py:32-40 | after the fit, the grid's cells become `FitAndFill` |
| GridFilling.MatrixInterpolator.FitThenFill | bond_yield/interpolators/interpolate_bond_yields.py:30-40 | the interpolator holds the fit on the present cells; if the fit raises, the error with the cells unchanged, otherwise the cells of `FitAndFill` |
| GridFilling.MatrixInterpolator.FitInterpolate | bond_yield/interpolators/interpolate_bond_yields.py:12-42 | the index becomes text; a repeated row or column label, or an empty training set, raises with the interpolator and the cells untouched; otherwise the interpolator holds the fit on the present cells, and the cells are unchanged if it raised or become `FilledCells`, the missing cells filled and the present cells kept |
| CrossValidation.FlatSamplesLength | bond_yield/analysis/cross_validation.py:26-32 | flattening gives one sample per cell |
| CrossValidation.FlatSamplesAt | bond_yield/analysis/cross_validation.py:26-32 | sample c·rows+r is (rating r, tenor c) with the cell's value: tenor-major order |
| CrossValidation.Flatten | bond_yield/analysis/cross_validation.py:26-32 | the nested loop computes exactly the flattened samples |
| CrossValidation.Complement | bond_yield/analysis/cross_validation.py:34-36 | the training indices are exactly the indices the fold does not test, ascending |
| CrossValidation.SquaredErrorSum | bond_yield/analysis/cross_validation.py:41 | never negative; 0 for equal vectors |
| CrossValidation.Mse | bond_yield/analysis/cross_validation.py:41 | fails iff the lengths differ, the input is empty or some value is NaN; otherwise non-negative, and 0 for perfect predictions |
| CrossValidation.FoldError | bond_yield/analysis/cross_validation.py:35-41 | an out-of-range test index raises; a NaN target raises; otherwise non-negative |
| CrossValidation.FoldErrors | bond_yield/analysis/cross_validation.py:34-42 | succeeds iff every fold does, and then holds one error per fold |
| CrossValidation.FoldErrorsStops | bond_yield/analysis/cross_validation.py:34-42 | after a failing fold, the later folds are never run |
| CrossValidation.MeanError | bond_yield/analysis/cross_validation.py:44 | NaN iff there is no fold; the mean of non-negative errors is non-negative |
| CrossValidation.CrossValidateSpec | bond_yield/analysis/cross_validation.py:9-44 | a row label shared by two rows (with a column present) or a tenor shared by two columns (with a row present) fails, as `df.loc` then reads a Series; on success the sample count is the grid's cell count and the error is non-negative |
| CrossValidation.MissingCellFails | bond_yield/analysis/cross_validation.py:9-44 | a grid with a missing cell fails when every sample is tested |
| CrossValidation.CrossValidateSingle | bond_yield/analysis/cross_validation.py:9-44 | the loops compute exactly `CrossValidateSpec` |
| CrossValidation.RunFold | bond_yield/analysis/cross_validation.py:35-42 | one fold's body computes exactly `FoldError` |
| CrossValidation.WeightedSumPresent | bond_yield/analysis/cross_validation.py:63-66 | the weighted total is NaN iff some date's error is NaN |
| CrossValidation.Aggregate | bond_yield/analysis/cross_validation.py:68-73 | raises the no-data error iff the total sample count is zero; otherwise NaN iff some date's error is NaN |
| CrossValidation.WeightedSumWithin | bond_yield/analysis/cross_validation.py:63-66 | bounds on every date's error bound the weighted total by the same bounds times the weight |
| CrossValidation.AggregateWithin | bond_yield/analysis/cross_validation.py:60-73 | the weighted mean lies between any bounds of the per-date errors |
| CrossValidation.DateScores | bond_yield/analysis/cross_validation.py:63-64 | one score per date on success |
| CrossValidation.DateScoresAt | bond_yield/analysis/cross_validation.py:63-64 | score d is the score of grid d |
| CrossValidation.DateScoresStops | bond_yield/analysis/cross_validation.py:63-64 | after a failing date, later dates are never scored |
| CrossValidation.PerformSpec | bond_yield/analysis/cross_validation.py:47-73 | no dates raise the no-data error; a numeric result is non-negative |
| CrossValidation.MaxError | bond_yield/analysis/cross_validation.py:60-73 | an upper bound of the per-date errors |
| CrossValidation.ScoreDate | bond_yield/analysis/cross_validation.py:64 | one date's scoring equals the scorer |
| CrossValidation.AccumulateDates | bond_yield/analysis/cross_validation.py:60-66 | the date loop's running totals are those of the per-date scores, or the first error raised |
| CrossValidation.PerformCrossValidation | bond_yield/analysis/cross_validation.py:47-73 | the loop and the final division compute exactly `PerformSpec` |
| CrossValidators.Relabel | bond_yield/analysis/cross_validator.py:73 | a known label becomes its scale value; any other label becomes 0 or stays as it is, by the fallback |
| CrossValidators.RelabelTwiceToZero | bond_yield/analysis/cross_validator.py:73 | with the zero fallback every label comes out a number, so a second pass through a text scale turns every label into 0 |
| CrossValidators.RelabelKeepsNumbers | bond_yield/analysis/cross_validator_slope_rating_slope.py:34 | with the keep fallback, a label that is already a number survives a second pass unchanged |
| CrossValidators.StepOfIsStep | bond_yield/analysis/cross_validator.py:70-72 | one date's optimization is the converter's step and keeps scales valid |
| CrossValidators.PrepareScales | bond_yield/analysis/cross_validator.py:68-73 | the pass has an error iff it stopped before the last date |
| CrossValidators.PrepareScalesValid | bond_yield/analysis/cross_validator.py:68-73 | every scale of the pass is valid |
| CrossValidators.PrepareScalesChain | bond_yield/analysis/cross_validator.py:68-73 | each date's scale is the optimization of the previous date's scale |
| CrossValidators.ChainedSnoc | bond_yield/analysis/cross_validator.py:68-73 | a chain extends by a successful step from its last scale |
| CrossValidators.PrepareScalesUnique | bond_yield/analysis/cross_validator.py:68-73 | any chained run that stops correctly is the pass |
| CrossValidators.PrepareScalesFails | bond_yield/analysis/cross_validator.py:68-73 | a pass that stopped did so with the error of the optimization from its last scale |
| CrossValidators.PrepareScalesLabels | bond_yield/analysis/cross_validator.py:68-73 | every scale keeps a prefix of the converter's labels, in order |
| CrossValidators.PrepareScalesStops | bond_yield/analysis/cross_validator.py:68-73 | after a failed date, the later dates change nothing |
| CrossValidators.Prepared | bond_yield/analysis/cross_validator.py:68-73 | the prepared dates have their index relabelled through their own scale; the rest are untouched |
| CrossValidators.PreparedStep | bond_yield/analysis/cross_validator.py:73 | preparing one more date rewrites that date's grid and no other |
| CrossValidators.PreparedWellFormed | bond_yield/analysis/cross_validator.py:73 | relabelling keeps every grid rectangular |
| CrossValidators.OptimizeForDate | bond_yield/analysis/cross_validator.py:70-72 | the strategy holds the grid, and the converter's scale becomes the step's result or stays after an error |
| CrossValidators.PrepareBySlope | bond_yield/analysis/cross_validator.py:68-73 | the preparation loop, with the converter's `ratings` read where the code calls `get_rating_scale`, leaves the scales, the converter and the grids that the pass `PrepareScales` describes |
| CrossValidators.PrepareEach | bond_yield/analysis/cross_validator.py:68-73 | the loop's scales are chained and valid; it stops with the first error; the converter ends on the last scale; the grids are `Prepared` |
| CrossValidators.PrepareAsWritten | bond_yield/analysis/cross_validator.py:68-73 | as written: with at least one date, only the first date is optimized and the pass then raises AttributeError (or the optimizer's exception), relabelling no grid; with no date it does nothing |
| CrossValidators.PrepareScalesSucceeds | bond_yield/analysis/cross_validator.py:68-73 | when no optimization raises, the pass reaches every date and gives each its scale |
| CrossValidators.ZeroFallbackRepeats | bond_yield/analysis/cross_validator.py:73 | two labels the scale lacks both become 0, so cross-validating the relabelled grid then fails on the repeated label |
| CrossValidators.BaseCrossValidator.constructor | bond_yield/analysis/cross_validator.py:6-10 | stores the interpolator, the grids and the splitter |
| CrossValidators.BaseCrossValidator.CrossValidateSingleDataframe | bond_yield/analysis/cross_validator.py:16-38 | equals the shared `CrossValidation.CrossValidateSpec` |
| CrossValidators.BaseCrossValidator.PerformCrossValidation | bond_yield/analysis/cross_validator.py:40-56 | with nothing prepared, equals the shared `CrossValidation.PerformSpec` |
| CrossValidators.CrossValidatorBySlope.constructor | bond_yield/analysis/cross_validator.py:64-66 | stores the converter alongside the base fields |
| CrossValidators.CrossValidatorBySlope.PrepareDataframes | bond_yield/analysis/cross_validator.py:68-73 | reading `ratings` for `get_rating_scale` (see Findings), the grids are relabelled with the zero fallback through the pass's scales; the converter keeps the last scale; the strategy's `bond_yield_df` is the last date's grid, or the failing date's, and is untouched with no date; the first error propagates |
| CrossValidators.CrossValidatorBySlope.PerformCrossValidation | bond_yield/analysis/cross_validator.py:40-56 | prepares first, leaving the converter's scale and the strategy's `bond_yield_df` as `PrepareDataframes` states; an error there propagates; otherwise `PerformSpec` on the relabelled grids, where a grid with two ratings mapped to 0 fails on the repeated label |
| SlopeBasedValidation.SlopeBasedCrossValidator.constructor | bond_yield/analysis/cross_validator_slope_rating_slope.py:6-21 | stores the interpolator, the grids, the converter and the splitter |
| SlopeBasedValidation.SlopeBasedCrossValidator.PrepareDataframes | bond_yield/analysis/cross_validator_slope_rating_slope.py:23-34 | reading `ratings` for `get_rating_scale` (see Findings), the grids are relabelled with the keep fallback through the pass's scales; the converter keeps the last scale; the strategy's `bond_yield_df` is the last date's grid, or the failing date's, and is untouched with no date; the first error propagates |
| SlopeBasedValidation.SlopeBasedCrossValidator.CrossValidateSingleDataframe | bond_yield/analysis/cross_validator_slope_rating_slope.py:36-67 | equals the shared `CrossValidation.CrossValidateSpec` |
| SlopeBasedValidation.SlopeBasedCrossValidator.PerformCrossValidation | bond_yield/analysis/cross_validator_slope_rating_slope.py:69-91 | prepares first, leaving the converter's scale and the strategy's `bond_yield_df` as `PrepareDataframes` states; an error there propagates; otherwise `PerformSpec` on the relabelled grids |

## Left out

- Floating point: all arithmetic is on exact reals. Rounding, overflow to infinity and the `1e-10` offset inside the logarithm are not modelled; the Green's-function profile is a parameter.
- The numerical solvers are parameters: SLSQP `minimize`, the matrix inversions of the spline fit, `interp1d` and the Green's-function profile. Their numerical results, and whether SLSQP converges, are not modelled.
- The `KFold` shuffle with its seed is a parameter that gives each fold's test indices. That the same seed yields the same partition is therefore not modelled.
- File input and output: `read_csv`, `to_csv`, the `print` calls and the `__main__` scripts. The CSV arrives as a `Csv` value holding dates, headers and rows.
- `load_bond_yields_single_dataframe` is a bare `read_csv`, so there is nothing to model beyond the I/O left out above.
- The fake-data generator: `np.random.uniform` and `pd.date_range` are not modelled; the yields and the dates are parameters.
- The module-level script of the fake-data file, which writes the sample CSV, is not modelled.
- `BaseTenorScaler`, `BaseRatingConverter`, `ObjectiveStrategy` and `BaseInterpolator` are abstract classes. Only their concrete subclasses are modelled.
- `get_rating_scale` is called by both slope validators but is defined nowhere in the package. `CrossValidators.PrepareAsWritten` models the loop as it stands (see Findings); the validators' preparation reads the converter's `ratings` dict in its place.
- Dafny has no default arguments: `OptimizeRatings` takes the bounds explicitly, and the validators pass `[]`, the default of `optimize_ratings`.
- DataFrame aliasing is not modelled. The validators' grids are values, so the strategy's attribute holds the grid before it is relabelled, not an object that is later changed.
- numpy coercion is not modelled. In the source, `np.array` of (label, tenor) pairs with a text label turns the whole array into text, tenors included; points stay typed pairs here. This reading of numpy, scipy and pandas was not executed. Its consequences are:
  - `interp1d` in `linear.py` sorts the text tenors as text. Its linear evaluation subtracts abscissae, which numpy refuses on text. Filling a missing cell whose rating has an interpolant, or cross-validating a grid with text labels, would therefore raise where the model predicts.
  - The spline's distance arithmetic meets the same text.
  - In the grid filler, `df.at[i, j] = pred` (line 40) receives the tenor as text. The loader's grids have integer column labels, so a prediction for an unseen rating is written into a new text-labelled column instead of the missing cell.
- Repeated row or column labels: pandas raises different `ValueError`s depending on how the labels repeat (a ragged array, an ambiguous truth value, or an error-metric shape mismatch). The model names all of them `RepeatedLabel`.
- Linear.UniqueKeys: gives the ratings in first-appearance order, where `np.unique` sorts them. The fitted map is the same either way. Only the choice of which group's error is raised first can differ.
- Linear.SortByTenor: states sorted-by-tenor and a permutation. It does not fix numpy's `argsort` order among equal tenors.
- RatingConverter.YieldBasedConvert: requires distinct row labels. With a duplicated label, pandas' `.loc` returns several rows and the mean is taken per column; that case is not modelled.
- SlopeRating.Calculate: does not state that the squared strategy is strictly positive for a non-zero slope. Only non-negativity and the zero case are stated.
- CrossValidation.ScoreOf: its branch for a non-rectangular grid cannot be taken, because a DataFrame is always rectangular. It returns a shape error there.
- Loader.DateGrid: the branch for a date absent from the table (a `KeyError` in pandas) cannot be reached from `LoadBondYields`. It returns a row error there.
- Loader.IndexOf: with repeated dates, the model reads the first row for the date. pandas' `df.at` would return every row for that date, and the `pivot` would then see several values per cell.
- Loader.ParseHeader: Python raises `ValueError` both for a header that does not split into two pieces and for a tenor that is not an integer. The model keeps the two apart as two error constructors.
- Loader.ParseInt: accepts ASCII digits only, while Python's `int()` also accepts other Unicode decimal digits.
- Loader.Pivot: modelled as the layout pandas produces (sorted axes, NaN where no value lands), not pandas' internal mechanics.

## Findings

| source | as written | input that shows it | evidently intended | confidence | as-written member | corrected member |
|---|---|---|---|---|---|---|
| bond_yield/data_processing/example_contraints.py:13-14 | `(lambda r: ...) - 0.2` subtracts a number from a function object, which raises `TypeError` while the list is built | any `initial_ratings`, for example `[0.1, 0.5, 1.0]` | the 0.2 inside the lambda: `lambda r: r[n-2] - r[n-3] - 0.2`, and likewise for the last pair | high (not executed) | ExampleConstraints.GenerateConstraints | ExampleConstraints.GenerateConstraintsIntended, ExampleConstraints.IntendedFeasible |
| bond_yield/analysis/cross_validator.py:72 | `self.rating_converter.get_rating_scale()` calls a method that no class of the package defines (likewise `cross_validator_slope_rating_slope.py:33`), so the first date's optimization runs and AttributeError follows | any non-empty dict of date grids | read the optimized scale, the converter's `ratings` dict, and relabel every date's grid through it | high (not executed) | CrossValidators.PrepareAsWritten | CrossValidators.PrepareBySlope, CrossValidators.PrepareScalesSucceeds |
| bond_yield/interpolators/thin_plate_spline.py:74-75 | the affine part `N @ b` is evaluated for the training points and row 0 is added to every query, so the affine term does not depend on the query | one training point (0, 0), weights a = [0], b = [0, 1, 0] (the surface z = x), query (5, 0): predicts 0 | `[1, x, y] · b` at each query, which reproduces an affine surface exactly | high (not executed) | ThinPlateSpline.PredictAffineFromFirstRow | ThinPlateSpline.PredictIntended, ThinPlateSpline.PredictIntendedReproducesAffine |

=== FILE: cross_validation.dfy ===
/**
 * K-fold cross-validation of an interpolator over dated yield grids. Each
 * grid is flattened tenor-major into (rating, tenor) samples. Every fold fits
 * a fresh interpolator on its training samples and scores the predictions on
 * its test samples by mean squared error. The fold errors are averaged per
 * date, and the per-date errors are combined weighted by sample count.
 *
 * The interpolator class enters as a fit-then-predict function (a fresh
 * instance per fold depends on nothing but its arguments). The shuffled
 * K-fold splitter enters as a function from the sample count to the test
 * index list of each fold.
 */
module CrossValidation {
  import opened Wrappers
  import opened Frames
  import Stats
  import Linear

  type Point = Linear.Point

  /** A fresh interpolator fitted on (X, y) and asked for predictions at Q, or the exception it raised. */
  type FitPredict = (seq<Point>, seq<Float>, seq<Point>) -> Result<seq<Float>, Error>

  /**
   * `KFold(n_splits, shuffle=True, random_state).split` on n samples: the test
   * index list of each fold, or the ValueError raised for a bad fold count.
   */
  type Splitter = nat -> Result<seq<seq<nat>>, Error>

  /** The feature rows and target values of a flattened grid. */
  datatype Samples = Samples(X: seq<Point>, y: seq<Float>)

  /** One date's result: its cross-validation error and its sample count. */
  datatype DateScore = DateScore(mse: Float, samples: nat)

  /** The samples of column c, one per row, in row order. */
  function ColumnSamples(t: Table, c: nat): Samples
    requires t.WellFormed() && c < |t.columns|
  {
    Samples(seq(|t.index|, r requires 0 <= r < |t.index| => (t.index[r], t.columns[c])),
            seq(|t.index|, r requires 0 <= r < |t.index| => t.cells[r][c]))
  }

  /** The samples of the first n columns, column after column. */
  function FlatSamples(t: Table, n: nat): Samples
    requires t.WellFormed() && n <= |t.columns|
  {
    if n == 0 then Samples([], [])
    else
      var prev := FlatSamples(t, n - 1);
      var col := ColumnSamples(t, n - 1);
      Samples(prev.X + col.X, prev.y + col.y)
  }

  /** Flattening n columns gives n·|index| samples. */
  lemma {:induction false} FlatSamplesLength(t: Table, n: nat)
    requires t.WellFormed() && n <= |t.columns|
    ensures |FlatSamples(t, n).X| == |FlatSamples(t, n).y| == n * |t.index|
    decreases n
  {
    if n > 0 {
      FlatSamplesLength(t, n - 1);
      assert n * |t.index| == (n - 1) * |t.index| + |t.index|;
    }
  }

  /**
   * Sample c·|index| + r of the flattened grid is the cell at row r of
   * column c: the outer order is by tenor, the inner by rating.
   */
  lemma {:induction false} FlatSamplesAt(t: Table, n: nat, c: nat, r: nat)
    requires t.WellFormed() && n <= |t.columns| && c < n && r < |t.index|
    ensures c * |t.index| + r < |FlatSamples(t, n).X| == |FlatSamples(t, n).y|
    ensures FlatSamples(t, n).X[c * |t.index| + r] == (t.index[r], t.columns[c])
    ensures FlatSamples(t, n).y[c * |t.index| + r] == t.cells[r][c]
    decreases n
  {
    var rows := |t.index|;
    FlatSamplesLength(t, n - 1);
    FlatSamplesLength(t, n);
    if c < n - 1 {
      FlatSamplesAt(t, n - 1, c, r);
      Stats.MulMonotone(c + 1, n - 1, rows);
      assert (c + 1) * rows == c * rows + rows;
    } else {
      assert c * rows == |FlatSamples(t, n - 1).X|;
    }
  }

  /** The flattening loop: rows inner, columns outer, appending one sample per cell. */
  method Flatten(t: Table) returns (X: seq<Point>, y: seq<Float>)
    requires t.WellFormed()
    ensures Samples(X, y) == FlatSamples(t, |t.columns|)
    ensures |X| == |y| == |t.columns| * |t.index|
  {
    X, y := [], [];
    var c := 0;
    while c < |t.columns|
      invariant c <= |t.columns|
      invariant Samples(X, y) == FlatSamples(t, c)
    {
      var col := ColumnSamples(t, c);
      var r := 0;
      while r < |t.index|
        invariant r <= |t.index|
        invariant X == FlatSamples(t, c).X + col.X[..r]
        invariant y == FlatSamples(t, c).y + col.y[..r]
      {
        X := X + [(t.index[r], t.columns[c])];
        y := y + [t.cells[r][c]];
        assert col.X[..r + 1] == col.X[..r] + [col.X[r]];
        assert col.y[..r + 1] == col.y[..r] + [col.y[r]];
        r := r + 1;
      }
      assert col.X[..r] == col.X && col.y[..r] == col.y;
      c := c + 1;
    }
    FlatSamplesLength(t, |t.columns|);
  }

  /** The indices below n that a fold does not test, ascending: its training indices. */
  function Complement(n: nat, test: seq<nat>): (train: seq<nat>)
    ensures forall j :: 0 <= j < |train| ==> train[j] < n && train[j] !in test
    ensures forall i: nat :: i < n && i !in test ==> i in train
    ensures forall j, j' :: 0 <= j < j' < |train| ==> train[j] < train[j']
  {
    if n == 0 then []
    else
      var prev := Complement(n - 1, test);
      if n - 1 in test then prev else prev + [n - 1]
  }

  /** `a[idx]` with an integer index array whose entries are all in range. */
  function Take<T>(a: seq<T>, idx: seq<nat>): seq<T>
    requires Linear.AllBelow(idx, |a|)
  {
    seq(|idx|, j requires 0 <= j < |idx| => a[idx[j]])
  }

  predicate AllPresent(s: seq<Float>) {
    forall i :: 0 <= i < |s| ==> s[i].Some?
  }

  function Values(s: seq<Float>): seq<real>
    requires AllPresent(s)
  {
    seq(|s|, i requires 0 <= i < |s| => s[i].value)
  }

  /** The sum of squared differences, left to right. */
  function SquaredErrorSum(a: seq<real>, b: seq<real>): (s: real)
    requires |a| == |b|
    ensures s >= 0.0
    ensures a == b ==> s == 0.0
    decreases |a|
  {
    if |a| == 0 then 0.0
    else
      var d := a[|a| - 1] - b[|a| - 1];
      SquaredErrorSum(a[..|a| - 1], b[..|a| - 1]) + d * d
  }

  /**
   * `mean_squared_error(y_true, y_pred)`: it refuses arrays of different
   * lengths, empty arrays and NaN entries with a ValueError, and otherwise
   * returns the mean of the squared differences.
   */
  function Mse(yTrue: seq<Float>, yPred: seq<Float>): (res: Result<real, Error>)
    ensures res.Failure? <==> |yTrue| != |yPred| || |yTrue| == 0 || !AllPresent(yTrue) || !AllPresent(yPred)
    ensures res.Success? ==> res.value >= 0.0
    ensures res.Success? && yTrue == yPred ==> res.value == 0.0
  {
    if |yTrue| != |yPred| then Failure(ShapeMismatch)
    else if |yTrue| == 0 then Failure(EmptyInput)
    else if !AllPresent(yTrue) || !AllPresent(yPred) then Failure(NonFiniteInput)
    else Success(SquaredErrorSum(Values(yTrue), Values(yPred)) / (|yTrue| as real))
  }

  /**
   * One fold: a fresh interpolator is fitted on the samples outside `test`
   * and scored on the samples in `test`; an out-of-range test index raises.
   */
  function FoldError(fitPredict: FitPredict, s: Samples, test: seq<nat>): (res: Result<real, Error>)
    requires |s.X| == |s.y|
    ensures res.Success? ==> res.value >= 0.0
    ensures !Linear.AllBelow(test, |s.y|) ==> res == Failure(RowOutOfRange)
    ensures (exists j :: 0 <= j < |test| && test[j] < |s.y| && s.y[test[j]].None?) ==> res.Failure?
  {
    if !Linear.AllBelow(test, |s.y|) then Failure(RowOutOfRange)
    else
      var train := Complement(|s.y|, test);
      var yTest := Take(s.y, test);
      assert (exists j :: 0 <= j < |test| && s.y[test[j]].None?) ==> !AllPresent(yTest) by {
        if j :| 0 <= j < |test| && s.y[test[j]].None? {
          assert yTest[j].None?;
        }
      }
      match fitPredict(Take(s.X, train), Take(s.y, train), Take(s.X, test))
      case Failure(e) => Failure(e)
      case Success(pred) => Mse(yTest, pred)
  }

  /** The folds in order: the first fold that raises ends the run, otherwise one error per fold. */
  function FoldErrors(fitPredict: FitPredict, s: Samples, folds: seq<seq<nat>>): (res: Result<seq<real>, Error>)
    requires |s.X| == |s.y|
    ensures res.Success? <==> forall f :: 0 <= f < |folds| ==> FoldError(fitPredict, s, folds[f]).Success?
    ensures res.Success? ==> |res.value| == |folds|
    ensures res.Success? ==> forall f :: 0 <= f < |folds| ==> res.value[f] == FoldError(fitPredict, s, folds[f]).value
    decreases |folds|
  {
    if |folds| == 0 then Success([])
    else
      var last := |folds| - 1;
      assert forall f :: 0 <= f < last ==> folds[..last][f] == folds[f];
      match FoldErrors(fitPredict, s, folds[..last])
      case Failure(e) => Failure(e)
      case Success(errs) =>
        match FoldError(fitPredict, s, folds[last])
        case Failure(e) => Failure(e)
        case Success(e) => Success(errs + [e])
  }

  /** Once a prefix of the folds raises, the later folds are never run. */
  lemma {:induction false} FoldErrorsStops(fitPredict: FitPredict, s: Samples, folds: seq<seq<nat>>, m: nat)
    requires |s.X| == |s.y| && m <= |folds|
    requires FoldErrors(fitPredict, s, folds[..m]).Failure?
    ensures FoldErrors(fitPredict, s, folds) == FoldErrors(fitPredict, s, folds[..m])
    decreases |folds| - m
  {
    if m < |folds| {
      var last := |folds| - 1;
      assert folds[..last][..m] == folds[..m];
      FoldErrorsStops(fitPredict, s, folds[..last], m);
    } else {
      assert folds[..m] == folds;
    }
  }

  /** `np.mean` of the fold errors; with no fold at all it is NaN. */
  function MeanError(errs: seq<real>): (m: Float)
    ensures m.Some? <==> |errs| > 0
    ensures (forall f :: 0 <= f < |errs| ==> errs[f] >= 0.0) && m.Some? ==> m.value >= 0.0
  {
    if |errs| == 0 then None
    else
      assert (forall f :: 0 <= f < |errs| ==> errs[f] >= 0.0) ==> Stats.Mean(errs) >= 0.0 by {
        if forall f :: 0 <= f < |errs| ==> errs[f] >= 0.0 {
          Stats.MeanNonNegative(errs);
        }
      }
      Some(Stats.Mean(errs))
  }

  /**
   * `cross_validate_single_dataframe`: the mean fold error of one grid and
   * its sample count, which counts every cell, missing or not. A cell is
   * read by its labels (`df.loc`); a label that several rows or several
   * columns share reads a Series instead of a cell, and the arrays built
   * from it are refused.
   */
  function CrossValidateSpec(fitPredict: FitPredict, split: Splitter, t: Table): (res: Result<DateScore, Error>)
    requires t.WellFormed()
    ensures RepeatedRead(t) ==> res == Failure(RepeatedLabel)
    ensures res.Success? ==> res.value.samples == CellCount(t)
    ensures res.Success? && res.value.mse.Some? ==> res.value.mse.value >= 0.0
  {
    FlatSamplesLength(t, |t.columns|);
    var s := FlatSamples(t, |t.columns|);
    if HasRepeatedRead(t) then Failure(RepeatedLabel)
    else match split(|s.y|)
    case Failure(e) => Failure(e)
    case Success(folds) =>
      match FoldErrors(fitPredict, s, folds)
      case Failure(e) => Failure(e)
      case Success(errs) => Success(DateScore(MeanError(errs), |s.y|))
  }

  /** The number of cells of a grid, missing or not. */
  function CellCount(t: Table): nat {
    |t.columns| * |t.index|
  }

  /** Every one of n samples is in the test list of some fold. */
  ghost predicate CoversAll(folds: seq<seq<nat>>, n: nat) {
    forall i :: 0 <= i < n ==> Tested(folds, i)
  }

  /** Sample i is in the test list of some fold. */
  ghost predicate Tested(folds: seq<seq<nat>>, i: nat) {
    exists f :: 0 <= f < |folds| && i in folds[f]
  }

  /**
   * When the splitter tests every sample somewhere, a grid with a missing
   * cell cannot be cross-validated: the fold that tests that cell hands a
   * NaN to the error metric, unless something raised before it.
   */
  lemma MissingCellFails(fitPredict: FitPredict, split: Splitter, t: Table, r: nat, c: nat)
    requires t.WellFormed() && r < |t.index| && c < |t.columns| && t.cells[r][c].None?
    requires split(|t.columns| * |t.index|).Success? ==> CoversAll(split(|t.columns| * |t.index|).value, |t.columns| * |t.index|)
    ensures CrossValidateSpec(fitPredict, split, t).Failure?
  {
    FlatSamplesAt(t, |t.columns|, c, r);
    FlatSamplesLength(t, |t.columns|);
    var s := FlatSamples(t, |t.columns|);
    var k := c * |t.index| + r;
    var n := |s.y|;
    if split(n).Success? {
      var folds := split(n).value;
      assert Tested(folds, k);
      var f :| 0 <= f < |folds| && k in folds[f];
      var j :| 0 <= j < |folds[f]| && folds[f][j] == k;
      assert FoldError(fitPredict, s, folds[f]).Failure?;
    }
  }

  /** The cross-validation loop over the folds of one grid. */
  method CrossValidateSingle(fitPredict: FitPredict, split: Splitter, t: Table) returns (res: Result<DateScore, Error>)
    requires t.WellFormed()
    ensures res == CrossValidateSpec(fitPredict, split, t)
  {
    if HasRepeatedRead(t) {
      return Failure(RepeatedLabel);
    }
    var X, y := Flatten(t);
    var s := Samples(X, y);
    var kf := split(|y|);
    if kf.Failure? {
      return Failure(kf.error);
    }
    var folds := kf.value;
    var mseMetrics: seq<real> := [];
    var f := 0;
    while f < |folds|
      invariant f <= |folds|
      invariant FoldErrors(fitPredict, s, folds[..f]) == Success(mseMetrics)
    {
      assert folds[..f + 1][..f] == folds[..f];
      var mse := RunFold(fitPredict, s, folds[f]);
      if mse.Failure? {
        FoldErrorsStops(fitPredict, s, folds, f + 1);
        return Failure(mse.error);
      }
      mseMetrics := mseMetrics + [mse.value];
      f := f + 1;
    }
    assert folds[..f] == folds;
    return Success(DateScore(MeanError(mseMetrics), |y|));
  }

  /**
   * One pass of the fold loop: the training samples are the complement of the
   * test positions, a fresh interpolator is fitted on them and asked for the
   * test points, and the mean squared error of its answers is the fold's error.
   */
  method RunFold(fitPredict: FitPredict, s: Samples, test: seq<nat>) returns (res: Result<real, Error>)
    requires |s.X| == |s.y|
    ensures res == FoldError(fitPredict, s, test)
  {
    if !Linear.AllBelow(test, |s.y|) {
      return Failure(RowOutOfRange);
    }
    var train := Complement(|s.y|, test);
    var pred := fitPredict(Take(s.X, train), Take(s.y, train), Take(s.X, test));
    if pred.Failure? {
      return Failure(pred.error);
    }
    res := Mse(Take(s.y, test), pred.value);
  }

  /** The samples of all dates together. */
  function SampleCount(scores: seq<DateScore>): nat
    decreases |scores|
  {
    if |scores| == 0 then 0 else SampleCount(scores[..|scores| - 1]) + scores[|scores| - 1].samples
  }

  /** A date's contribution e·n to the weighted total. */
  function Weighted(score: DateScore): real
    requires score.mse.Some?
  {
    score.mse.value * (score.samples as real)
  }

  /** Σ e·n over the dates, accumulated in order; a NaN error makes the total NaN. */
  function WeightedSum(scores: seq<DateScore>): Float
    decreases |scores|
  {
    if |scores| == 0 then Some(0.0)
    else
      var w := WeightedSum(scores[..|scores| - 1]);
      var last := scores[|scores| - 1];
      if w.Some? && last.mse.Some? then Some(w.value + Weighted(last)) else None
  }

  /** The weighted total is NaN exactly when some date's error is. */
  lemma {:induction false} WeightedSumPresent(scores: seq<DateScore>)
    ensures WeightedSum(scores).Some? <==> forall d :: 0 <= d < |scores| ==> scores[d].mse.Some?
    decreases |scores|
  {
    if |scores| > 0 {
      var init := scores[..|scores| - 1];
      assert forall d :: 0 <= d < |init| ==> init[d] == scores[d];
      WeightedSumPresent(init);
    }
  }

  /**
   * The weighted mean Σ e·n / Σ n of the date errors; no sample at all
   * (including no date at all) raises a ValueError.
   */
  function Aggregate(scores: seq<DateScore>): (res: Result<Float, Error>)
    ensures res.Failure? <==> SampleCount(scores) == 0
    ensures res.Failure? ==> res.error == NoData
    ensures |scores| == 0 ==> res == Failure(NoData)
    ensures res.Success? ==> (res.value.Some? <==> forall d :: 0 <= d < |scores| ==> scores[d].mse.Some?)
  {
    WeightedSumPresent(scores);
    var n := SampleCount(scores);
    if n == 0 then Failure(NoData)
    else match WeightedSum(scores)
      case None => Success(None)
      case Some(w) => Success(Some(w / (n as real)))
  }

  lemma ScaleWithin(e: real, k: real, lo: real, hi: real)
    requires lo <= e <= hi && k >= 0.0
    ensures lo * k <= e * k <= hi * k
  {
  }

  /** Every date's error is present and lies between lo and hi. */
  ghost predicate ScoresWithin(scores: seq<DateScore>, lo: real, hi: real) {
    forall d :: 0 <= d < |scores| ==> scores[d].mse.Some? && lo <= scores[d].mse.value <= hi
  }

  /** The sample count as a real, summed in the same order as the weighted total. */
  function SampleWeight(scores: seq<DateScore>): real
    decreases |scores|
  {
    if |scores| == 0 then 0.0 else SampleWeight(scores[..|scores| - 1]) + scores[|scores| - 1].samples as real
  }

  lemma {:induction false} SampleWeightCount(scores: seq<DateScore>)
    ensures SampleWeight(scores) == SampleCount(scores) as real
    decreases |scores|
  {
    if |scores| > 0 {
      SampleWeightCount(scores[..|scores| - 1]);
    }
  }

  /** Bounds on every date error bound the weighted sum by the same bounds times the sample count. */
  lemma {:induction false} WeightedSumWithin(scores: seq<DateScore>, lo: real, hi: real)
    requires ScoresWithin(scores, lo, hi)
    requires WeightedSum(scores).Some?
    ensures lo * SampleWeight(scores) <= WeightedSum(scores).value <= hi * SampleWeight(scores)
    decreases |scores|
  {
    if |scores| > 0 {
      var init := scores[..|scores| - 1];
      assert ScoresWithin(init, lo, hi) by {
        forall d | 0 <= d < |init| ensures init[d] == scores[d] { }
      }
      WeightedSumWithin(init, lo, hi);
      WeightedSumWithinStep(scores, lo, hi);
    }
  }

  /** The inductive step of WeightedSumWithin: the bound on all but the last date extends to all dates. */
  lemma WeightedSumWithinStep(scores: seq<DateScore>, lo: real, hi: real)
    requires |scores| > 0 && ScoresWithin(scores, lo, hi) && WeightedSum(scores).Some?
    requires var init := scores[..|scores| - 1];
      lo * SampleWeight(init) <= WeightedSum(init).value <= hi * SampleWeight(init)
    ensures lo * SampleWeight(scores) <= WeightedSum(scores).value <= hi * SampleWeight(scores)
  {
    var init := scores[..|scores| - 1];
    var last := scores[|scores| - 1];
    WithinStep(lo, hi, WeightedSum(init).value, SampleWeight(init), last.mse.value, last.samples as real,
      WeightedSum(scores).value, SampleWeight(scores));
  }

  /** Adding one term e·k with lo ≤ e ≤ hi and k ≥ 0 keeps a total within lo and hi times its weight. */
  lemma WithinStep(lo: real, hi: real, w0: real, n0: real, e: real, k: real, w: real, n: real)
    requires lo * n0 <= w0 <= hi * n0 && lo <= e <= hi && k >= 0.0
    requires w == w0 + e * k && n == n0 + k
    ensures lo * n <= w <= hi * n
  {
    ScaleWithin(e, k, lo, hi);
    assert lo * (n0 + k) == lo * n0 + lo * k;
    assert hi * (n0 + k) == hi * n0 + hi * k;
  }

  /** The aggregate lies between any lower and upper bound of the date errors, in particular their minimum and maximum. */
  lemma AggregateWithin(scores: seq<DateScore>, lo: real, hi: real)
    requires ScoresWithin(scores, lo, hi)
    requires SampleCount(scores) > 0
    ensures Aggregate(scores).Success? && Aggregate(scores).value.Some?
    ensures lo <= Aggregate(scores).value.value <= hi
  {
    WeightedSumPresent(scores);
    WeightedSumWithin(scores, lo, hi);
    SampleWeightCount(scores);
    DivideWithin(WeightedSum(scores).value, SampleCount(scores) as real, lo, hi);
  }

  lemma DivideWithin(w: real, n: real, lo: real, hi: real)
    requires n > 0.0 && lo * n <= w <= hi * n
    ensures lo <= w / n <= hi
  {
    assert (w / n) * n == w;
  }

  /** A per-date scorer: the result of cross-validating one grid. */
  type Scorer = Table -> Result<DateScore, Error>

  /** The scorer of the cross-validation functions (a data frame is always rectangular, so the second branch is never taken). */
  function ScoreOf(fitPredict: FitPredict, split: Splitter): Scorer {
    (t: Table) => if t.WellFormed() then CrossValidateSpec(fitPredict, split, t) else Failure(ShapeMismatch)
  }

  /** The dates in order: the first date that raises ends the run, otherwise one score per date. */
  function DateScores(score: Scorer, grids: seq<Table>): (res: Result<seq<DateScore>, Error>)
    ensures res.Success? ==> |res.value| == |grids|
    decreases |grids|
  {
    if |grids| == 0 then Success([])
    else
      var last := |grids| - 1;
      match DateScores(score, grids[..last])
      case Failure(e) => Failure(e)
      case Success(scores) =>
        match score(grids[last])
        case Failure(e) => Failure(e)
        case Success(s) => Success(scores + [s])
  }

  /** The d-th score is the score of the d-th grid. */
  lemma {:induction false} DateScoresAt(score: Scorer, grids: seq<Table>)
    requires DateScores(score, grids).Success?
    ensures forall d :: 0 <= d < |grids| ==> score(grids[d]) == Success(DateScores(score, grids).value[d])
    decreases |grids|
  {
    if |grids| > 0 {
      var last := |grids| - 1;
      assert forall d :: 0 <= d < last ==> grids[..last][d] == grids[d];
      DateScoresAt(score, grids[..last]);
    }
  }

  /** Once an earlier date raises, the later dates are never cross-validated. */
  lemma {:induction false} DateScoresStops(score: Scorer, grids: seq<Table>, m: nat)
    requires m <= |grids| && DateScores(score, grids[..m]).Failure?
    ensures DateScores(score, grids) == DateScores(score, grids[..m])
    decreases |grids| - m
  {
    if m < |grids| {
      var last := |grids| - 1;
      assert grids[..last][..m] == grids[..m];
      DateScoresStops(score, grids[..last], m);
    } else {
      assert grids[..m] == grids;
    }
  }

  /** `perform_cross_validation`: the weighted aggregate of the per-date scores, or the first error raised. */
  function PerformSpec(fitPredict: FitPredict, split: Splitter, grids: seq<Table>): (res: Result<Float, Error>)
    requires forall d :: 0 <= d < |grids| ==> grids[d].WellFormed()
    ensures |grids| == 0 ==> res == Failure(NoData)
    ensures res.Success? && res.value.Some? ==> res.value.value >= 0.0
  {
    match DateScores(ScoreOf(fitPredict, split), grids)
    case Failure(e) => Failure(e)
    case Success(scores) =>
      assert Aggregate(scores).Success? && Aggregate(scores).value.Some? ==> Aggregate(scores).value.value >= 0.0 by {
        if Aggregate(scores).Success? && Aggregate(scores).value.Some? {
          DateScoresAt(ScoreOf(fitPredict, split), grids);
          assert forall d :: 0 <= d < |grids| ==> ScoreOf(fitPredict, split)(grids[d]) == CrossValidateSpec(fitPredict, split, grids[d]);
          WeightedSumPresent(scores);
          var hi := MaxError(scores);
          AggregateWithin(scores, 0.0, hi);
        }
      }
      Aggregate(scores)
  }

  /** The largest date error of a list whose errors are all present (0 for none). */
  function MaxError(scores: seq<DateScore>): (m: real)
    requires forall d :: 0 <= d < |scores| ==> scores[d].mse.Some?
    ensures forall d :: 0 <= d < |scores| ==> scores[d].mse.value <= m
    decreases |scores|
  {
    if |scores| == 0 then 0.0
    else
      var rest := MaxError(scores[1..]);
      assert forall d :: 1 <= d < |scores| ==> scores[1..][d - 1] == scores[d];
      if scores[0].mse.value > rest then scores[0].mse.value else rest
  }

  /** One more date scored: the score list grows by that date's score. */
  lemma DateScoresStep(score: Scorer, grids: seq<Table>, d: nat, scores: seq<DateScore>, e: DateScore)
    requires d < |grids| && DateScores(score, grids[..d]) == Success(scores)
    requires score(grids[d]) == Success(e)
    ensures DateScores(score, grids[..d + 1]) == Success(scores + [e])
  {
    assert grids[..d + 1][..d] == grids[..d];
  }

  /** A date that raises ends the whole run with its error. */
  lemma DateScoresFail(score: Scorer, grids: seq<Table>, d: nat, scores: seq<DateScore>)
    requires d < |grids| && DateScores(score, grids[..d]) == Success(scores)
    requires score(grids[d]).Failure?
    ensures DateScores(score, grids) == Failure(score(grids[d]).error)
  {
    assert grids[..d + 1][..d] == grids[..d];
    DateScoresStops(score, grids, d + 1);
  }

  /** The running totals after one more date. */
  lemma TotalsStep(scores: seq<DateScore>, e: DateScore)
    ensures WeightedSum(scores + [e]) ==
      if WeightedSum(scores).Some? && e.mse.Some? then Some(WeightedSum(scores).value + Weighted(e)) else None
    ensures SampleCount(scores + [e]) == SampleCount(scores) + e.samples
  {
    assert (scores + [e])[..|scores|] == scores;
  }

  /** The running totals of the date loop: Σ e·n (NaN once any error is NaN) and Σ n. */
  datatype Totals = Totals(mse: Float, samples: nat)

  /** A scorer that gives every rectangular grid its cross-validation result. */
  ghost predicate Agrees(fitPredict: FitPredict, split: Splitter, score: Scorer) {
    forall t: Table {:trigger CrossValidateSpec(fitPredict, split, t)} :: t.WellFormed() ==> score(t) == CrossValidateSpec(fitPredict, split, t)
  }

  lemma ScoreOfAgrees(fitPredict: FitPredict, split: Splitter)
    ensures Agrees(fitPredict, split, ScoreOf(fitPredict, split))
  {
  }

  /** `cross_validate_single_dataframe` seen through a scorer that agrees with it. */
  method ScoreDate(fitPredict: FitPredict, split: Splitter, ghost score: Scorer, t: Table) returns (res: Result<DateScore, Error>)
    requires t.WellFormed() && Agrees(fitPredict, split, score)
    ensures res == score(t)
  {
    res := CrossValidateSingle(fitPredict, split, t);
  }

  /**
   * The loop over the dates: cross-validate each grid and accumulate Σ e·n
   * and Σ n, or stop at the first error. The per-date result is named by a
   * scorer that agrees with `CrossValidateSpec`.
   */
  method AccumulateDates(fitPredict: FitPredict, split: Splitter, ghost score: Scorer, grids: seq<Table>) returns (res: Result<Totals, Error>)
    requires forall d :: 0 <= d < |grids| ==> grids[d].WellFormed()
    requires Agrees(fitPredict, split, score)
    ensures var scores := DateScores(score, grids);
      && (scores.Failure? ==> res == Failure(scores.error))
      && (scores.Success? ==> res == Success(Totals(WeightedSum(scores.value), SampleCount(scores.value))))
  {
    var totalMse: Float := Some(0.0);
    var totalSamples: nat := 0;
    ghost var scores: seq<DateScore> := [];
    var d := 0;
    while d < |grids|
      invariant d <= |grids|
      invariant DateScores(score, grids[..d]) == Success(scores)
      invariant totalMse == WeightedSum(scores)
      invariant totalSamples == SampleCount(scores)
    {
      var result := ScoreDate(fitPredict, split, score, grids[d]);
      if result.Failure? {
        DateScoresFail(score, grids, d, scores);
        return Failure(result.error);
      }
      var e := result.value;
      DateScoresStep(score, grids, d, scores, e);
      totalMse := if totalMse.Some? && e.mse.Some? then Some(totalMse.value + Weighted(e)) else None;
      totalSamples := totalSamples + e.samples;
      TotalsStep(scores, e);
      scores := scores + [e];
      assert totalMse == WeightedSum(scores);
      d := d + 1;
    }
    assert grids[..d] == grids;
    return Success(Totals(totalMse, totalSamples));
  }

  /** `perform_cross_validation`: the totals of the date loop, divided, or the ValueError for no sample at all. */
  method PerformCrossValidation(fitPredict: FitPredict, split: Splitter, grids: seq<Table>) returns (res: Result<Float, Error>)
    requires forall d :: 0 <= d < |grids| ==> grids[d].WellFormed()
    ensures res == PerformSpec(fitPredict, split, grids)
  {
    ScoreOfAgrees(fitPredict, split);
    var totals := AccumulateDates(fitPredict, split, ScoreOf(fitPredict, split), grids);
    if totals.Failure? {
      return Failure(totals.error);
    }
    var totalMse, totalSamples := totals.value.mse, totals.value.samples;
    if totalSamples > 0 {
      res := Success(if totalMse.Some? then Some(totalMse.value / (totalSamples as real)) else None);
    } else {
      res := Failure(NoData);
    }
  }
}

=== FILE: cross_validator.dfy ===
/**
 * The cross-validator objects: they hold the per-date grids (the values of
 * a date-keyed dict, in its order), the interpolator to cross-validate and
 * the fold splitter, run a preparation pass over the grids and then the
 * weighted cross-validation of the shared functions.
 *
 * The plain validator prepares nothing. The slope validator, per date in
 * order, hands the grid to the rating converter's strategy, re-optimizes the
 * converter's scale and rewrites the grid's row labels through that scale.
 */
module CrossValidators {
  import opened Wrappers
  import opened Frames
  import CrossValidation
  import SlopeRating

  /** Every grid is rectangular. */
  ghost predicate AllWellFormed(grids: seq<Table>) {
    forall d :: 0 <= d < |grids| ==> grids[d].WellFormed()
  }

  /** What a relabelling pass does with a label the scale does not hold: `scale.get(x, 0)` or `scale.get(x, x)`. */
  datatype Fallback = ToZero | KeepOriginal

  /**
   * `index.map(lambda x: scale.get(x, default))`: a label the scale holds
   * becomes its position, any other label becomes 0 or stays as it is.
   */
  function Relabel(index: seq<Key>, scale: Scale, fallback: Fallback): (r: seq<Key>)
    requires scale.Valid()
    ensures |r| == |index|
    ensures forall i, j :: 0 <= i < |index| && 0 <= j < |scale.labels| && scale.labels[j] == index[i] ==>
      r[i] == Num(scale.values[j])
    ensures forall i :: 0 <= i < |index| && index[i] !in scale.labels ==>
      r[i] == if fallback == ToZero then Num(0.0) else index[i]
  {
    forall j | 0 <= j < |scale.labels| ensures Lookup(scale, scale.labels[j]) == Some(scale.values[j]) {
      LookupAt(scale, j);
    }
    seq(|index|, i requires 0 <= i < |index| =>
      match Lookup(scale, index[i])
      case Some(v) => Num(v)
      case None => if fallback == ToZero then Num(0.0) else index[i])
  }

  /** A scale of rating texts: no label of it is a number. */
  ghost predicate TextLabels(scale: Scale) {
    forall j :: 0 <= j < |scale.labels| ==> scale.labels[j].Label?
  }

  /**
   * With the zero fallback every label comes out a number, so a second pass
   * through any scale of rating texts turns every label into 0.
   */
  lemma RelabelTwiceToZero(index: seq<Key>, first: Scale, second: Scale)
    requires first.Valid() && second.Valid() && TextLabels(second)
    ensures forall i :: 0 <= i < |index| ==> Relabel(index, first, ToZero)[i].Num?
    ensures forall i :: 0 <= i < |index| ==> Relabel(Relabel(index, first, ToZero), second, ToZero)[i] == Num(0.0)
  {
    var once := Relabel(index, first, ToZero);
    forall i | 0 <= i < |index| ensures once[i].Num? {
      if index[i] in first.labels {
        var j :| 0 <= j < |first.labels| && first.labels[j] == index[i];
      }
    }
  }

  /**
   * With the keep fallback a label that is already a number survives a second
   * pass through any scale of rating texts unchanged.
   */
  lemma RelabelKeepsNumbers(index: seq<Key>, first: Scale, second: Scale)
    requires first.Valid() && second.Valid() && TextLabels(second)
    ensures forall i :: 0 <= i < |index| && Relabel(index, first, KeepOriginal)[i].Num? ==>
      Relabel(Relabel(index, first, KeepOriginal), second, KeepOriginal)[i] == Relabel(index, first, KeepOriginal)[i]
  {
  }

  /** The scales in force after each prepared date, and the exception that stopped the pass, if any. */
  datatype PrepareRun = PrepareRun(scales: seq<Scale>, error: Option<Error>)

  /** The scale a date's optimization starts from: the previous date's result, or the converter's scale for the first date. */
  function Current(initial: Scale, scales: seq<Scale>): Scale {
    if |scales| == 0 then initial else scales[|scales| - 1]
  }

  /** One date's optimization: the new scale and status from a starting scale, or the exception raised. */
  type Step = Scale -> Result<(Scale, SlopeRating.OptimizeStatus), Error>

  /** `optimize_ratings` on the converter's own grid t, started from a given scale. */
  function StepOf(t: Table, kind: SlopeRating.StrategyKind, minimize: SlopeRating.Minimizer): Step {
    (s: Scale) => if t.WellFormed() then SlopeRating.OptimizeStep(t, kind, s, [], minimize) else Failure(ShapeMismatch)
  }

  /** step is the optimization on grid t (stated through its results, so that callers need not unfold it). */
  ghost predicate IsStep(step: Step, t: Table, kind: SlopeRating.StrategyKind, minimize: SlopeRating.Minimizer)
    requires t.WellFormed()
  {
    forall s: Scale {:trigger SlopeRating.OptimizeStep(t, kind, s, [], minimize)} ::
      step(s) == SlopeRating.OptimizeStep(t, kind, s, [], minimize)
  }

  /** A step that turns a valid scale into a valid one. */
  ghost predicate KeepsValid(step: Step) {
    forall s: Scale {:trigger step(s)} :: s.Valid() && step(s).Success? ==> step(s).value.0.Valid()
  }

  lemma StepOfIsStep(t: Table, kind: SlopeRating.StrategyKind, minimize: SlopeRating.Minimizer)
    requires t.WellFormed()
    ensures IsStep(StepOf(t, kind, minimize), t, kind, minimize)
    ensures KeepsValid(StepOf(t, kind, minimize))
  {
    forall s: Scale | s.Valid() && StepOf(t, kind, minimize)(s).Success?
      ensures StepOf(t, kind, minimize)(s).value.0.Valid()
    {
      SlopeRating.OptimizeStepKeepsScale(t, kind, s, [], minimize);
    }
  }

  /**
   * The scales of the first n dates' optimizations: each starts from the
   * previous date's scale; the first exception stops the pass.
   */
  function PrepareScales(step: Step, initial: Scale, n: nat): (run: PrepareRun)
    ensures |run.scales| <= n && (run.error.None? <==> |run.scales| == n)
  {
    if n == 0 then PrepareRun([], None)
    else
      var run := PrepareScales(step, initial, n - 1);
      if run.error.Some? then run
      else
        match step(Current(initial, run.scales))
        case Failure(e) => PrepareRun(run.scales, Some(e))
        case Success(next) => PrepareRun(run.scales + [next.0], None)
  }

  /** The scale the d-th date's optimization starts from, given the scales of the dates before it. */
  function From(initial: Scale, scales: seq<Scale>, d: nat): Scale
    requires d <= |scales|
  {
    if d == 0 then initial else scales[d - 1]
  }

  /** Every scale of a pass is a valid mapping. */
  ghost predicate AllValidScales(scales: seq<Scale>) {
    forall d :: 0 <= d < |scales| ==> scales[d].Valid()
  }

  /** A step that keeps scales valid yields only valid scales along the pass. */
  lemma {:induction false} PrepareScalesValid(step: Step, initial: Scale, n: nat)
    requires initial.Valid() && KeepsValid(step)
    ensures AllValidScales(PrepareScales(step, initial, n).scales)
    ensures Current(initial, PrepareScales(step, initial, n).scales).Valid()
  {
    if n > 0 {
      PrepareScalesValid(step, initial, n - 1);
      var prev := PrepareScales(step, initial, n - 1).scales;
      var scales := PrepareScales(step, initial, n).scales;
      if scales != prev {
        var next := step(Current(initial, prev)).value.0;
        assert scales == prev + [next];
        assert next.Valid();
        forall d | 0 <= d < |scales| ensures scales[d].Valid() {
          if d < |prev| {
            assert scales[d] == prev[d];
          }
        }
      }
    }
  }

  /**
   * The scales carry over: the first date's optimization starts from the
   * converter's scale and every later one from the previous date's result.
   */
  ghost predicate Chained(step: Step, initial: Scale, scales: seq<Scale>) {
    forall d {:trigger From(initial, scales, d)} :: 0 <= d < |scales| ==>
      step(From(initial, scales, d)).Success? && step(From(initial, scales, d)).value.0 == scales[d]
  }

  /** The scales of a pass are chained. */
  lemma {:induction false} PrepareScalesChain(step: Step, initial: Scale, n: nat)
    ensures Chained(step, initial, PrepareScales(step, initial, n).scales)
  {
    if n > 0 {
      PrepareScalesChain(step, initial, n - 1);
      var prev := PrepareScales(step, initial, n - 1).scales;
      var scales := PrepareScales(step, initial, n).scales;
      if scales != prev {
        var from := Current(initial, prev);
        assert scales == prev + [step(from).value.0];
        forall d | 0 <= d < |scales|
          ensures step(From(initial, scales, d)).Success? && step(From(initial, scales, d)).value.0 == scales[d]
        {
          if d < |prev| {
            assert From(initial, scales, d) == From(initial, prev, d);
          } else {
            assert From(initial, scales, d) == from;
          }
        }
      }
    }
  }

  /** A chain extends by the result of a successful step from its last scale. */
  lemma ChainedSnoc(step: Step, initial: Scale, scales: seq<Scale>)
    requires Chained(step, initial, scales) && step(Current(initial, scales)).Success?
    ensures Chained(step, initial, scales + [step(Current(initial, scales)).value.0])
  {
    var longer := scales + [step(Current(initial, scales)).value.0];
    forall d | 0 <= d < |longer|
      ensures step(From(initial, longer, d)).Success? && step(From(initial, longer, d)).value.0 == longer[d]
    {
      if d < |scales| {
        assert From(initial, longer, d) == From(initial, scales, d);
      } else {
        assert From(initial, longer, d) == Current(initial, scales);
      }
    }
  }

  /**
   * The pass is determined by its chain: n chained scales, or fewer chained
   * scales followed by a step that raised, are exactly what PrepareScales
   * computes.
   */
  lemma {:induction false} PrepareScalesUnique(step: Step, initial: Scale, n: nat, scales: seq<Scale>, error: Option<Error>)
    requires Chained(step, initial, scales) && |scales| <= n
    requires error.None? ==> |scales| == n
    requires error.Some? ==> |scales| < n && step(Current(initial, scales)) == Failure(error.value)
    ensures PrepareScales(step, initial, n) == PrepareRun(scales, error)
    decreases n
  {
    if n > 0 {
      if error.Some? && |scales| < n - 1 {
        PrepareScalesUnique(step, initial, n - 1, scales, error);
      } else if error.Some? {
        PrepareScalesUnique(step, initial, n - 1, scales, None);
      } else {
        var init := scales[..n - 1];
        assert Chained(step, initial, init) by {
          forall d | 0 <= d < |init|
            ensures step(From(initial, init, d)).Success? && step(From(initial, init, d)).value.0 == init[d]
          {
            assert From(initial, init, d) == From(initial, scales, d);
          }
        }
        PrepareScalesUnique(step, initial, n - 1, init, None);
        assert From(initial, scales, n - 1) == Current(initial, init);
        assert scales == init + [scales[n - 1]];
      }
    }
  }

  /** A pass that stopped did so because the optimization from the last scale it reached raised that exception. */
  lemma {:induction false} PrepareScalesFails(step: Step, initial: Scale, n: nat)
    ensures PrepareScales(step, initial, n).error.Some? ==>
      step(Current(initial, PrepareScales(step, initial, n).scales)) == Failure(PrepareScales(step, initial, n).error.value)
  {
    if n > 0 {
      PrepareScalesFails(step, initial, n - 1);
    }
  }

  /** Every scale keeps a prefix of the converter's labels, in their order. */
  ghost predicate LabelPrefixes(initial: Scale, scales: seq<Scale>) {
    forall d :: 0 <= d < |scales| ==>
      |scales[d].labels| <= |initial.labels| && scales[d].labels == initial.labels[..|scales[d].labels|]
  }

  /** Every scale of the converter's pass keeps a prefix of the converter's labels, in their order. */
  lemma {:induction false} PrepareScalesLabels(t: Table, kind: SlopeRating.StrategyKind, minimize: SlopeRating.Minimizer, initial: Scale, n: nat)
    requires t.WellFormed() && initial.Valid()
    ensures LabelPrefixes(initial, PrepareScales(StepOf(t, kind, minimize), initial, n).scales)
  {
    if n > 0 {
      PrepareScalesLabels(t, kind, minimize, initial, n - 1);
      var step := StepOf(t, kind, minimize);
      StepOfIsStep(t, kind, minimize);
      PrepareScalesValid(step, initial, n - 1);
      var prev := PrepareScales(step, initial, n - 1).scales;
      var scales := PrepareScales(step, initial, n).scales;
      if scales != prev {
        var from := Current(initial, prev);
        SlopeRating.OptimizeStepKeepsScale(t, kind, from, [], minimize);
        var next := step(from).value.0;
        assert scales == prev + [next];
        if |prev| == 0 {
          assert from.labels == initial.labels[..|from.labels|];
        } else {
          assert from == prev[|prev| - 1];
        }
        assert |next.labels| <= |from.labels| && next.labels == from.labels[..|next.labels|];
        forall d | 0 <= d < |scales|
          ensures |scales[d].labels| <= |initial.labels| && scales[d].labels == initial.labels[..|scales[d].labels|]
        {
          if d < |prev| {
            assert scales[d] == prev[d];
          }
        }
      }
    }
  }

  /** Once a date's optimization has raised, the later dates change nothing. */
  lemma {:induction false} PrepareScalesStops(step: Step, initial: Scale, m: nat, n: nat)
    requires m <= n
    requires PrepareScales(step, initial, m).error.Some?
    ensures PrepareScales(step, initial, n) == PrepareScales(step, initial, m)
    decreases n
  {
    if m < n {
      PrepareScalesStops(step, initial, m, n - 1);
    }
  }

  /**
   * The grids after a preparation pass that produced the given scales: the
   * d-th grid's row labels are rewritten through the d-th scale, the grids
   * the pass did not reach are as they were, and no column or cell changes.
   */
  function Prepared(grids: seq<Table>, scales: seq<Scale>, fallback: Fallback): (r: seq<Table>)
    requires |scales| <= |grids| && AllValidScales(scales)
    ensures |r| == |grids|
    ensures forall d :: 0 <= d < |scales| ==> r[d] == grids[d].(index := Relabel(grids[d].index, scales[d], fallback))
    ensures forall d :: |scales| <= d < |grids| ==> r[d] == grids[d]
  {
    seq(|grids|, d requires 0 <= d < |grids| =>
      if d < |scales| then grids[d].(index := Relabel(grids[d].index, scales[d], fallback)) else grids[d])
  }

  /** Preparing one more date rewrites that date's grid and no other. */
  lemma PreparedStep(grids: seq<Table>, scales: seq<Scale>, next: Scale, fallback: Fallback)
    requires |scales| < |grids| && AllValidScales(scales) && next.Valid()
    ensures AllValidScales(scales + [next])
    ensures var d := |scales|;
      Prepared(grids, scales, fallback)[d := grids[d].(index := Relabel(grids[d].index, next, fallback))]
        == Prepared(grids, scales + [next], fallback)
  {
    var d := |scales|;
    assert AllValidScales(scales + [next]) by {
      forall e | 0 <= e < |scales + [next]| ensures (scales + [next])[e].Valid() {
        if e < d { assert (scales + [next])[e] == scales[e]; }
      }
    }
    var lhs := Prepared(grids, scales, fallback)[d := grids[d].(index := Relabel(grids[d].index, next, fallback))];
    var rhs := Prepared(grids, scales + [next], fallback);
    forall e | 0 <= e < |grids| ensures lhs[e] == rhs[e] {
      if e < d { assert (scales + [next])[e] == scales[e]; }
    }
  }

  /** Preparation keeps every grid rectangular. */
  lemma PreparedWellFormed(grids: seq<Table>, scales: seq<Scale>, fallback: Fallback)
    requires |scales| <= |grids| && AllValidScales(scales) && AllWellFormed(grids)
    ensures AllWellFormed(Prepared(grids, scales, fallback))
  {
  }

  /**
   * One date of the preparation loop: hand the grid to the strategy's
   * attribute and re-optimize the converter's scale from its current one.
   */
  method OptimizeForDate(grid: Table, converter: SlopeRating.SlopeMinimizingRatingConverter,
                         minimize: SlopeRating.Minimizer, ghost step: Step) returns (res: Result<(), Error>)
    requires converter.Valid() && IsStep(step, converter.bondYieldDf, converter.strategy.kind, minimize)
    modifies converter`ratings, converter.strategy`bondYieldDf
    ensures converter.Valid() && converter.strategy.bondYieldDf == Some(grid)
    ensures step(old(converter.ratings)).Failure? ==>
      res == Failure(step(old(converter.ratings)).error) && converter.ratings == old(converter.ratings)
    ensures step(old(converter.ratings)).Success? ==>
      res == Success(()) && converter.ratings == step(old(converter.ratings)).value.0
  {
    converter.strategy.bondYieldDf := Some(grid);
    var status := converter.OptimizeRatings([], minimize);
    if status.Failure? {
      return Failure(status.error);
    }
    return Success(());
  }

  /**
   * The slope validators' preparation loop: per date in order, assign the
   * grid to the strategy's attribute, re-optimize the converter's scale and
   * rewrite the grid's row labels through the scale; an optimizer exception
   * propagates and leaves the later dates untouched.
   */
  method PrepareBySlope(grids: seq<Table>, converter: SlopeRating.SlopeMinimizingRatingConverter,
                        minimize: SlopeRating.Minimizer, fallback: Fallback) returns (res: Result<(), Error>, prepared: seq<Table>)
    requires AllWellFormed(grids) && converter.Valid()
    modifies converter`ratings, converter.strategy`bondYieldDf
    ensures converter.Valid()
    ensures var run := PrepareScales(StepOf(converter.bondYieldDf, converter.strategy.kind, minimize), old(converter.ratings), |grids|);
      && AllValidScales(run.scales)
      && (run.error.None? ==> res == Success(()))
      && (run.error.Some? ==> res == Failure(run.error.value))
      && converter.ratings == Current(old(converter.ratings), run.scales)
      && prepared == Prepared(grids, run.scales, fallback)
      && (|grids| > 0 ==> converter.strategy.bondYieldDf == Some(grids[if run.error.None? then |grids| - 1 else |run.scales|]))
      && (|grids| == 0 ==> converter.strategy.bondYieldDf == old(converter.strategy.bondYieldDf))
  {
    ghost var step := StepOf(converter.bondYieldDf, converter.strategy.kind, minimize);
    ghost var initial := converter.ratings;
    StepOfIsStep(converter.bondYieldDf, converter.strategy.kind, minimize);
    ghost var scales, error;
    res, prepared, scales, error := PrepareEach(grids, converter, minimize, fallback, step);
    PrepareScalesUnique(step, initial, |grids|, scales, error);
  }

  /**
   * The loop of PrepareBySlope, for any step that is the converter's
   * optimization: the scales it went through and the exception that
   * stopped it come back as ghost results.
   */
  method PrepareEach(grids: seq<Table>, converter: SlopeRating.SlopeMinimizingRatingConverter,
                     minimize: SlopeRating.Minimizer, fallback: Fallback, ghost step: Step)
    returns (res: Result<(), Error>, prepared: seq<Table>, ghost scales: seq<Scale>, ghost error: Option<Error>)
    requires converter.Valid()
    requires IsStep(step, converter.bondYieldDf, converter.strategy.kind, minimize)
    modifies converter`ratings, converter.strategy`bondYieldDf
    ensures converter.Valid()
    ensures Chained(step, old(converter.ratings), scales) && AllValidScales(scales) && |scales| <= |grids|
    ensures error.None? ==> |scales| == |grids| && res == Success(())
    ensures error.Some? ==> |scales| < |grids| && res == Failure(error.value)
    ensures error.Some? ==> step(Current(old(converter.ratings), scales)) == Failure(error.value)
    ensures converter.ratings == Current(old(converter.ratings), scales)
    ensures prepared == Prepared(grids, scales, fallback)
    ensures |grids| > 0 ==> converter.strategy.bondYieldDf == Some(grids[if error.None? then |grids| - 1 else |scales|])
    ensures |grids| == 0 ==> converter.strategy.bondYieldDf == old(converter.strategy.bondYieldDf)
  {
    ghost var initial := converter.ratings;
    scales, error := [], None;
    prepared := grids;
    var d := 0;
    while d < |grids|
      invariant d == |scales| && d <= |grids| && |prepared| == |grids|
      invariant converter.Valid() && converter.ratings.Valid()
      invariant Chained(step, initial, scales) && AllValidScales(scales)
      invariant converter.ratings == Current(initial, scales)
      invariant d > 0 ==> converter.strategy.bondYieldDf == Some(grids[d - 1])
      invariant d == 0 ==> converter.strategy.bondYieldDf == old(converter.strategy.bondYieldDf)
      invariant prepared == Prepared(grids, scales, fallback)
    {
      var status := OptimizeForDate(grids[d], converter, minimize, step);
      if status.Failure? {
        error := Some(status.error);
        return Failure(status.error), prepared, scales, error;
      }
      ChainedSnoc(step, initial, scales);
      PreparedStep(grids, scales, converter.ratings, fallback);
      prepared := prepared[d := prepared[d].(index := Relabel(prepared[d].index, converter.ratings, fallback))];
      scales := scales + [converter.ratings];
      d := d + 1;
    }
    return Success(()), prepared, scales, error;
  }

  /** When no date's optimization raises, the pass reaches every date and gives each its scale. */
  lemma {:induction false} PrepareScalesSucceeds(step: Step, initial: Scale, n: nat)
    requires forall s: Scale {:trigger step(s)} :: step(s).Success?
    ensures PrepareScales(step, initial, n).error.None? && |PrepareScales(step, initial, n).scales| == n
  {
    if n > 0 {
      PrepareScalesSucceeds(step, initial, n - 1);
      assert step(Current(initial, PrepareScales(step, initial, n - 1).scales)).Success?;
    }
  }

  /**
   * The preparation loop as the code stands: the first date's grid is handed
   * to the strategy and the converter's scale is re-optimized, then the call
   * of `get_rating_scale`, a method no class defines, raises AttributeError.
   * No grid is relabelled and no later date is reached.
   */
  method PrepareAsWritten(grids: seq<Table>, converter: SlopeRating.SlopeMinimizingRatingConverter,
                          minimize: SlopeRating.Minimizer) returns (res: Result<(), Error>)
    requires converter.Valid()
    modifies converter`ratings, converter.strategy`bondYieldDf
    ensures converter.Valid()
    ensures |grids| == 0 ==> res == Success(()) && unchanged(converter, converter.strategy)
    ensures var first := StepOf(converter.bondYieldDf, converter.strategy.kind, minimize)(old(converter.ratings));
      |grids| > 0 ==>
        && converter.strategy.bondYieldDf == Some(grids[0])
        && (first.Failure? ==> res == Failure(first.error) && converter.ratings == old(converter.ratings))
        && (first.Success? ==> res == Failure(AttributeMissing) && converter.ratings == first.value.0)
  {
    if |grids| == 0 {
      return Success(());
    }
    ghost var step := StepOf(converter.bondYieldDf, converter.strategy.kind, minimize);
    StepOfIsStep(converter.bondYieldDf, converter.strategy.kind, minimize);
    var status := OptimizeForDate(grids[0], converter, minimize, step);
    if status.Failure? {
      return Failure(status.error);
    }
    return Failure(AttributeMissing);
  }

  /**
   * With the zero fallback, two row labels the scale does not hold both
   * become 0, and cross-validating the relabelled grid then reads a label
   * shared by two rows and fails.
   */
  lemma ZeroFallbackRepeats(fitPredict: CrossValidation.FitPredict, split: CrossValidation.Splitter,
                            t: Table, scale: Scale, i: nat, j: nat)
    requires t.WellFormed() && scale.Valid() && |t.columns| > 0
    requires i < j < |t.index| && t.index[i] !in scale.labels && t.index[j] !in scale.labels
    ensures CrossValidation.CrossValidateSpec(fitPredict, split, t.(index := Relabel(t.index, scale, ToZero)))
      == Failure(RepeatedLabel)
  {
    var r := Relabel(t.index, scale, ToZero);
    assert r[i] == r[j];
  }

  /** The plain validator (`BaseCrossValidator`, and `CrossValidator`, which inherits it unchanged). */
  class BaseCrossValidator {
    const fitPredict: CrossValidation.FitPredict
    const split: CrossValidation.Splitter
    const dateDataframes: seq<Table>

    constructor (fitPredict: CrossValidation.FitPredict, dateDataframes: seq<Table>, split: CrossValidation.Splitter)
      ensures this.fitPredict == fitPredict && this.dateDataframes == dateDataframes && this.split == split
    {
      this.fitPredict := fitPredict;
      this.dateDataframes := dateDataframes;
      this.split := split;
    }

    /** `cross_validate_single_dataframe`: the shared k-fold error and sample count of one grid. */
    method CrossValidateSingleDataframe(t: Table) returns (res: Result<CrossValidation.DateScore, Error>)
      requires t.WellFormed()
      ensures res == CrossValidation.CrossValidateSpec(fitPredict, split, t)
    {
      res := CrossValidation.CrossValidateSingle(fitPredict, split, t);
    }

    /**
     * `perform_cross_validation`: the preparation pass does nothing, so the
     * result is the shared weighted error over the grids as given.
     */
    method PerformCrossValidation() returns (res: Result<Float, Error>)
      requires AllWellFormed(dateDataframes)
      ensures res == CrossValidation.PerformSpec(fitPredict, split, dateDataframes)
    {
      res := CrossValidation.PerformCrossValidation(fitPredict, split, dateDataframes);
    }
  }

  /** `CrossValidatorBySlope`: the plain validator whose preparation relabels each grid through the optimized scale. */
  class CrossValidatorBySlope {
    const fitPredict: CrossValidation.FitPredict
    const split: CrossValidation.Splitter
    var dateDataframes: seq<Table>
    const ratingConverter: SlopeRating.SlopeMinimizingRatingConverter
    /** The optimizer `optimize_ratings` calls. */
    const minimize: SlopeRating.Minimizer

    ghost predicate Valid()
      reads this, ratingConverter
    {
      AllWellFormed(dateDataframes) && ratingConverter.Valid()
    }

    constructor (fitPredict: CrossValidation.FitPredict, dateDataframes: seq<Table>,
                 ratingConverter: SlopeRating.SlopeMinimizingRatingConverter, split: CrossValidation.Splitter,
                 minimize: SlopeRating.Minimizer)
      ensures this.fitPredict == fitPredict && this.dateDataframes == dateDataframes && this.split == split
      ensures this.ratingConverter == ratingConverter && this.minimize == minimize
    {
      this.fitPredict := fitPredict;
      this.dateDataframes := dateDataframes;
      this.ratingConverter := ratingConverter;
      this.split := split;
      this.minimize := minimize;
    }

    /** `prepare_dataframes`: a label the optimized scale lacks becomes 0. */
    method PrepareDataframes() returns (res: Result<(), Error>)
      requires Valid()
      modifies this`dateDataframes, ratingConverter`ratings, ratingConverter.strategy`bondYieldDf
      ensures Valid()
      ensures var run := PrepareScales(StepOf(ratingConverter.bondYieldDf, ratingConverter.strategy.kind, minimize), old(ratingConverter.ratings), |old(dateDataframes)|);
        && AllValidScales(run.scales)
        && (run.error.None? ==> res == Success(()))
        && (run.error.Some? ==> res == Failure(run.error.value))
        && ratingConverter.ratings == Current(old(ratingConverter.ratings), run.scales)
        && dateDataframes == Prepared(old(dateDataframes), run.scales, ToZero)
        && (|old(dateDataframes)| > 0 ==> ratingConverter.strategy.bondYieldDf == Some(old(dateDataframes)[if run.error.None? then |old(dateDataframes)| - 1 else |run.scales|]))
        && (|old(dateDataframes)| == 0 ==> ratingConverter.strategy.bondYieldDf == old(ratingConverter.strategy.bondYieldDf))
    {
      ghost var run := PrepareScales(StepOf(ratingConverter.bondYieldDf, ratingConverter.strategy.kind, minimize), ratingConverter.ratings, |dateDataframes|);
      var prepared;
      res, prepared := PrepareBySlope(dateDataframes, ratingConverter, minimize, ToZero);
      PreparedWellFormed(dateDataframes, run.scales, ToZero);
      dateDataframes := prepared;
    }

    /**
     * `perform_cross_validation`: prepare every grid first, then the
     * shared weighted error over the relabelled grids; an exception of the
     * preparation propagates before any date is cross-validated.
     */
    method PerformCrossValidation() returns (res: Result<Float, Error>)
      requires Valid()
      modifies this`dateDataframes, ratingConverter`ratings, ratingConverter.strategy`bondYieldDf
      ensures Valid()
      ensures var run := PrepareScales(StepOf(ratingConverter.bondYieldDf, ratingConverter.strategy.kind, minimize), old(ratingConverter.ratings), |old(dateDataframes)|);
        && AllValidScales(run.scales)
        && dateDataframes == Prepared(old(dateDataframes), run.scales, ToZero)
        && ratingConverter.ratings == Current(old(ratingConverter.ratings), run.scales)
        && (|old(dateDataframes)| > 0 ==> ratingConverter.strategy.bondYieldDf == Some(old(dateDataframes)[if run.error.None? then |old(dateDataframes)| - 1 else |run.scales|]))
        && (|old(dateDataframes)| == 0 ==> ratingConverter.strategy.bondYieldDf == old(ratingConverter.strategy.bondYieldDf))
        && (run.error.Some? ==> res == Failure(run.error.value))
        && (run.error.None? ==> res == CrossValidation.PerformSpec(fitPredict, split, dateDataframes))
    {
      var prepared := PrepareDataframes();
      if prepared.Failure? {
        return Failure(prepared.error);
      }
      res := CrossValidation.PerformCrossValidation(fitPredict, split, dateDataframes);
    }
  }
}

=== FILE: cross_validator_slope_rating_slope.dfy ===
/**
 * The slope-based cross-validator: like the slope validator of the
 * validator module, it re-optimizes the rating converter's scale per date
 * and relabels that date's grid before any date is cross-validated, but a
 * label the scale does not hold keeps its original value.
 */
module SlopeBasedValidation {
  import opened Wrappers
  import opened Frames
  import CrossValidation
  import SlopeRating
  import opened CrossValidators

  /** `SlopeBasedCrossValidator`: the grids of each date, the converter, the interpolator and the fold splitter. */
  class SlopeBasedCrossValidator {
    const fitPredict: CrossValidation.FitPredict
    var dateDataframes: seq<Table>
    const ratingConverter: SlopeRating.SlopeMinimizingRatingConverter
    const split: CrossValidation.Splitter
    /** The optimizer `optimize_ratings` calls. */
    const minimize: SlopeRating.Minimizer

    ghost predicate Valid()
      reads this, ratingConverter
    {
      AllWellFormed(dateDataframes) && ratingConverter.Valid()
    }

    constructor (fitPredict: CrossValidation.FitPredict, dateDataframes: seq<Table>,
                 ratingConverter: SlopeRating.SlopeMinimizingRatingConverter, split: CrossValidation.Splitter,
                 minimize: SlopeRating.Minimizer)
      ensures this.fitPredict == fitPredict && this.dateDataframes == dateDataframes && this.split == split
      ensures this.ratingConverter == ratingConverter && this.minimize == minimize
    {
      this.fitPredict := fitPredict;
      this.dateDataframes := dateDataframes;
      this.ratingConverter := ratingConverter;
      this.split := split;
      this.minimize := minimize;
    }

    /**
     * `prepare_dataframes`: per date in order, the grid goes to the
     * strategy's attribute, the converter's scale is re-optimized from the
     * previous date's result and the grid's labels are rewritten through it;
     * a label the scale lacks is kept.
     */
    method PrepareDataframes() returns (res: Result<(), Error>)
      requires Valid()
      modifies this`dateDataframes, ratingConverter`ratings, ratingConverter.strategy`bondYieldDf
      ensures Valid()
      ensures var run := PrepareScales(StepOf(ratingConverter.bondYieldDf, ratingConverter.strategy.kind, minimize), old(ratingConverter.ratings), |old(dateDataframes)|);
        && AllValidScales(run.scales)
        && (run.error.None? ==> res == Success(()))
        && (run.error.Some? ==> res == Failure(run.error.value))
        && ratingConverter.ratings == Current(old(ratingConverter.ratings), run.scales)
        && dateDataframes == Prepared(old(dateDataframes), run.scales, KeepOriginal)
        && (|old(dateDataframes)| > 0 ==> ratingConverter.strategy.bondYieldDf == Some(old(dateDataframes)[if run.error.None? then |old(dateDataframes)| - 1 else |run.scales|]))
        && (|old(dateDataframes)| == 0 ==> ratingConverter.strategy.bondYieldDf == old(ratingConverter.strategy.bondYieldDf))
    {
      ghost var run := PrepareScales(StepOf(ratingConverter.bondYieldDf, ratingConverter.strategy.kind, minimize), ratingConverter.ratings, |dateDataframes|);
      var prepared;
      res, prepared := PrepareBySlope(dateDataframes, ratingConverter, minimize, KeepOriginal);
      PreparedWellFormed(dateDataframes, run.scales, KeepOriginal);
      dateDataframes := prepared;
    }

    /** `cross_validate_single_dataframe`: the k-fold error and sample count of one grid, flattened tenor by tenor. */
    method CrossValidateSingleDataframe(t: Table) returns (res: Result<CrossValidation.DateScore, Error>)
      requires t.WellFormed()
      ensures res == CrossValidation.CrossValidateSpec(fitPredict, split, t)
    {
      res := CrossValidation.CrossValidateSingle(fitPredict, split, t);
    }

    /**
     * `perform_cross_validation`: prepare every grid first, then the
     * sample-weighted mean of the per-date errors over the relabelled grids;
     * an exception of the preparation propagates before any date is
     * cross-validated, and no samples at all raise.
     */
    method PerformCrossValidation() returns (res: Result<Float, Error>)
      requires Valid()
      modifies this`dateDataframes, ratingConverter`ratings, ratingConverter.strategy`bondYieldDf
      ensures Valid()
      ensures var run := PrepareScales(StepOf(ratingConverter.bondYieldDf, ratingConverter.strategy.kind, minimize), old(ratingConverter.ratings), |old(dateDataframes)|);
        && AllValidScales(run.scales)
        && dateDataframes == Prepared(old(dateDataframes), run.scales, KeepOriginal)
        && ratingConverter.ratings == Current(old(ratingConverter.ratings), run.scales)
        && (|old(dateDataframes)| > 0 ==> ratingConverter.strategy.bondYieldDf == Some(old(dateDataframes)[if run.error.None? then |old(dateDataframes)| - 1 else |run.scales|]))
        && (|old(dateDataframes)| == 0 ==> ratingConverter.strategy.bondYieldDf == old(ratingConverter.strategy.bondYieldDf))
        && (run.error.Some? ==> res == Failure(run.error.value))
        && (run.error.None? ==> res == CrossValidation.PerformSpec(fitPredict, split, dateDataframes))
    {
      var prepared := PrepareDataframes();
      if prepared.Failure? {
        return Failure(prepared.error);
      }
      res := CrossValidation.PerformCrossValidation(fitPredict, split, dateDataframes);
    }
  }
}

=== FILE: example_constraints.dfy ===
/**
 * The hand-built constraint list for the rating optimizer: one bound pair per
 * rating, a gap predicate for every adjacent pair but the last two, a floor on
 * the first rating, two larger gaps at the top and a pin on the last rating.
 *
 * Constraint functions are closures in the source; here each is a value of
 * `ConstraintFun` that `Eval` applies to a rating vector with Python's
 * indexing (negative positions count from the end, others raise).
 */
module ExampleConstraints {
  import opened Wrappers
  import opened Frames

  /** The gap every generated adjacent-pair predicate demands. */
  const PairGap: real := 0.02
  /** The floor on the first rating. */
  const FirstFloor: real := 0.15
  /** The gap demanded of each of the two top pairs. */
  const TopGap: real := 0.2

  datatype ConstraintType = Ineq | Eq

  /** The closures the list holds, by the expression their body computes. */
  datatype ConstraintFun =
    | Gap(i: int, minGap: real)      // r[i+1] - r[i] - minGap
    | Floor(i: int, floor: real)     // r[i] - floor
    | Pin(i: int, target: real)      // r[i] - target

  datatype Constraint = Constraint(kind: ConstraintType, fun: ConstraintFun)

  /**
   * An element expression of the list display that extends the list: a bare
   * closure, or a closure from which a number is subtracted (which Python
   * refuses with a TypeError when the element is evaluated).
   */
  datatype FunExpr = Closure(fun: ConstraintFun) | ClosureMinus(body: ConstraintFun, subtrahend: real)

  datatype Entry = Entry(kind: ConstraintType, expr: FunExpr)

  /** Python's `r[i]` on a vector of length n: the position it reads, or None for an IndexError. */
  function PyIndex(i: int, n: nat): (p: Option<nat>)
    ensures p.Some? <==> -(n as int) <= i < n
    ensures p.Some? ==> p.value < n && (p.value == i || p.value == i + n)
    ensures 0 <= i < n ==> p == Some(i as nat)
  {
    if 0 <= i < n then Some(i as nat)
    else if -(n as int) <= i < 0 then Some((i + n) as nat)
    else None
  }

  function At(r: seq<real>, i: int): Option<real> {
    match PyIndex(i, |r|)
    case Some(p) => Some(r[p])
    case None => None
  }

  /** The value a constraint closure returns on r, or None when it raises an IndexError. */
  function Eval(f: ConstraintFun, r: seq<real>): (v: Option<real>)
    ensures f.Gap? && 0 <= f.i && f.i + 1 < |r| ==> v == Some(r[f.i + 1] - r[f.i] - f.minGap)
    ensures f.Floor? && 0 <= f.i < |r| ==> v == Some(r[f.i] - f.floor)
    ensures f.Pin? && 0 <= f.i < |r| ==> v == Some(r[f.i] - f.target)
  {
    match f
    case Gap(i, g) =>
      (match (At(r, i + 1), At(r, i))
       case (Some(hi), Some(lo)) => Some(hi - lo - g)
       case _ => None)
    case Floor(i, fl) =>
      (match At(r, i)
       case Some(x) => Some(x - fl)
       case None => None)
    case Pin(i, t) =>
      (match At(r, i)
       case Some(x) => Some(x - t)
       case None => None)
  }

  /** SLSQP's reading of a constraint: an inequality asks for a value >= 0, an equality for 0. */
  predicate Satisfied(c: Constraint, r: seq<real>) {
    var v := Eval(c.fun, r);
    v.Some? && (if c.kind == Ineq then v.value >= 0.0 else v.value == 0.0)
  }

  predicate AllSatisfied(cs: seq<Constraint>, r: seq<real>) {
    forall k :: 0 <= k < |cs| ==> Satisfied(cs[k], r)
  }

  /**
   * Evaluating the element expressions of a list display left to right: the
   * first closure-minus-number raises, otherwise each entry becomes its constraint.
   */
  function EvaluateEntries(entries: seq<Entry>): (res: Result<seq<Constraint>, Error>)
    ensures res.Success? <==> forall k :: 0 <= k < |entries| ==> entries[k].expr.Closure?
    ensures res.Failure? ==> res.error == OperandTypeError
    ensures res.Success? ==>
      && |res.value| == |entries|
      && (forall k :: 0 <= k < |entries| ==> res.value[k] == Constraint(entries[k].kind, entries[k].expr.fun))
  {
    if |entries| == 0 then Success([])
    else match entries[0].expr
      case ClosureMinus(_, _) => Failure(OperandTypeError)
      case Closure(f) =>
        match EvaluateEntries(entries[1..])
        case Failure(e) => Failure(e)
        case Success(rest) =>
          assert forall k :: 1 <= k < |entries| ==> entries[1..][k - 1] == entries[k];
          Success([Constraint(entries[0].kind, f)] + rest)
  }

  /** `range(n - 3)`: the gap predicates r[i+1] - r[i] - 0.02, each bound to its own i. */
  function PairGaps(n: nat): (cs: seq<Constraint>)
    ensures |cs| == if n >= 3 then n - 3 else 0
    ensures forall i :: 0 <= i < |cs| ==> cs[i] == Constraint(Ineq, Gap(i, PairGap))
  {
    seq(if n >= 3 then n - 3 else 0, i => Constraint(Ineq, Gap(i, PairGap)))
  }

  /** The four entries of the extending list display as written: two of them subtract 0.2 from a closure. */
  function WrittenTail(n: nat): seq<Entry> {
    [ Entry(Ineq, Closure(Floor(0, FirstFloor))),
      Entry(Ineq, ClosureMinus(Gap(n - 3, 0.0), TopGap)),
      Entry(Ineq, ClosureMinus(Gap(n - 2, 0.0), TopGap)),
      Entry(Eq, Closure(Pin(n - 1, 1.0))) ]
  }

  /** The same four entries with the 0.2 moved inside the two closures. */
  function IntendedTail(n: nat): seq<Entry> {
    [ Entry(Ineq, Closure(Floor(0, FirstFloor))),
      Entry(Ineq, Closure(Gap(n - 3, TopGap))),
      Entry(Ineq, Closure(Gap(n - 2, TopGap))),
      Entry(Eq, Closure(Pin(n - 1, 1.0))) ]
  }

  /** One bound pair (0, 1) per initial rating. */
  function Bounds(initialRatings: seq<real>): (bounds: seq<(real, real)>)
    ensures |bounds| == |initialRatings|
    ensures forall k :: 0 <= k < |bounds| ==> bounds[k] == (0.0, 1.0)
  {
    seq(|initialRatings|, _ => (0.0, 1.0))
  }

  /** The bounds and the gap list extended by the evaluated tail entries. */
  function Generate(initialRatings: seq<real>, tail: seq<Entry>): Result<(seq<(real, real)>, seq<Constraint>), Error> {
    var bounds := Bounds(initialRatings);
    var gaps := PairGaps(|initialRatings|);
    match EvaluateEntries(tail)
    case Failure(e) => Failure(e)
    case Success(extra) => Success((bounds, gaps + extra))
  }

  /** `generate_constraints` as written: it raises a TypeError for every input. */
  function GenerateConstraints(initialRatings: seq<real>): (res: Result<(seq<(real, real)>, seq<Constraint>), Error>)
    ensures res == Failure(OperandTypeError)
  {
    var tail := WrittenTail(|initialRatings|);
    assert !tail[1].expr.Closure?;
    Generate(initialRatings, tail)
  }

  /** `generate_constraints` with the two top-gap closures written as evidently intended. */
  function GenerateConstraintsIntended(initialRatings: seq<real>): (res: Result<(seq<(real, real)>, seq<Constraint>), Error>)
    ensures res.Success?
    ensures var n := |initialRatings|; var (bounds, cs) := res.value;
      && bounds == Bounds(initialRatings)
      && |cs| == |PairGaps(n)| + 4
      && cs[..|PairGaps(n)|] == PairGaps(n)
      && cs[|PairGaps(n)|] == Constraint(Ineq, Floor(0, FirstFloor))
      && cs[|PairGaps(n)| + 1] == Constraint(Ineq, Gap(n - 3, TopGap))
      && cs[|PairGaps(n)| + 2] == Constraint(Ineq, Gap(n - 2, TopGap))
      && cs[|PairGaps(n)| + 3] == Constraint(Eq, Pin(n - 1, 1.0))
  {
    var tail := IntendedTail(|initialRatings|);
    var res := Generate(initialRatings, tail);
    assert res.value.1 == PairGaps(|initialRatings|) + EvaluateEntries(tail).value;
    res
  }

  /**
   * With at least three ratings, a vector of that length satisfies every
   * intended constraint exactly when the first rating is at least 0.15, every
   * pair below the top two is at least 0.02 apart, the top two pairs are at
   * least 0.2 apart, and the last rating is 1.
   */
  lemma IntendedFeasible(initialRatings: seq<real>, r: seq<real>)
    requires |initialRatings| >= 3 && |r| == |initialRatings|
    ensures var cs := GenerateConstraintsIntended(initialRatings).value.1;
      var n := |r|;
      AllSatisfied(cs, r) <==>
        && r[0] >= FirstFloor
        && (forall i :: 0 <= i < n - 3 ==> r[i + 1] - r[i] >= PairGap)
        && r[n - 2] - r[n - 3] >= TopGap
        && r[n - 1] - r[n - 2] >= TopGap
        && r[n - 1] == 1.0
  {
    var cs := GenerateConstraintsIntended(initialRatings).value.1;
    var n := |r|;
    var g := n - 3;
    assert Satisfied(cs[g], r) <==> r[0] >= FirstFloor;
    assert Satisfied(cs[g + 1], r) <==> r[n - 2] - r[n - 3] >= TopGap;
    assert Satisfied(cs[g + 2], r) <==> r[n - 1] - r[n - 2] >= TopGap;
    assert Satisfied(cs[g + 3], r) <==> r[n - 1] == 1.0;
    if AllSatisfied(cs, r) {
      forall i | 0 <= i < n - 3 ensures r[i + 1] - r[i] >= PairGap {
        assert Satisfied(cs[i], r);
      }
    }
  }
}

=== FILE: frames.dfy ===
/**
 * The data the core works on: yield grids indexed by rating (rows) and tenor
 * in days (columns), ordered label-to-position scales, and the errors the
 * core's operations raise.
 */
module Frames {
  import opened Wrappers

  /** A floating-point cell or result; `None` stands for NaN, pandas' missing marker. */
  type Float = Option<real>

  /** A row label of a grid: a rating text or, after relabelling, a number. */
  datatype Key = Label(text: string) | Num(value: real)

  /** The exceptions the modelled code raises, named after their cause. */
  datatype Error =
    | NotFitted            // a method of an interpolator used before `fit` (attribute still None)
    | ShapeMismatch        // arrays of inconsistent lengths
    | TooFewKnots          // interp1d refuses fewer than two points
    | RowOutOfRange        // positional row access past the end of the grid
    | OptimizerRaised      // the optimizer propagated an exception (only ever returned by the optimizer parameter)
    | SingularMatrix       // the linear solve failed (only ever returned by the solver parameter)
    | NotBaseInterpolator  // the assertion in the grid filler's constructor
    | NonFiniteInput       // the error metric refuses NaN input
    | EmptyInput           // the error metric refuses an empty fold
    | TooFewSamples        // more folds requested than there are samples (only ever returned by the splitter parameter)
    | BadSplitCount        // fewer than two folds requested (only ever returned by the splitter parameter)
    | NoData               // no sample at all across the dates
    | BadHeader            // a column header that does not split into two parts
    | BadInteger           // a tenor text that is not an integer
    | DuplicateEntries     // two values for one (rating, tenor) cell in a pivot
    | OperandTypeError     // arithmetic between a function object and a number
    | NoTrainingPoints     // the affine part of an empty fit is indexed
    | RepeatedLabel        // a label read (`.loc`, `.at`) matched several rows or columns and the Series it gave was refused
    | EmptyTrainingArray   // `X[:, 0]` on the one-dimensional empty array built when no cell is present
    | AttributeMissing     // a method no class defines was called (AttributeError)

  /** A rectangular grid: one row of cells per index key, one cell per column. */
  datatype Table = Table(index: seq<Key>, columns: seq<int>, cells: seq<seq<Float>>) {
    predicate WellFormed() {
      |cells| == |index| && forall r :: 0 <= r < |cells| ==> |cells[r]| == |columns|
    }
  }

  /** A grid object whose index and cells the core rewrites in place. */
  class Frame {
    var index: seq<Key>
    var columns: seq<int>
    var cells: seq<seq<Float>>

    function Value(): Table
      reads this
    {
      Table(index, columns, cells)
    }

    ghost predicate Valid()
      reads this
    {
      Value().WellFormed()
    }

    constructor (t: Table)
      requires t.WellFormed()
      ensures Valid() && Value() == t
    {
      index, columns, cells := t.index, t.columns, t.cells;
    }
  }

  /**
   * An ordered mapping from labels to positions (a Python dict): the labels in
   * insertion order and the positions alongside.
   */
  datatype Scale = Scale(labels: seq<Key>, values: seq<real>) {
    ghost predicate Valid() {
      |labels| == |values| && Distinct(labels)
    }
  }

  ghost predicate Distinct<T>(s: seq<T>) {
    forall i, j :: 0 <= i < j < |s| ==> s[i] != s[j]
  }

  /** Whether some label occurs twice (pandas' `not index.is_unique`). */
  function HasRepeat<T(==)>(s: seq<T>): (r: bool)
    ensures r <==> !Distinct(s)
    decreases |s|
  {
    if |s| == 0 then false
    else
      var init := s[..|s| - 1];
      assert forall i :: 0 <= i < |init| ==> init[i] == s[i];
      s[|s| - 1] in init || HasRepeat(init)
  }

  /**
   * A cell read by its labels (`df.at[i, j]`, `df.loc[i, j]`) over every
   * row and column of t meets a label shared by several rows or several
   * columns, and reads a Series where a cell was expected. The reads run
   * only when the other axis is non-empty.
   */
  ghost predicate RepeatedRead(t: Table) {
    (|t.columns| > 0 && !Distinct(t.index)) || (|t.index| > 0 && !Distinct(t.columns))
  }

  /** Whether reading every cell of t by label meets a repeated label. */
  function HasRepeatedRead(t: Table): (r: bool)
    ensures r <==> RepeatedRead(t)
  {
    (|t.columns| > 0 && HasRepeat(t.index)) || (|t.index| > 0 && HasRepeat(t.columns))
  }

  /** The position stored for `k`, if any (dict lookup). */
  function Lookup(s: Scale, k: Key): (r: Option<real>)
    ensures r.Some? <==> exists i :: 0 <= i < |s.labels| && i < |s.values| && s.labels[i] == k
    ensures r.Some? ==> exists i :: 0 <= i < |s.labels| && i < |s.values| && s.labels[i] == k && s.values[i] == r.value
    decreases |s.labels|
  {
    if |s.labels| == 0 || |s.values| == 0 then None
    else if s.labels[0] == k then Some(s.values[0])
    else
      var rest := Lookup(Scale(s.labels[1..], s.values[1..]), k);
      assert rest.Some? ==> exists i :: 0 <= i < |s.labels| - 1 && i < |s.values| - 1 && s.labels[1..][i] == k && s.values[1..][i] == rest.value;
      rest
  }

  /** In a scale with distinct labels, the lookup of the i-th label is the i-th position. */
  lemma {:induction false} LookupAt(s: Scale, i: nat)
    requires s.Valid() && i < |s.labels|
    ensures Lookup(s, s.labels[i]) == Some(s.values[i])
    decreases i
  {
    if i > 0 {
      var tail := Scale(s.labels[1..], s.values[1..]);
      assert tail.labels[i - 1] == s.labels[i];
      LookupAt(tail, i - 1);
    }
  }
}

=== FILE: generate_fake_data.dfy ===
/**
 * The synthetic data set the tests load: ten ratings, ten tenors of whole
 * years in days, and one "RATING::DAYS" column per (rating, tenor) pair in
 * rating-major order. The yields themselves are drawn at random and the
 * dates come from a calendar range; both are parameters here.
 */
module FakeData {
  import opened Wrappers
  import opened Frames
  import Loader
  import Stats

  /** The ratings, best first. */
  const Ratings: seq<string> := ["AAA", "AA", "A", "BBB", "BB", "B", "CCC", "CC", "C", "D"]

  /** `[365 * year for year in range(1, 11)]`. */
  function TenorsDays(): seq<nat> {
    seq(10, i requires 0 <= i < 10 => 365 * (i + 1))
  }

  /** `f'{rating}::{tenor}'`. */
  function ColumnName(rating: string, tenor: nat): string {
    rating + "::" + Loader.ShowNat(tenor)
  }

  /** `[f'{rating}::{tenor}' for rating in ratings for tenor in tenors]`. */
  function ColumnNames(ratings: seq<string>, tenors: seq<nat>): (names: seq<string>)
    ensures |names| == |ratings| * |tenors|
  {
    if |ratings| == 0 then []
    else
      seq(|tenors|, j requires 0 <= j < |tenors| => ColumnName(ratings[0], tenors[j]))
      + ColumnNames(ratings[1..], tenors)
  }

  /**
   * `generate_fake_bond_yields` with the dates of the range and the drawn
   * yields given: one row per date, one column per generated name.
   */
  function GenerateFakeBondYields(dates: seq<string>, data: seq<seq<real>>): (csv: Loader.Csv)
    requires |data| == |dates| && forall r :: 0 <= r < |data| ==> |data[r]| == 100
    ensures csv.dates == dates
    ensures csv.headers == ColumnNames(Ratings, TenorsDays())
    ensures csv.WellFormed()
    ensures forall r, c :: 0 <= r < |data| && 0 <= c < 100 ==> csv.rows[r][c] == Some(data[r][c])
  {
    var headers := ColumnNames(Ratings, TenorsDays());
    assert |headers| == 100 by {
      NameCount();
    }
    Loader.Csv(dates, headers, Cells(data))
  }

  /** The drawn yields as cells, none missing. */
  function Cells(data: seq<seq<real>>): (cells: seq<seq<Float>>)
    ensures |cells| == |data|
    ensures forall r :: 0 <= r < |data| ==> |cells[r]| == |data[r]|
    ensures forall r, c :: 0 <= r < |data| && 0 <= c < |data[r]| ==> cells[r][c] == Some(data[r][c])
  {
    seq(|data|, r requires 0 <= r < |data| =>
      seq(|data[r]|, c requires 0 <= c < |data[r]| => Some(data[r][c])))
  }

  lemma NameCount()
    ensures |ColumnNames(Ratings, TenorsDays())| == 100
  {
    assert |Ratings| == 10 && |TenorsDays()| == 10;
  }

  /** Ten tenors, strictly increasing, each a positive whole number of 365-day years. */
  lemma TenorsShape()
    ensures |TenorsDays()| == 10
    ensures forall i, j :: 0 <= i < j < 10 ==> TenorsDays()[i] < TenorsDays()[j]
    ensures forall i :: 0 <= i < 10 ==> TenorsDays()[i] > 0 && TenorsDays()[i] % 365 == 0
    ensures TenorsDays()[0] == 365 && TenorsDays()[9] == 3650
  {
  }

  /** A text without any colon can stand before the separator. */
  lemma NoColonIsLeftPiece(s: string)
    requires forall i :: 0 <= i < |s| ==> s[i] != ':'
    ensures Loader.IsLeftPiece(s)
  {
  }

  /** Ten pairwise distinct ratings, none with a colon in it. */
  lemma RatingsShape()
    ensures |Ratings| == 10 && Distinct(Ratings)
    ensures forall i :: 0 <= i < 10 ==> Loader.IsLeftPiece(Ratings[i])
  {
    forall i | 0 <= i < 10 ensures Loader.IsLeftPiece(Ratings[i]) {
      NoColonIsLeftPiece(Ratings[i]);
    }
  }

  lemma MulBound(i: nat, n: nat, m: nat, j: nat)
    requires i < n && j < m
    ensures i * m + j < n * m
  {
    assert (i + 1) * m <= n * m;
  }

  lemma MulStep(i: nat, m: nat, j: nat)
    requires i > 0
    ensures i * m + j == m + ((i - 1) * m + j)
  {
  }

  /** The position of rating i and tenor j in a rating-major layout m tenors wide. */
  function Slot(i: nat, m: nat, j: nat): nat {
    i * m + j
  }

  /** Rating-major order: the name of (rating i, tenor j) sits at position Slot(i, |tenors|, j). */
  lemma {:induction false} ColumnNamesLayout(ratings: seq<string>, tenors: seq<nat>, i: nat, j: nat)
    requires i < |ratings| && j < |tenors|
    ensures Slot(i, |tenors|, j) < |ColumnNames(ratings, tenors)|
    ensures ColumnNames(ratings, tenors)[Slot(i, |tenors|, j)] == ColumnName(ratings[i], tenors[j])
    decreases i
  {
    var m := |tenors|;
    MulBound(i, |ratings|, m, j);
    assert Slot(i, m, j) == i * m + j;
    if i > 0 {
      ColumnNamesLayout(ratings[1..], tenors, i - 1, j);
      MulStep(i, m, j);
      assert ratings[1..][i - 1] == ratings[i];
    }
  }

  /** Ratings that can all stand before the separator of a header. */
  ghost predicate HeaderSafe(ratings: seq<string>) {
    forall i :: 0 <= i < |ratings| ==> Loader.IsLeftPiece(ratings[i])
  }

  /** Every name reads back as its own (rating, tenor) pair. */
  lemma NamesRoundTrip(ratings: seq<string>, tenors: seq<nat>, i: nat, j: nat)
    requires HeaderSafe(ratings) && i < |ratings| && j < |tenors|
    ensures Slot(i, |tenors|, j) < |ColumnNames(ratings, tenors)|
    ensures Loader.ParseHeader(ColumnNames(ratings, tenors)[Slot(i, |tenors|, j)]) == Success((ratings[i], tenors[j] as int))
  {
    ColumnNamesLayout(ratings, tenors, i, j);
    Loader.HeaderRoundTrip(ratings[i], tenors[j]);
  }

  /** A position in an n-by-m rating-major layout splits into its rating and tenor positions. */
  lemma Position(n: nat, m: nat, p: nat) returns (i: nat, j: nat)
    requires p < n * m
    ensures i < n && j < m && p == Slot(i, m, j)
  {
    if m == 0 {
      assert false;
    }
    i, j := p / m, p % m;
    if n <= i {
      Stats.MulMonotone(n, i, m);
      assert false;
    }
  }

  /** Different (rating, tenor) pairs give different names. */
  lemma ColumnNameInjective(r1: string, t1: nat, r2: string, t2: nat)
    requires Loader.IsLeftPiece(r1) && Loader.IsLeftPiece(r2)
    ensures ColumnName(r1, t1) == ColumnName(r2, t2) ==> r1 == r2 && t1 == t2
  {
    Loader.HeaderRoundTrip(r1, t1);
    Loader.HeaderRoundTrip(r2, t2);
  }

  /** With distinct ratings and distinct tenors the names are pairwise distinct. */
  lemma NamesDistinct(ratings: seq<string>, tenors: seq<nat>)
    requires HeaderSafe(ratings) && Distinct(ratings) && Distinct(tenors)
    ensures Distinct(ColumnNames(ratings, tenors))
  {
    var names := ColumnNames(ratings, tenors);
    var n, m := |ratings|, |tenors|;
    forall a, b | 0 <= a < b < |names| ensures names[a] != names[b] {
      var ia, ja := Position(n, m, a);
      var ib, jb := Position(n, m, b);
      ColumnNamesLayout(ratings, tenors, ia, ja);
      ColumnNamesLayout(ratings, tenors, ib, jb);
      ColumnNameInjective(ratings[ia], tenors[ja], ratings[ib], tenors[jb]);
    }
  }

  /** The generated names: a hundred, pairwise distinct. */
  lemma GeneratedNamesDistinct()
    ensures |ColumnNames(Ratings, TenorsDays())| == 100
    ensures Distinct(ColumnNames(Ratings, TenorsDays()))
  {
    RatingsShape();
    TenorsShape();
    NameCount();
    NamesDistinct(Ratings, TenorsDays());
  }

  /** The generated name at position p reads back as rating p / 10 and tenor p % 10 (rating-major order). */
  lemma GeneratedNameParses(p: nat)
    requires p < 100
    ensures p < |ColumnNames(Ratings, TenorsDays())|
    ensures Loader.ParseHeader(ColumnNames(Ratings, TenorsDays())[p]) == Success((Ratings[p / 10], TenorsDays()[p % 10] as int))
  {
    var names := ColumnNames(Ratings, TenorsDays());
    var i, j := p / 10, p % 10;
    assert HeaderSafe(Ratings) by {
      RatingsShape();
    }
    assert |TenorsDays()| == 10 && i * 10 + j == p;
    NamesRoundTrip(Ratings, TenorsDays(), i, j);
  }

  /** Every generated header parses, so a row under them always yields its triples. */
  lemma GeneratedRowParses(ratings: seq<string>, tenors: seq<nat>, row: seq<Float>)
    requires HeaderSafe(ratings) && |row| == |ColumnNames(ratings, tenors)|
    ensures Loader.RowTriples(ColumnNames(ratings, tenors), row).Success?
  {
    var headers := ColumnNames(ratings, tenors);
    forall p | 0 <= p < |headers| ensures Loader.ParseHeader(headers[p]).Success? {
      var i, j := Position(|ratings|, |tenors|, p);
      NamesRoundTrip(ratings, tenors, i, j);
    }
    Loader.RowTriplesTotal(headers, row);
  }

  /** The triple of column p holds the rating and tenor whose name sits at p. */
  lemma TripleAt(ratings: seq<string>, tenors: seq<nat>, row: seq<Float>, p: nat) returns (i: nat, j: nat)
    requires HeaderSafe(ratings) && |row| == |ColumnNames(ratings, tenors)|
    requires Loader.RowTriples(ColumnNames(ratings, tenors), row).Success?
    requires p < |Loader.RowTriples(ColumnNames(ratings, tenors), row).value|
    ensures i < |ratings| && j < |tenors| && p == Slot(i, |tenors|, j)
    ensures Loader.RowTriples(ColumnNames(ratings, tenors), row).value[p].rating == ratings[i]
    ensures Loader.RowTriples(ColumnNames(ratings, tenors), row).value[p].tenor == tenors[j]
  {
    var headers := ColumnNames(ratings, tenors);
    Loader.RowTriplesSuccess(headers, row);
    i, j := Position(|ratings|, |tenors|, p);
    NamesRoundTrip(ratings, tenors, i, j);
  }

  /** A row under generated headers yields one triple per (rating, tenor) pair, none twice, so it pivots. */
  lemma GeneratedRowPivots(ratings: seq<string>, tenors: seq<nat>, row: seq<Float>)
    requires HeaderSafe(ratings) && Distinct(ratings) && Distinct(tenors)
    requires |row| == |ColumnNames(ratings, tenors)|
    ensures Loader.RowTriples(ColumnNames(ratings, tenors), row).Success?
    ensures Loader.Pivot(Loader.RowTriples(ColumnNames(ratings, tenors), row).value).Success?
  {
    GeneratedRowParses(ratings, tenors, row);
    var ts := Loader.RowTriples(ColumnNames(ratings, tenors), row).value;
    forall a, b | 0 <= a < b < |ts| ensures ts[a].rating != ts[b].rating || ts[a].tenor != ts[b].tenor {
      var ia, ja := TripleAt(ratings, tenors, row, a);
      var ib, jb := TripleAt(ratings, tenors, row, b);
      if ia == ib {
        assert ja != jb;
      }
    }
  }

  /** The shape every generated table shares: headers built from header-safe, distinct ratings and distinct tenors. */
  ghost predicate GeneratedShape(ratings: seq<string>, tenors: seq<nat>, csv: Loader.Csv) {
    csv.WellFormed() && HeaderSafe(ratings) && Distinct(ratings) && Distinct(tenors)
    && csv.headers == ColumnNames(ratings, tenors)
  }

  /** Loading a table with generated headers succeeds, with one grid per distinct date. */
  lemma LoadGeneratedShape(ratings: seq<string>, tenors: seq<nat>, csv: Loader.Csv)
    requires GeneratedShape(ratings, tenors, csv)
    ensures Loader.LoadSpec(csv).Success?
    ensures Loader.LoadSpec(csv).value.dates == Loader.UniqueDates(csv.dates)
  {
    var ds := Loader.UniqueDates(csv.dates);
    forall d | d in ds ensures Loader.GridOf(csv)(d).Success? {
      GeneratedRowPivots(ratings, tenors, csv.rows[Loader.IndexOf(csv.dates, d)]);
    }
    Loader.LoadDatesFailure(ds, Loader.GridOf(csv));
    Loader.OneGridPerDate(csv);
  }

  /** In a table with generated headers, the column of (rating a, tenor b) lands at that row and column of each date's grid. */
  lemma LoadGeneratedShapeCell(ratings: seq<string>, tenors: seq<nat>, csv: Loader.Csv, i: nat, a: nat, b: nat)
    requires GeneratedShape(ratings, tenors, csv) && Loader.LoadSpec(csv).Success?
    requires i < |Loader.LoadSpec(csv).value.dates| && a < |ratings| && b < |tenors|
    ensures i < |Loader.LoadSpec(csv).value.grids| && Loader.LoadSpec(csv).value.dates[i] in csv.dates
    ensures Slot(a, |tenors|, b) < |csv.headers|
    ensures Loader.HoldsAt(Loader.LoadSpec(csv).value.grids[i], ratings[a], tenors[b],
      csv.rows[Loader.IndexOf(csv.dates, Loader.LoadSpec(csv).value.dates[i])][Slot(a, |tenors|, b)])
  {
    NamesRoundTrip(ratings, tenors, a, b);
    Loader.LoadPlacement(csv, i, Slot(a, |tenors|, b), ratings[a], tenors[b]);
  }

  /** The generated table has that shape. */
  lemma GeneratedHasShape(dates: seq<string>, data: seq<seq<real>>)
    requires |data| == |dates| && forall r :: 0 <= r < |data| ==> |data[r]| == 100
    ensures GeneratedShape(Ratings, TenorsDays(), GenerateFakeBondYields(dates, data))
  {
    RatingsShape();
    TenorsShape();
  }

  /**
   * Loading a generated table succeeds and keeps one grid per distinct date,
   * in order of first appearance.
   */
  lemma LoadGeneratedSucceeds(dates: seq<string>, data: seq<seq<real>>)
    requires |data| == |dates| && forall r :: 0 <= r < |data| ==> |data[r]| == 100
    ensures Loader.LoadSpec(GenerateFakeBondYields(dates, data)).Success?
    ensures Loader.LoadSpec(GenerateFakeBondYields(dates, data)).value.dates == Loader.UniqueDates(dates)
  {
    GeneratedHasShape(dates, data);
    LoadGeneratedShape(Ratings, TenorsDays(), GenerateFakeBondYields(dates, data));
  }

  /**
   * In the grid loaded for the i-th distinct date, the cell of rating a and
   * tenor b holds the yield drawn for that date's row and the column of
   * (a, b): no cell of a generated table is left missing.
   */
  lemma LoadGeneratedCell(dates: seq<string>, data: seq<seq<real>>, i: nat, a: nat, b: nat)
    requires |data| == |dates| && forall r :: 0 <= r < |data| ==> |data[r]| == 100
    requires i < |Loader.UniqueDates(dates)| && a < 10 && b < 10
    ensures Loader.LoadSpec(GenerateFakeBondYields(dates, data)).Success?
    ensures i < |Loader.LoadSpec(GenerateFakeBondYields(dates, data)).value.grids|
    ensures Loader.UniqueDates(dates)[i] in dates
    ensures Loader.HoldsAt(Loader.LoadSpec(GenerateFakeBondYields(dates, data)).value.grids[i],
      Ratings[a], TenorsDays()[b],
      Some(data[Loader.IndexOf(dates, Loader.UniqueDates(dates)[i])][a * 10 + b]))
  {
    var csv := GenerateFakeBondYields(dates, data);
    GeneratedHasShape(dates, data);
    LoadGeneratedShape(Ratings, TenorsDays(), csv);
    LoadGeneratedShapeCell(Ratings, TenorsDays(), csv, i, a, b);
  }
}

=== FILE: interpolate_bond_yields.dfy ===
/**
 * The grid filler: it turns a grid's index into text, trains its interpolator
 * on the present cells (row-major order), asks it for the missing cells (same
 * order) and writes the k-th prediction into the k-th missing cell, leaving
 * every present cell as it was.
 */
module GridFilling {
  import opened Wrappers
  import opened Frames
  import opened Linear
  import ThinPlateSpline

  /** A grid cell by row position and column position. */
  datatype Pos = Pos(row: nat, col: nat)

  /** Row-major order: by row, then by column. */
  predicate Before(p: Pos, q: Pos) {
    p.row < q.row || (p.row == q.row && p.col < q.col)
  }

  predicate RowMajor(ps: seq<Pos>) {
    forall i, j :: 0 <= i < j < |ps| ==> Before(ps[i], ps[j])
  }

  /** `df.index.astype(str)`: labels stay, numbers become their printed text. */
  function StringIndex(index: seq<Key>, showNumber: real -> string): (s: seq<Key>)
    ensures |s| == |index|
    ensures forall i :: 0 <= i < |s| ==> s[i].Label?
    ensures forall i :: 0 <= i < |s| && index[i].Label? ==> s[i] == index[i]
    ensures forall i :: 0 <= i < |s| && index[i].Num? ==> s[i] == Label(showNumber(index[i].value))
  {
    seq(|index|, i requires 0 <= i < |index| =>
      match index[i]
      case Label(_) => index[i]
      case Num(v) => Label(showNumber(v)))
  }

  /** Every cell position of a rows-by-cols grid, row by row. */
  function AllPositions(rows: nat, cols: nat): (ps: seq<Pos>)
    ensures |ps| == rows * cols
    ensures forall p :: p in ps <==> p.row < rows && p.col < cols
    ensures RowMajor(ps)
  {
    if rows == 0 then []
    else
      var front := AllPositions(rows - 1, cols);
      var row := seq(cols, c requires 0 <= c < cols => Pos(rows - 1, c));
      assert forall p :: p in row <==> p.row == rows - 1 && p.col < cols by {
        forall p: Pos | p.row == rows - 1 && p.col < cols ensures p in row {
          assert row[p.col] == p;
        }
      }
      front + row
  }

  predicate InGrid(t: Table, p: Pos) {
    p.row < |t.index| && p.col < |t.columns|
  }

  predicate AllInGrid(t: Table, ps: seq<Pos>) {
    forall k :: 0 <= k < |ps| ==> InGrid(t, ps[k])
  }

  /** The cell at p. */
  function Cell(t: Table, p: Pos): Float
    requires t.WellFormed() && InGrid(t, p)
  {
    t.cells[p.row][p.col]
  }

  /** The positions of ps whose cell is present (or, with present false, missing), in order. */
  function Select(t: Table, ps: seq<Pos>, present: bool): (s: seq<Pos>)
    requires t.WellFormed() && AllInGrid(t, ps)
    ensures AllInGrid(t, s)
    ensures forall p :: p in s <==> p in ps && InGrid(t, p) && Cell(t, p).Some? == present
    ensures RowMajor(ps) ==> RowMajor(s)
  {
    if |ps| == 0 then []
    else
      var front := Select(t, ps[..|ps| - 1], present);
      var last := ps[|ps| - 1];
      assert ps == ps[..|ps| - 1] + [last];
      assert RowMajor(ps) ==> forall p :: p in front ==> Before(p, last) by {
        if RowMajor(ps) {
          forall p | p in front ensures Before(p, last) {
            var i :| 0 <= i < |ps| - 1 && ps[..|ps| - 1][i] == p;
          }
        }
      }
      if Cell(t, last).Some? == present then front + [last] else front
  }

  /** The number of present and of missing positions among ps adds up to |ps|. */
  lemma {:induction false} SelectCount(t: Table, ps: seq<Pos>)
    requires t.WellFormed() && AllInGrid(t, ps)
    ensures |Select(t, ps, true)| + |Select(t, ps, false)| == |ps|
  {
    if |ps| > 0 {
      SelectCount(t, ps[..|ps| - 1]);
    }
  }

  /** The present cells, row-major. */
  function Present(t: Table): seq<Pos>
    requires t.WellFormed()
  {
    Select(t, AllPositions(|t.index|, |t.columns|), true)
  }

  /** The missing cells, row-major. */
  function Missing(t: Table): seq<Pos>
    requires t.WellFormed()
  {
    Select(t, AllPositions(|t.index|, |t.columns|), false)
  }

  /**
   * Training and query positions split the grid: a cell is a training
   * position exactly when it is present and a query position exactly when it
   * is missing; both lists are row-major and together hold every cell once.
   */
  lemma PresentMissingPartition(t: Table)
    requires t.WellFormed()
    ensures forall p :: InGrid(t, p) ==> (p in Present(t) <==> Cell(t, p).Some?)
    ensures forall p :: InGrid(t, p) ==> (p in Missing(t) <==> Cell(t, p).None?)
    ensures AllInGrid(t, Present(t)) && AllInGrid(t, Missing(t))
    ensures RowMajor(Present(t)) && RowMajor(Missing(t))
    ensures |Present(t)| + |Missing(t)| == |t.index| * |t.columns|
  {
    SelectCount(t, AllPositions(|t.index|, |t.columns|));
  }

  /** `(i, j)` for each listed cell: its row label and its tenor. */
  function PointsAt(t: Table, ps: seq<Pos>): (X: seq<Point>)
    requires AllInGrid(t, ps)
    ensures |X| == |ps|
    ensures forall k :: 0 <= k < |ps| ==> X[k] == (t.index[ps[k].row], t.columns[ps[k].col])
  {
    seq(|ps|, k requires 0 <= k < |ps| => (t.index[ps[k].row], t.columns[ps[k].col]))
  }

  /** `df.at[i, j]` for each listed cell. */
  function ValuesAt(t: Table, ps: seq<Pos>): (y: seq<Float>)
    requires t.WellFormed() && AllInGrid(t, ps)
    ensures |y| == |ps|
    ensures forall k :: 0 <= k < |ps| ==> y[k] == t.cells[ps[k].row][ps[k].col]
  {
    seq(|ps|, k requires 0 <= k < |ps| => t.cells[ps[k].row][ps[k].col])
  }

  /** The cells with the cell at p replaced by v. */
  function SetCell(cells: seq<seq<Float>>, p: Pos, v: Float): seq<seq<Float>>
    requires p.row < |cells| && p.col < |cells[p.row]|
  {
    cells[p.row := cells[p.row][p.col := v]]
  }

  predicate Shaped(cells: seq<seq<Float>>, rows: nat, cols: nat) {
    |cells| == rows && forall r :: 0 <= r < rows ==> |cells[r]| == cols
  }

  /** Every listed position is a cell of the grid. */
  predicate Fits(cells: seq<seq<Float>>, ps: seq<Pos>) {
    forall k :: 0 <= k < |ps| ==> ps[k].row < |cells| && ps[k].col < |cells[ps[k].row]|
  }

  /** The cells after the first n writes of the fill loop: ps[k] receives preds[k]. */
  function Fill(cells: seq<seq<Float>>, ps: seq<Pos>, preds: seq<Float>, n: nat): (filled: seq<seq<Float>>)
    requires n <= |ps| && n <= |preds| && Fits(cells, ps)
    ensures |filled| == |cells| && forall r :: 0 <= r < |cells| ==> |filled[r]| == |cells[r]|
  {
    if n == 0 then cells
    else
      var front := Fill(cells, ps, preds, n - 1);
      SetCell(front, ps[n - 1], preds[n - 1])
  }

  /**
   * With distinct positions, the fill writes preds[k] into ps[k] for each
   * k < n and leaves every other cell as it was.
   */
  lemma {:induction false} FillSpec(cells: seq<seq<Float>>, ps: seq<Pos>, preds: seq<Float>, n: nat)
    requires n <= |ps| && n <= |preds| && RowMajor(ps) && Fits(cells, ps)
    ensures forall k :: 0 <= k < n ==> Fill(cells, ps, preds, n)[ps[k].row][ps[k].col] == preds[k]
    ensures forall r, c :: 0 <= r < |cells| && 0 <= c < |cells[r]| && Pos(r, c) !in ps[..n] ==>
      Fill(cells, ps, preds, n)[r][c] == cells[r][c]
  {
    if n > 0 {
      FillSpec(cells, ps, preds, n - 1);
      forall k | 0 <= k < n - 1 ensures ps[k] != ps[n - 1] {
        assert Before(ps[k], ps[n - 1]);
      }
      forall r, c | 0 <= r < |cells| && 0 <= c < |cells[r]| && Pos(r, c) !in ps[..n]
        ensures Pos(r, c) !in ps[..n - 1]
      {
        assert forall p :: p in ps[..n - 1] ==> p in ps[..n];
      }
    }
  }

  /**
   * filled is grid t with its missing cells filled from preds: one prediction
   * per missing cell, the same shape, every present cell keeps its value, the
   * k-th missing cell (row-major) holds preds[k], and no cell is missing when
   * every prediction is a number.
   */
  ghost predicate FillsMissing(t: Table, preds: seq<Float>, filled: seq<seq<Float>>)
    requires t.WellFormed()
  {
    && |preds| == |Missing(t)|
    && Shaped(filled, |t.index|, |t.columns|)
    && (forall p :: InGrid(t, p) && Cell(t, p).Some? ==> filled[p.row][p.col] == Cell(t, p))
    && (forall k :: 0 <= k < |preds| ==> filled[Missing(t)[k].row][Missing(t)[k].col] == preds[k])
    && ((forall k :: 0 <= k < |preds| ==> preds[k].Some?) ==>
          forall p :: InGrid(t, p) ==> filled[p.row][p.col].Some?)
  }

  /** The fill loop's writes, one per missing cell, fill the missing cells from preds. */
  lemma FillMissing(t: Table, preds: seq<Float>)
    requires t.WellFormed() && |preds| == |Missing(t)|
    ensures FillsMissing(t, preds, Fill(t.cells, Missing(t), preds, |preds|))
  {
    FillKeepsPresent(t, preds);
    FillWritesMissing(t, preds);
    if forall k :: 0 <= k < |preds| ==> preds[k].Some? {
      FillCompletes(t, preds);
    }
  }

  /** Writing the missing cells leaves every present cell as it was. */
  lemma FillKeepsPresent(t: Table, preds: seq<Float>)
    requires t.WellFormed() && |preds| == |Missing(t)|
    ensures forall p :: InGrid(t, p) && Cell(t, p).Some? ==>
      Fill(t.cells, Missing(t), preds, |preds|)[p.row][p.col] == Cell(t, p)
  {
    var missing := Missing(t);
    PresentMissingPartition(t);
    FillSpec(t.cells, missing, preds, |preds|);
    assert missing[..|preds|] == missing;
  }

  /** The k-th missing cell receives the k-th prediction. */
  lemma FillWritesMissing(t: Table, preds: seq<Float>)
    requires t.WellFormed() && |preds| == |Missing(t)|
    ensures AllInGrid(t, Missing(t))
    ensures forall k :: 0 <= k < |preds| ==>
      Fill(t.cells, Missing(t), preds, |preds|)[Missing(t)[k].row][Missing(t)[k].col] == preds[k]
  {
    PresentMissingPartition(t);
    FillSpec(t.cells, Missing(t), preds, |preds|);
  }

  /** When every prediction is a number, no cell is missing after the writes. */
  lemma FillCompletes(t: Table, preds: seq<Float>)
    requires t.WellFormed() && |preds| == |Missing(t)|
    requires forall k :: 0 <= k < |preds| ==> preds[k].Some?
    ensures forall p :: InGrid(t, p) ==> Fill(t.cells, Missing(t), preds, |preds|)[p.row][p.col].Some?
  {
    var missing := Missing(t);
    PresentMissingPartition(t);
    FillKeepsPresent(t, preds);
    FillWritesMissing(t, preds);
    var filled: seq<seq<Float>> := Fill(t.cells, missing, preds, |preds|);
    forall p | InGrid(t, p) ensures filled[p.row][p.col].Some? {
      if Cell(t, p).None? {
        var k :| 0 <= k < |missing| && missing[k] == p;
      }
    }
  }

  /** `X_train`: the present cells as (row label, tenor) points, row-major. */
  function TrainPoints(t: Table): seq<Point>
    requires t.WellFormed()
  {
    PointsAt(t, Present(t))
  }

  /** `y_train`: the present cells' values, in the same order. */
  function TrainValues(t: Table): seq<Float>
    requires t.WellFormed()
  {
    ValuesAt(t, Present(t))
  }

  /** `X_pred`: the missing cells as (row label, tenor) points, row-major. */
  function QueryPoints(t: Table): seq<Point>
    requires t.WellFormed()
  {
    PointsAt(t, Missing(t))
  }

  /**
   * What `fit_interpolate` raises before the interpolator is touched: a
   * label shared by several rows or several columns (the cell test
   * `mask.at[i, j]` then reads a Series, whose truth value is refused), or
   * no present cell at all (the
   * training array is then one-dimensional and the fit's `X[:, 0]` fails).
   */
  ghost predicate RaisesBeforeFit(t: Table)
    requires t.WellFormed()
  {
    RepeatedRead(t) || |Present(t)| == 0
  }

  /** The exception raised before the fit, if any: the repeated label is met first. */
  function PreFitError(t: Table): (e: Option<Error>)
    requires t.WellFormed()
    ensures e.Some? <==> RaisesBeforeFit(t)
    ensures RepeatedRead(t) ==> e == Some(RepeatedLabel)
    ensures !RepeatedRead(t) && |Present(t)| == 0 ==> e == Some(EmptyTrainingArray)
  {
    if HasRepeatedRead(t) then Some(RepeatedLabel)
    else if |Present(t)| == 0 then Some(EmptyTrainingArray)
    else None
  }

  /**
   * The cells `fit_interpolate` leaves in grid t (index already text): a
   * repeated label or an empty training set raises first; otherwise a fresh
   * linear fit on the present cells, with its predictions for the missing
   * cells written into them in order, or the error the fit raises.
   */
  function FilledCells(t: Table, eval1d: Eval1D): (res: Result<seq<seq<Float>>, Error>)
    requires t.WellFormed()
    ensures RepeatedRead(t) ==> res == Failure(RepeatedLabel)
    ensures !RepeatedRead(t) && |Present(t)| == 0 ==> res == Failure(EmptyTrainingArray)
    ensures res.Failure? <==> RaisesBeforeFit(t) || LinearFit(TrainPoints(t), TrainValues(t)).error.Some?
  {
    match PreFitError(t)
    case Some(e) => Failure(e)
    case None => FitAndFill(t, eval1d)
  }

  /** The fit on the present cells and the writes of its predictions into the missing cells. */
  function FitAndFill(t: Table, eval1d: Eval1D): (res: Result<seq<seq<Float>>, Error>)
    requires t.WellFormed()
    ensures res.Failure? <==> LinearFit(TrainPoints(t), TrainValues(t)).error.Some?
  {
    PresentMissingPartition(t);
    match LinearFitPredict(eval1d, TrainPoints(t), TrainValues(t), QueryPoints(t))
    case Failure(e) => Failure(e)
    case Success(preds) => Success(Fill(t.cells, Missing(t), preds, |preds|))
  }

  /**
   * After a successful fit the predictions for the query points exist and the
   * grid is filled from them: same shape, present cells unchanged, the k-th
   * missing cell holding the k-th prediction.
   */
  lemma FilledCellsSpec(t: Table, eval1d: Eval1D)
    requires t.WellFormed() && FilledCells(t, eval1d).Success?
    ensures LinearFitPredict(eval1d, TrainPoints(t), TrainValues(t), QueryPoints(t)).Success?
    ensures FillsMissing(t, LinearFitPredict(eval1d, TrainPoints(t), TrainValues(t), QueryPoints(t)).value,
      FilledCells(t, eval1d).value)
  {
    PresentMissingPartition(t);
    FillMissing(t, LinearFitPredict(eval1d, TrainPoints(t), TrainValues(t), QueryPoints(t)).value);
  }

  /** A grid without missing cells comes back with every cell unchanged (no prediction is asked for). */
  lemma CompleteGridUnchanged(t: Table, eval1d: Eval1D)
    requires t.WellFormed() && FilledCells(t, eval1d).Success?
    requires forall p :: InGrid(t, p) ==> Cell(t, p).Some?
    ensures FilledCells(t, eval1d).value == t.cells
    ensures QueryPoints(t) == []
  {
    PresentMissingPartition(t);
  }

  /** The fill loop: for each listed cell and its prediction, in order, `df.at[i, j] = pred`. */
  method WriteCells(df: Frame, ps: seq<Pos>, preds: seq<Float>)
    requires Fits(df.cells, ps) && |ps| <= |preds|
    modifies df
    ensures df.index == old(df.index) && df.columns == old(df.columns)
    ensures df.cells == Fill(old(df.cells), ps, preds, |ps|)
  {
    var k := 0;
    while k < |ps|
      invariant 0 <= k <= |ps|
      invariant df.index == old(df.index) && df.columns == old(df.columns)
      invariant df.cells == Fill(old(df.cells), ps, preds, k)
    {
      df.cells := SetCell(df.cells, ps[k], preds[k]);
      k := k + 1;
    }
  }

  /** An interpolator offered to the grid filler. */
  datatype Candidate =
    | LinearCandidate(linear: LinearInterpolator)
    | ThinPlateCandidate(tps: ThinPlateSpline.ThinPlateSplineInterpolator)

  /**
   * `MatrixInterpolator.__init__`: accepted only for an interpolator derived
   * from the base interpolator class, which the linear interpolator is and
   * the thin-plate spline is not.
   */
  method NewMatrixInterpolator(candidate: Candidate) returns (res: Result<MatrixInterpolator, Error>)
    ensures res.Failure? <==> candidate.ThinPlateCandidate?
    ensures res.Failure? ==> res.error == NotBaseInterpolator
    ensures res.Success? ==> fresh(res.value) && res.value.interpolator == candidate.linear
  {
    match candidate
    case ThinPlateCandidate(_) => return Failure(NotBaseInterpolator);
    case LinearCandidate(l) =>
      var m := new MatrixInterpolator(l);
      return Success(m);
  }

  class MatrixInterpolator {
    const interpolator: LinearInterpolator

    constructor (interpolator: LinearInterpolator)
      ensures this.interpolator == interpolator
    {
      this.interpolator := interpolator;
    }

    /**
     * The second half of `fit_interpolate`, after a successful fit: if any
     * cell is missing, predict the missing cells and write the predictions.
     */
    method FillFromFit(df: Frame, t: Table, eval1d: Eval1D)
      requires t.WellFormed() && df.Value() == t
      requires LinearFit(TrainPoints(t), TrainValues(t)).error.None?
      requires interpolator.interpolators == Some(LinearFit(TrainPoints(t), TrainValues(t)).fitted)
      modifies df
      ensures df.index == t.index && df.columns == t.columns
      ensures df.cells == FitAndFill(t, eval1d).value
    {
      PresentMissingPartition(t);
      var missing := Missing(t);
      var xPred := QueryPoints(t);
      ghost var preds := LinearFitPredict(eval1d, TrainPoints(t), TrainValues(t), xPred).value;
      if |xPred| > 0 {
        var predictions := interpolator.Interpolate(xPred, eval1d);
        WriteCells(df, missing, predictions.value);
      }
    }

    /**
     * `fit_interpolate`: the grid is changed in place and returned; its index
     * becomes text; a repeated label or an empty training set raises before
     * the fit; otherwise the interpolator is fitted on the present cells and,
     * if any cell is missing, the predictions are written into the missing
     * cells.
     */
    method FitInterpolate(df: Frame, showNumber: real -> string, eval1d: Eval1D) returns (res: Result<Frame, Error>)
      requires df.Valid()
      modifies df, interpolator
      ensures df.Valid()
      ensures df.index == StringIndex(old(df.index), showNumber) && df.columns == old(df.columns)
      ensures var t := Table(df.index, df.columns, old(df.cells));
        && (PreFitError(t).Some? ==> interpolator.interpolators == old(interpolator.interpolators))
        && (PreFitError(t).None? ==> interpolator.interpolators == Some(LinearFit(TrainPoints(t), TrainValues(t)).fitted))
        && (FilledCells(t, eval1d).Failure? ==> res == Failure(FilledCells(t, eval1d).error) && df.cells == old(df.cells))
        && (FilledCells(t, eval1d).Success? ==> res == Success(df) && df.cells == FilledCells(t, eval1d).value)
    {
      df.index := StringIndex(df.index, showNumber);
      var t := df.Value();
      var raised := PreFitError(t);
      if raised.Some? {
        return Failure(raised.value);
      }
      var filled := FitThenFill(df, t, eval1d);
      if filled.Failure? {
        return Failure(filled.error);
      }
      return Success(df);
    }

    /** The fit on the present cells of grid t, then the writes of its predictions into df. */
    method FitThenFill(df: Frame, t: Table, eval1d: Eval1D) returns (res: Result<(), Error>)
      requires t.WellFormed() && df.Value() == t
      modifies df, interpolator
      ensures df.index == t.index && df.columns == t.columns && df.Valid()
      ensures interpolator.interpolators == Some(LinearFit(TrainPoints(t), TrainValues(t)).fitted)
      ensures FitAndFill(t, eval1d).Failure? ==> res == Failure(FitAndFill(t, eval1d).error) && df.cells == t.cells
      ensures FitAndFill(t, eval1d).Success? ==> res == Success(()) && df.cells == FitAndFill(t, eval1d).value
    {
      var xTrain := TrainPoints(t);
      var yTrain := TrainValues(t);
      var fitted := interpolator.Fit(xTrain, yTrain);
      if fitted.Failure? {
        return Failure(fitted.error);
      }
      FillFromFit(df, t, eval1d);
      return Success(());
    }
  }
}

=== FILE: linear.dfy ===
/**
 * The row-wise linear interpolator: `fit` groups the training points by their
 * first coordinate (the rating) and keeps, per group, the knots sorted by the
 * second coordinate (the tenor); `interpolate` evaluates each query's group
 * interpolant at its tenor, or gives 0 for a rating never seen in `fit`.
 *
 * The 1-D interpolant (interp1d) is the parameter `eval1d`: given the sorted
 * knots and a tenor, its value there.
 */
module Linear {
  import opened Wrappers
  import opened Frames

  /** A training or query point: (rating key, tenor in days). */
  type Point = (Key, int)

  /** interp1d built on the knots (xs, ys) and called at one abscissa. */
  type Eval1D = (seq<int>, seq<Float>, int) -> Float

  /** The knots of one rating's interpolant. */
  datatype Knots = Knots(xs: seq<int>, ys: seq<Float>)

  /** `np.where(X[:, 0] == k)`: the ascending positions of the points whose rating is k. */
  function Where(X: seq<Point>, k: Key): (idx: seq<nat>)
    ensures forall j :: 0 <= j < |idx| ==> idx[j] < |X| && X[idx[j]].0 == k
    ensures forall i :: 0 <= i < |X| && X[i].0 == k ==> i in idx
    ensures forall j, j' :: 0 <= j < j' < |idx| ==> idx[j] < idx[j']
  {
    if |X| == 0 then []
    else Where(X[..|X| - 1], k) + (if X[|X| - 1].0 == k then [|X| - 1] else [])
  }

  /** The distinct ratings of X, in order of first occurrence. */
  function UniqueKeys(X: seq<Point>): (keys: seq<Key>)
    ensures Distinct(keys)
    ensures forall i :: 0 <= i < |X| ==> X[i].0 in keys
    ensures forall j :: 0 <= j < |keys| ==> exists i :: 0 <= i < |X| && X[i].0 == keys[j]
  {
    if |X| == 0 then []
    else
      var front := UniqueKeys(X[..|X| - 1]);
      assert forall i :: 0 <= i < |X| - 1 ==> X[..|X| - 1][i] == X[i];
      if X[|X| - 1].0 in front then front else front + [X[|X| - 1].0]
  }

  /** Knots sorted ascending by tenor. */
  predicate SortedByTenor(s: seq<(int, Float)>) {
    forall i, j :: 0 <= i < j < |s| ==> s[i].0 <= s[j].0
  }

  /** Insertion of one knot into a tenor-sorted run: the run gains exactly that knot. */
  function Insert(p: (int, Float), s: seq<(int, Float)>): (r: seq<(int, Float)>)
    ensures multiset(r) == multiset(s) + multiset{p}
  {
    if |s| == 0 then [p]
    else if p.0 <= s[0].0 then [p] + s
    else
      assert s == [s[0]] + s[1..];
      [s[0]] + Insert(p, s[1..])
  }

  /** Insertion keeps a run sorted by tenor. */
  lemma {:induction false} InsertSorted(p: (int, Float), s: seq<(int, Float)>)
    requires SortedByTenor(s)
    ensures SortedByTenor(Insert(p, s))
  {
    if |s| > 0 && p.0 > s[0].0 {
      var rest := Insert(p, s[1..]);
      InsertSorted(p, s[1..]);
      forall j | 0 <= j < |rest| ensures s[0].0 <= rest[j].0 {
        assert rest[j] in multiset(rest);
        assert rest[j] == p || rest[j] in s[1..];
      }
    }
  }

  /** `argsort` by tenor: the group's points reordered ascending by tenor (y values move with them). */
  function SortByTenor(g: seq<(int, Float)>): (s: seq<(int, Float)>)
    ensures SortedByTenor(s)
    ensures multiset(s) == multiset(g)
  {
    if |g| == 0 then []
    else
      assert g == g[..|g| - 1] + [g[|g| - 1]];
      InsertSorted(g[|g| - 1], SortByTenor(g[..|g| - 1]));
      Insert(g[|g| - 1], SortByTenor(g[..|g| - 1]))
  }

  /** Every position of idx indexes y: no IndexError when y is gathered at idx. */
  predicate AllBelow(idx: seq<nat>, n: nat) {
    forall j :: 0 <= j < |idx| ==> idx[j] < n
  }

  /** The knots of sorted (tenor, y) pairs: their tenors and their y values, position by position. */
  function KnotsOf(sorted: seq<(int, Float)>): (kn: Knots)
    ensures |kn.xs| == |kn.ys| == |sorted|
    ensures forall j :: 0 <= j < |sorted| ==> kn.xs[j] == sorted[j].0 && kn.ys[j] == sorted[j].1
  {
    Knots(seq(|sorted|, j requires 0 <= j < |sorted| => sorted[j].0),
          seq(|sorted|, j requires 0 <= j < |sorted| => sorted[j].1))
  }

  /** `(X[indices][:, 1], y[indices])`: the (tenor, y) pairs at the positions idx. */
  function Gather(X: seq<Point>, y: seq<Float>, idx: seq<nat>): (g: seq<(int, Float)>)
    requires AllBelow(idx, |X|) && AllBelow(idx, |y|)
    ensures |g| == |idx|
    ensures forall j :: 0 <= j < |idx| ==> g[j] == (X[idx[j]].1, y[idx[j]])
  {
    seq(|idx|, j requires 0 <= j < |idx| => (X[idx[j]].1, y[idx[j]]))
  }

  /**
   * The knots fitted for rating k: the group's (tenor, y) pairs sorted by tenor;
   * an IndexError when y is too short for a position of the group, a
   * ValueError from interp1d when the group has fewer than two points.
   */
  function GroupKnots(X: seq<Point>, y: seq<Float>, k: Key): (res: Result<Knots, Error>)
    ensures res.Failure? <==> !AllBelow(Where(X, k), |y|) || |Where(X, k)| < 2
    ensures res.Success? ==> |res.value.xs| == |res.value.ys| >= 2
  {
    var idx := Where(X, k);
    if !AllBelow(idx, |y|) then Failure(ShapeMismatch)
    else
      var sorted := SortByTenor(Gather(X, y, idx));
      assert |sorted| == |idx| by {
        assert |multiset(sorted)| == |multiset(Gather(X, y, idx))|;
      }
      if |sorted| < 2 then Failure(TooFewKnots) else Success(KnotsOf(sorted))
  }

  /** The (tenor, y) pairs of the points of rating k, in input order. */
  function Group(X: seq<Point>, y: seq<Float>, k: Key): seq<(int, Float)> {
    var idx := Where(X, k);
    seq(|idx|, j requires 0 <= j < |idx| => (X[idx[j]].1, if idx[j] < |y| then y[idx[j]] else None))
  }

  /**
   * A fitted group's knots: the abscissae ascend, and the (tenor, y) pairs are
   * exactly the group's pairs, reordered.
   */
  lemma GroupKnotsSorted(X: seq<Point>, y: seq<Float>, k: Key)
    requires GroupKnots(X, y, k).Success?
    ensures var kn := GroupKnots(X, y, k).value;
      && (forall i, j :: 0 <= i < j < |kn.xs| ==> kn.xs[i] <= kn.xs[j])
      && multiset(seq(|kn.xs|, i requires 0 <= i < |kn.xs| => (kn.xs[i], kn.ys[i]))) == multiset(Group(X, y, k))
  {
    var idx := Where(X, k);
    var group := Gather(X, y, idx);
    assert group == Group(X, y, k);
    var sorted := SortByTenor(group);
    var kn := GroupKnots(X, y, k).value;
    assert seq(|kn.xs|, i requires 0 <= i < |kn.xs| => (kn.xs[i], kn.ys[i])) == sorted;
  }

  /** What `fit` leaves behind: the groups fitted so far and the error that stopped it, if any. */
  datatype FitState = FitState(fitted: map<Key, Knots>, error: Option<Error>)

  /**
   * The loop of `fit` over the keys, stopping at the first group that raises;
   * `group` gives the knots of one key, or the error its construction raises.
   */
  function FitKeys(group: Key -> Result<Knots, Error>, keys: seq<Key>): (st: FitState)
    ensures forall k :: k in st.fitted ==> k in keys && group(k) == Success(st.fitted[k])
    ensures st.error.None? <==> forall i :: 0 <= i < |keys| ==> group(keys[i]).Success?
    ensures st.error.None? ==> forall i :: 0 <= i < |keys| ==> keys[i] in st.fitted
  {
    if |keys| == 0 then FitState(map[], None)
    else
      var front := keys[..|keys| - 1];
      var st := FitKeys(group, front);
      assert forall i :: 0 <= i < |keys| - 1 ==> front[i] == keys[i];
      if st.error.Some? then st
      else
        var k := keys[|keys| - 1];
        match group(k)
        case Failure(e) => FitState(st.fitted, Some(e))
        case Success(kn) => FitState(st.fitted[k := kn], None)
  }

  /** The error the loop leaves behind is the one some key's group raised. */
  lemma {:induction false} FitKeysRaised(group: Key -> Result<Knots, Error>, keys: seq<Key>)
    requires FitKeys(group, keys).error.Some?
    ensures exists i :: 0 <= i < |keys| && group(keys[i]) == Failure(FitKeys(group, keys).error.value)
    decreases |keys|
  {
    var front := keys[..|keys| - 1];
    if FitKeys(group, front).error.Some? {
      FitKeysRaised(group, front);
      var i :| 0 <= i < |front| && group(front[i]) == Failure(FitKeys(group, front).error.value);
      assert front[i] == keys[i];
    } else {
      assert group(keys[|keys| - 1]) == Failure(FitKeys(group, keys).error.value);
    }
  }

  /** Once the loop has raised, later keys do not change what it leaves behind. */
  lemma {:induction false} FitKeysStops(group: Key -> Result<Knots, Error>, keys: seq<Key>, m: nat)
    requires m <= |keys| && FitKeys(group, keys[..m]).error.Some?
    ensures FitKeys(group, keys) == FitKeys(group, keys[..m])
    decreases |keys|
  {
    if m < |keys| {
      var front := keys[..|keys| - 1];
      assert front[..m] == keys[..m];
      FitKeysStops(group, front, m);
    } else {
      assert keys[..m] == keys;
    }
  }

  /** The knots of each rating of (X, y), as the body of `fit`'s loop builds them. */
  function GroupsOf(X: seq<Point>, y: seq<Float>): Key -> Result<Knots, Error> {
    k => GroupKnots(X, y, k)
  }

  /**
   * `fit` over all of X: one interpolant per distinct rating, or the first
   * error raised; it raises exactly when the knots of some rating of X
   * cannot be built.
   */
  function LinearFit(X: seq<Point>, y: seq<Float>): (st: FitState)
    ensures st.error.None? <==> forall i :: 0 <= i < |X| ==> GroupKnots(X, y, X[i].0).Success?
  {
    var keys := UniqueKeys(X);
    assert forall j :: 0 <= j < |keys| ==> exists i :: 0 <= i < |X| && X[i].0 == keys[j];
    FitKeys(GroupsOf(X, y), keys)
  }

  /**
   * A successful fit has exactly one interpolant per distinct rating of X, and
   * each is that rating's sorted knots.
   */
  lemma LinearFitKeys(X: seq<Point>, y: seq<Float>)
    requires LinearFit(X, y).error.None?
    ensures forall i :: 0 <= i < |X| ==> X[i].0 in LinearFit(X, y).fitted
    ensures forall k :: k in LinearFit(X, y).fitted ==>
      (exists i :: 0 <= i < |X| && X[i].0 == k) && GroupKnots(X, y, k) == Success(LinearFit(X, y).fitted[k])
  {
    var keys := UniqueKeys(X);
    var st := LinearFit(X, y);
    forall k | k in st.fitted ensures exists i :: 0 <= i < |X| && X[i].0 == k {
      var j :| 0 <= j < |keys| && keys[j] == k;
    }
  }

  /** The prediction for one query: the group's interpolant at the tenor, or 0 for an unseen rating. */
  function PredictOne(m: map<Key, Knots>, q: Point, eval1d: Eval1D): Float {
    if q.0 in m then eval1d(m[q.0].xs, m[q.0].ys, q.1) else Some(0.0)
  }

  /** One prediction per query, in query order. */
  function Predictions(m: map<Key, Knots>, Q: seq<Point>, eval1d: Eval1D): (ys: seq<Float>)
    ensures |ys| == |Q|
    ensures forall i :: 0 <= i < |Q| ==> ys[i] == PredictOne(m, Q[i], eval1d)
  {
    seq(|Q|, i requires 0 <= i < |Q| => PredictOne(m, Q[i], eval1d))
  }

  /** A fresh interpolator fitted on (X, y) and asked for the queries Q. */
  function LinearFitPredict(eval1d: Eval1D, X: seq<Point>, y: seq<Float>, Q: seq<Point>): (res: Result<seq<Float>, Error>)
    ensures res.Failure? <==> LinearFit(X, y).error.Some?
    ensures res.Success? ==> |res.value| == |Q|
  {
    var st := LinearFit(X, y);
    if st.error.Some? then Failure(st.error.value)
    else Success(Predictions(st.fitted, Q, eval1d))
  }

  class LinearInterpolator {
    var interpolators: Option<map<Key, Knots>>

    /** A new interpolator: not fitted yet. */
    constructor ()
      ensures interpolators == None
    {
      interpolators := None;
    }

    /**
     * `fit`: start from an empty dict and add one interpolant per distinct
     * rating; an error stops the loop, leaving the interpolants added so far.
     */
    method Fit(X: seq<Point>, y: seq<Float>) returns (res: Result<(), Error>)
      modifies this
      ensures var st := LinearFit(X, y);
        && interpolators == Some(st.fitted)
        && (st.error.None? ==> res == Success(()))
        && (st.error.Some? ==> res == Failure(st.error.value))
    {
      res := FitEach(GroupsOf(X, y), UniqueKeys(X));
    }

    /** The loop of `fit`: the interpolant of each key in turn, until one raises. */
    method FitEach(group: Key -> Result<Knots, Error>, keys: seq<Key>) returns (res: Result<(), Error>)
      modifies this
      ensures var st := FitKeys(group, keys);
        && interpolators == Some(st.fitted)
        && (st.error.None? ==> res == Success(()))
        && (st.error.Some? ==> res == Failure(st.error.value))
    {
      interpolators := Some(map[]);
      var n := 0;
      while n < |keys|
        invariant 0 <= n <= |keys|
        invariant interpolators.Some? && FitKeys(group, keys[..n]) == FitState(interpolators.value, None)
      {
        var coord := keys[n];
        var knots := group(coord);
        assert keys[..n + 1][..n] == keys[..n] && keys[..n + 1][n] == coord;
        if knots.Failure? {
          assert FitKeys(group, keys[..n + 1]) == FitState(interpolators.value, Some(knots.error));
          FitKeysStops(group, keys, n + 1);
          return Failure(knots.error);
        }
        interpolators := Some(interpolators.value[coord := knots.value]);
        n := n + 1;
      }
      assert keys[..n] == keys;
      return Success(());
    }

    /**
     * `interpolate`: one prediction per query, in query order; the membership
     * test on an unfitted interpolator raises unless there is no query.
     */
    method Interpolate(X: seq<Point>, eval1d: Eval1D) returns (res: Result<seq<Float>, Error>)
      ensures res.Failure? <==> interpolators.None? && |X| > 0
      ensures res.Failure? ==> res.error == NotFitted
      ensures interpolators.Some? ==> res == Success(Predictions(interpolators.value, X, eval1d))
      ensures res.Success? ==> |res.value| == |X|
      ensures res.Success? ==> forall i :: 0 <= i < |X| ==>
        if interpolators.Some? && X[i].0 in interpolators.value
        then res.value[i] == eval1d(interpolators.value[X[i].0].xs, interpolators.value[X[i].0].ys, X[i].1)
        else res.value[i] == Some(0.0)
    {
      var yPred := new Float[|X|](_ => Some(0.0));
      var i := 0;
      while i < |X|
        invariant 0 <= i <= |X|
        invariant i > 0 ==> interpolators.Some?
        invariant forall j :: 0 <= j < i ==> yPred[j] == PredictOne(interpolators.value, X[j], eval1d)
        invariant forall j :: i <= j < |X| ==> yPred[j] == Some(0.0)
      {
        if interpolators.None? {
          return Failure(NotFitted);
        }
        var (x1, x2) := X[i];
        if x1 in interpolators.value {
          var kn := interpolators.value[x1];
          yPred[i] := eval1d(kn.xs, kn.ys, x2);
        } else {
          yPred[i] := Some(0.0);
        }
        i := i + 1;
      }
      assert interpolators.Some? ==> yPred[..] == Predictions(interpolators.value, X, eval1d);
      return Success(yPred[..]);
    }
  }

  /**
   * A fresh interpolator, fitted then asked for Q, gives exactly
   * `LinearFitPredict`: the function the cross-validation functions use.
   */
  method FitThenInterpolate(eval1d: Eval1D, X: seq<Point>, y: seq<Float>, Q: seq<Point>) returns (res: Result<seq<Float>, Error>)
    ensures res == LinearFitPredict(eval1d, X, y, Q)
  {
    var interp := new LinearInterpolator();
    var fitted := interp.Fit(X, y);
    if fitted.Failure? {
      return Failure(fitted.error);
    }
    res := interp.Interpolate(Q, eval1d);
  }
}

=== FILE: loader.dfy ===
/**
 * Loading a wide table of yields (one row per date, one column per
 * "RATING::DAYS" header) into one rating-by-tenor grid per date.
 *
 * The header codec (`Split`, `ParseInt`, `ParseHeader`) follows Python's
 * `str.split("::")` and `int()`; the per-date regrouping follows the nested
 * loops of `load_bond_yields`, and `Pivot` gives the layout pandas' `pivot`
 * produces: sorted ratings as rows, sorted tenors as columns, NaN where no
 * triple lands and an error for two triples in one cell.
 */
module Loader {
  import opened Wrappers
  import opened Frames

  // ------------------------------------------------------------ splitting

  /** Whether the separator "::" starts at position `i` of `s`. */
  predicate SepAt(s: string, i: int) {
    0 <= i && i + 1 < |s| && s[i] == ':' && s[i + 1] == ':'
  }

  predicate HasSep(s: string) {
    exists i :: 0 <= i < |s| && SepAt(s, i)
  }

  /** The first position at or after `i` where the separator starts, or |s| when there is none. */
  function FindSep(s: string, i: nat): (r: nat)
    requires i <= |s|
    ensures i <= r <= |s|
    ensures r < |s| ==> SepAt(s, r)
    ensures forall j :: i <= j < r ==> !SepAt(s, j)
    decreases |s| - i
  {
    if i + 1 >= |s| then |s|
    else if s[i] == ':' && s[i + 1] == ':' then i
    else FindSep(s, i + 1)
  }

  /** `s.split("::")`: the pieces between the separators, found left to right without overlap. */
  function Split(s: string): (parts: seq<string>)
    ensures |parts| >= 1
    decreases |s|
  {
    var i := FindSep(s, 0);
    if i == |s| then [s] else [s[..i]] + Split(s[i + 2..])
  }

  /** `"::".join(parts)`. */
  function Join(parts: seq<string>): string
    requires |parts| >= 1
  {
    if |parts| == 1 then parts[0] else parts[0] + "::" + Join(parts[1..])
  }

  /** Splitting loses nothing: joining the pieces gives the text back. */
  lemma {:induction false} SplitJoin(s: string)
    ensures Join(Split(s)) == s
    decreases |s|
  {
    var i := FindSep(s, 0);
    if i < |s| {
      var rest := s[i + 2..];
      SplitJoin(rest);
      var parts := Split(s);
      assert parts[0] == s[..i] && parts[1..] == Split(rest);
      Reassemble(s, i);
    }
  }

  lemma Reassemble(s: string, i: nat)
    requires SepAt(s, i)
    ensures s[..i] + "::" + s[i + 2..] == s
  {
    assert s == s[..i] + s[i..i + 2] + s[i + 2..];
  }

  /** No piece of a split contains the separator. */
  lemma {:induction false} SplitPiecesClean(s: string)
    ensures forall k :: 0 <= k < |Split(s)| ==> !HasSep(Split(s)[k])
    decreases |s|
  {
    var i := FindSep(s, 0);
    if i < |s| {
      var rest := s[i + 2..];
      SplitPiecesClean(rest);
      var parts := Split(s);
      assert parts == [s[..i]] + Split(rest);
      assert !HasSep(s[..i]) by {
        forall j | 0 <= j < i && SepAt(s[..i], j) ensures false {
          assert SepAt(s, j);
        }
      }
      forall k | 0 <= k < |parts| ensures !HasSep(parts[k]) {
        if k > 0 {
          assert parts[k] == Split(rest)[k - 1];
        }
      }
    }
  }

  /** A text that can stand before the separator and be cut back off: no separator inside, no trailing colon. */
  predicate IsLeftPiece(a: string) {
    !HasSep(a) && (|a| == 0 || a[|a| - 1] != ':')
  }

  /** Gluing two pieces with the separator and splitting again gives the two pieces back. */
  lemma SplitPair(a: string, b: string)
    requires IsLeftPiece(a) && !HasSep(b)
    ensures Split(a + "::" + b) == [a, b]
  {
    var s := a + "::" + b;
    assert SepAt(s, |a|);
    forall j | 0 <= j < |a| ensures !SepAt(s, j) {
      if j + 1 < |a| {
        assert s[j] == a[j] && s[j + 1] == a[j + 1] && !SepAt(a, j);
      } else {
        assert s[j] == a[|a| - 1];
      }
    }
    assert FindSep(s, 0) == |a|;
    assert s[..|a|] == a && s[|a| + 2..] == b;
    assert FindSep(b, 0) == |b|;
  }

  // ------------------------------------------------------------ integers

  /** The characters Python's `int()` strips from both ends of its argument. */
  predicate IsSpace(c: char) {
    var n := c as int;
    (9 <= n <= 13) || (28 <= n <= 32) || n == 0x85 || n == 0xA0 || n == 0x1680
    || (0x2000 <= n <= 0x200A) || n == 0x2028 || n == 0x2029 || n == 0x202F || n == 0x205F || n == 0x3000
  }

  predicate AllSpace(s: string) {
    forall i :: 0 <= i < |s| ==> IsSpace(s[i])
  }

  /** t sits in s at offset i with nothing but whitespace before and after it. */
  predicate TrimmedAt(s: string, t: string, i: nat) {
    i + |t| <= |s| && s[i..i + |t|] == t && AllSpace(s[..i]) && AllSpace(s[i + |t|..])
  }

  /** t is s with some whitespace cut off at each end. */
  ghost predicate Trimmed(s: string, t: string) {
    exists i: nat :: TrimmedAt(s, t, i)
  }

  /**
   * `s.strip()` with the whitespace above: what is left once the whitespace
   * at both ends is cut off, so that it neither starts nor ends with
   * whitespace, and every character cut off was whitespace.
   */
  function Strip(s: string): (t: string)
    ensures |t| <= |s|
    ensures |t| > 0 ==> !IsSpace(t[0]) && !IsSpace(t[|t| - 1])
    ensures Trimmed(s, t)
  {
    if |s| > 0 && IsSpace(s[0]) then
      var t := Strip(s[1..]);
      TrimmedShift(s, t);
      t
    else if |s| > 0 && IsSpace(s[|s| - 1]) then
      var t := Strip(s[..|s| - 1]);
      TrimmedDrop(s, s[..|s| - 1], t);
      t
    else
      assert TrimmedAt(s, s, 0);
      s
  }

  /** Leading whitespace cut off before the strip of the rest. */
  lemma TrimmedShift(s: string, t: string)
    requires |s| > 0 && IsSpace(s[0]) && Trimmed(s[1..], t)
    ensures Trimmed(s, t)
  {
    var i: nat :| TrimmedAt(s[1..], t, i);
    assert s[i + 1..i + 1 + |t|] == s[1..][i..i + |t|];
    assert s[..i + 1] == [s[0]] + s[1..][..i];
    assert s[i + 1 + |t|..] == s[1..][i + |t|..];
    assert TrimmedAt(s, t, i + 1);
  }

  /** Trailing whitespace cut off before the strip of the rest. */
  lemma TrimmedDrop(s: string, init: string, t: string)
    requires |s| > 0 && IsSpace(s[|s| - 1]) && init == s[..|s| - 1] && Trimmed(init, t)
    ensures Trimmed(s, t)
  {
    var i: nat :| TrimmedAt(init, t, i);
    assert s[i..i + |t|] == init[i..i + |t|];
    assert s[..i] == init[..i];
    assert s[i + |t|..] == init[i + |t|..] + [s[|s| - 1]];
    assert TrimmedAt(s, t, i);
  }

  predicate IsDigit(c: char) {
    '0' <= c <= '9'
  }

  function DigitValue(c: char): (d: nat)
    requires IsDigit(c)
    ensures d < 10
  {
    c as int - '0' as int
  }

  function DigitChar(d: nat): (c: char)
    requires d < 10
    ensures IsDigit(c) && DigitValue(c) == d
  {
    ('0' as int + d) as char
  }

  /** Only digits and underscores. */
  predicate NumeralChars(s: string) {
    forall i :: 0 <= i < |s| ==> IsDigit(s[i]) || s[i] == '_'
  }

  /** A decimal numeral as `int()` accepts it: digits, with single underscores allowed between two digits. */
  predicate IsNumeral(s: string) {
    |s| > 0 && IsDigit(s[0]) && IsDigit(s[|s| - 1]) && NumeralChars(s)
    && forall i :: 0 <= i < |s| - 1 && s[i] == '_' ==> IsDigit(s[i + 1])
  }

  /** The base-ten value of the digits of `s`, underscores skipped. */
  function NumeralValue(s: string): nat
    requires NumeralChars(s)
  {
    if |s| == 0 then 0
    else if s[|s| - 1] == '_' then NumeralValue(s[..|s| - 1])
    else 10 * NumeralValue(s[..|s| - 1]) + DigitValue(s[|s| - 1])
  }

  /** `int(s)` in base ten: `None` where Python raises ValueError. */
  function ParseInt(s: string): (r: Option<int>)
  {
    ParseStripped(Strip(s))
  }

  /** What `int()` reads once the surrounding whitespace is gone: an optional sign, then a numeral. */
  function ParseStripped(t: string): (r: Option<int>)
  {
    if |t| > 0 && (t[0] == '+' || t[0] == '-') then
      if IsNumeral(t[1..]) then
        Some(if t[0] == '-' then -(NumeralValue(t[1..]) as int) else NumeralValue(t[1..]))
      else None
    else if IsNumeral(t) then Some(NumeralValue(t))
    else None
  }

  /** The decimal text of a natural number, as an f-string writes it. */
  function ShowNat(n: nat): (s: string)
    ensures |s| >= 1 && forall i :: 0 <= i < |s| ==> IsDigit(s[i])
  {
    if n < 10 then [DigitChar(n)] else ShowNat(n / 10) + [DigitChar(n % 10)]
  }

  lemma {:induction false} ShowNatValue(n: nat)
    ensures NumeralChars(ShowNat(n)) && NumeralValue(ShowNat(n)) == n
  {
    var s := ShowNat(n);
    if n >= 10 {
      ShowNatValue(n / 10);
      assert s[..|s| - 1] == ShowNat(n / 10);
    }
  }

  /** A text that neither starts nor ends with whitespace is its own strip. */
  lemma StripUnchanged(s: string)
    requires |s| > 0 && !IsSpace(s[0]) && !IsSpace(s[|s| - 1])
    ensures Strip(s) == s
  {
  }

  /** The numeral `str(n)` is a numeral `int()` accepts, with value `n`. */
  lemma ShowNatNumeral(n: nat)
    ensures IsNumeral(ShowNat(n)) && NumeralValue(ShowNat(n)) == n
    ensures !IsSpace(ShowNat(n)[0]) && !IsSpace(ShowNat(n)[|ShowNat(n)| - 1])
  {
    ShowNatValue(n);
  }

  /** `int(str(n)) == n`. */
  lemma ParseShowNat(n: nat)
    ensures ParseInt(ShowNat(n)) == Some(n)
  {
    var s := ShowNat(n);
    ShowNatNumeral(n);
    StripUnchanged(s);
  }

  /** `int("-" + str(n)) == -n`. */
  lemma ParseShowNegative(n: nat)
    ensures ParseInt("-" + ShowNat(n)) == Some(-(n as int))
  {
    var s := ShowNat(n);
    ShowNatNumeral(n);
    var m := "-" + s;
    assert m[1..] == s && m[|m| - 1] == s[|s| - 1];
    StripUnchanged(m);
  }

  /** Whitespace around a number does not change what `int()` reads. */
  lemma ParseIntIgnoresSpace(c: char, s: string)
    requires IsSpace(c)
    ensures ParseInt([c] + s) == ParseInt(s) && ParseInt(s + [c]) == ParseInt(s)
  {
    StripLeading(c, s);
    StripTrailing(c, s);
  }

  lemma StripLeading(c: char, s: string)
    requires IsSpace(c)
    ensures Strip([c] + s) == Strip(s)
  {
    assert ([c] + s)[1..] == s;
  }

  lemma {:induction false} StripTrailing(c: char, s: string)
    requires IsSpace(c)
    ensures Strip(s + [c]) == Strip(s)
    decreases |s|
  {
    var sc := s + [c];
    if |s| > 0 && IsSpace(s[0]) {
      assert sc[1..] == s[1..] + [c];
      StripTrailing(c, s[1..]);
    } else {
      assert sc[..|sc| - 1] == s;
    }
  }

  /** Text with no digit at all is never an integer. */
  lemma ParseIntNeedsDigit(s: string)
    requires forall i :: 0 <= i < |s| ==> !IsDigit(s[i])
    ensures ParseInt(s) == None
  {
    var t := Strip(s);
    var w: nat :| TrimmedAt(s, t, w);
    assert forall k :: 0 <= k < |t| ==> t[k] == s[w + k];
  }

  // ------------------------------------------------------------ headers

  /** `rating, tenor = col.split("::")` then `int(tenor)`: exactly two pieces, the second an integer. */
  function ParseHeader(h: string): (r: Result<(string, int), Error>)
    ensures r.Failure? ==> r.error == BadHeader || r.error == BadInteger
  {
    var parts := Split(h);
    if |parts| != 2 then Failure(BadHeader)
    else match ParseInt(parts[1])
      case None => Failure(BadInteger)
      case Some(n) => Success((parts[0], n))
  }

  /**
   * What a parsed header means: the header is the rating, the separator and a
   * text `int()` reads as the tenor; a header with any other number of pieces
   * is refused as malformed.
   */
  lemma ParseHeaderMeaning(h: string)
    ensures ParseHeader(h) == Failure(BadHeader) <==> |Split(h)| != 2
    ensures ParseHeader(h).Success? ==>
      !HasSep(ParseHeader(h).value.0)
      && exists t :: h == ParseHeader(h).value.0 + "::" + t && !HasSep(t) && ParseInt(t) == Some(ParseHeader(h).value.1)
  {
    SplitJoin(h);
    SplitPiecesClean(h);
    var parts := Split(h);
    if |parts| == 2 {
      assert Join(parts[1..]) == parts[1];
      assert h == parts[0] + "::" + parts[1];
    }
  }

  /** A header written as rating, separator and decimal tenor reads back as that pair. */
  lemma HeaderRoundTrip(rating: string, days: nat)
    requires IsLeftPiece(rating)
    ensures ParseHeader(rating + "::" + ShowNat(days)) == Success((rating, days))
  {
    var t := ShowNat(days);
    assert forall j :: 0 <= j < |t| ==> t[j] != ':';
    SplitPair(rating, t);
    ParseShowNat(days);
  }

  // ------------------------------------------------------------ ordering

  /** Python's string comparison: by code point, a proper prefix first. */
  predicate LexLess(a: string, b: string)
    decreases |a|
  {
    |b| > 0 && (|a| == 0 || a[0] < b[0] || (a[0] == b[0] && LexLess(a[1..], b[1..])))
  }

  predicate IntLess(a: int, b: int) {
    a < b
  }

  /** `less` is a strict total order: irreflexive, transitive, and relates any two distinct values. */
  ghost predicate StrictTotal<T(!new)>(less: (T, T) -> bool) {
    (forall a :: !less(a, a))
    && (forall a, b, c :: less(a, b) && less(b, c) ==> less(a, c))
    && (forall a, b :: a != b ==> less(a, b) || less(b, a))
  }

  lemma {:induction false} LexIrreflexive(a: string)
    ensures !LexLess(a, a)
    decreases |a|
  {
    if |a| > 0 {
      LexIrreflexive(a[1..]);
    }
  }

  lemma {:induction false} LexTransitive(a: string, b: string, c: string)
    requires LexLess(a, b) && LexLess(b, c)
    ensures LexLess(a, c)
    decreases |a|
  {
    if |a| > 0 && a[0] == b[0] && b[0] == c[0] {
      LexTransitive(a[1..], b[1..], c[1..]);
    }
  }

  lemma {:induction false} LexTotal(a: string, b: string)
    requires a != b
    ensures LexLess(a, b) || LexLess(b, a)
    decreases |a|
  {
    if |a| > 0 && |b| > 0 && a[0] == b[0] {
      assert a == [a[0]] + a[1..] && b == [b[0]] + b[1..];
      LexTotal(a[1..], b[1..]);
    }
  }

  /** Python's string order is a strict total order, so sorting labels is well defined. */
  lemma LexStrictTotal()
    ensures StrictTotal(LexLess)
  {
    forall a ensures !LexLess(a, a) {
      LexIrreflexive(a);
    }
    forall a, b, c | LexLess(a, b) && LexLess(b, c) ensures LexLess(a, c) {
      LexTransitive(a, b, c);
    }
    forall a, b | a != b ensures LexLess(a, b) || LexLess(b, a) {
      LexTotal(a, b);
    }
  }

  ghost predicate Ascending<T>(s: seq<T>, less: (T, T) -> bool) {
    forall i, j :: 0 <= i < j < |s| ==> less(s[i], s[j])
  }

  /** Inserts `x` into an ascending sequence unless it is already there. */
  function InsertSorted<T(==)>(x: T, s: seq<T>, less: (T, T) -> bool): seq<T>
  {
    if |s| == 0 then [x]
    else if x == s[0] then s
    else if less(x, s[0]) then [x] + s
    else [s[0]] + InsertSorted(x, s[1..], less)
  }

  lemma {:induction false} InsertSortedAscending<T(!new)>(x: T, s: seq<T>, less: (T, T) -> bool)
    requires StrictTotal(less) && Ascending(s, less)
    ensures Ascending(InsertSorted(x, s, less), less)
    ensures forall y :: y in InsertSorted(x, s, less) <==> y == x || y in s
  {
    if |s| > 0 && x != s[0] && !less(x, s[0]) {
      var rest := InsertSorted(x, s[1..], less);
      InsertSortedAscending(x, s[1..], less);
      var r := [s[0]] + rest;
      forall i, j | 0 <= i < j < |r| ensures less(r[i], r[j]) {
        if i == 0 {
          assert r[j] in rest;
          if r[j] != x {
            var k :| 0 <= k < |s[1..]| && s[1..][k] == r[j];
            assert s[k + 1] == r[j];
          }
        }
      }
    }
  }

  /** The distinct values of `xs` in ascending order (what `pivot` lays out along an axis). */
  function SortedDistinct<T(==)>(xs: seq<T>, less: (T, T) -> bool): seq<T>
  {
    if |xs| == 0 then [] else InsertSorted(xs[|xs| - 1], SortedDistinct(xs[..|xs| - 1], less), less)
  }

  /** The axis is ascending (so without repeats) and holds exactly the values of `xs`. */
  lemma {:induction false} SortedDistinctSpec<T(!new)>(xs: seq<T>, less: (T, T) -> bool)
    requires StrictTotal(less)
    ensures Ascending(SortedDistinct(xs, less), less)
    ensures forall y :: y in SortedDistinct(xs, less) <==> y in xs
  {
    if |xs| > 0 {
      var front := xs[..|xs| - 1];
      SortedDistinctSpec(front, less);
      InsertSortedAscending(xs[|xs| - 1], SortedDistinct(front, less), less);
      assert xs == front + [xs[|xs| - 1]];
      forall y ensures y in xs <==> y == xs[|xs| - 1] || y in front {
        if y in xs {
          var k :| 0 <= k < |xs| && xs[k] == y;
          if k < |xs| - 1 {
            assert front[k] == y;
          }
        }
      }
    }
  }

  /** The position of `x` in `s`. */
  function IndexOf<T(==)>(s: seq<T>, x: T): (i: nat)
    requires x in s
    ensures i < |s| && s[i] == x
    ensures forall j :: 0 <= j < i ==> s[j] != x
  {
    if s[0] == x then 0 else 1 + IndexOf(s[1..], x)
  }

  // ------------------------------------------------------------ pivot

  /** One entry of `data_for_date`: (rating, tenor in days, yield). */
  datatype Triple = Triple(rating: string, tenor: int, value: Float)

  function Ratings(ts: seq<Triple>): (r: seq<string>)
    ensures |r| == |ts| && forall k :: 0 <= k < |ts| ==> r[k] == ts[k].rating
  {
    seq(|ts|, k requires 0 <= k < |ts| => ts[k].rating)
  }

  function Tenors(ts: seq<Triple>): (r: seq<int>)
    ensures |r| == |ts| && forall k :: 0 <= k < |ts| ==> r[k] == ts[k].tenor
  {
    seq(|ts|, k requires 0 <= k < |ts| => ts[k].tenor)
  }

  /** Two triples for one (rating, tenor) cell, which `pivot` refuses. */
  predicate HasDuplicateCell(ts: seq<Triple>) {
    exists i, j :: 0 <= i < j < |ts| && ts[i].rating == ts[j].rating && ts[i].tenor == ts[j].tenor
  }

  /** The value of the first triple for (rating, tenor), NaN when there is none. */
  function CellOf(ts: seq<Triple>, rating: string, tenor: int): Float
  {
    if |ts| == 0 then None
    else if ts[0].rating == rating && ts[0].tenor == tenor then ts[0].value
    else CellOf(ts[1..], rating, tenor)
  }

  /**
   * `DataFrame(ts, columns=['Rating', 'Tenor', 'Yield']).pivot(index='Rating',
   * columns='Tenor', values='Yield')`: one row per distinct rating and one
   * column per distinct tenor, both in ascending order.
   */
  function Pivot(ts: seq<Triple>): (r: Result<Table, Error>)
    ensures r.Failure? <==> HasDuplicateCell(ts)
    ensures r.Failure? ==> r.error == DuplicateEntries
    ensures r.Success? ==> r.value.WellFormed()
  {
    if HasDuplicateCell(ts) then Failure(DuplicateEntries)
    else
      var rows := SortedDistinct(Ratings(ts), LexLess);
      var cols := SortedDistinct(Tenors(ts), IntLess);
      Success(Table(
        seq(|rows|, i requires 0 <= i < |rows| => Label(rows[i])),
        cols,
        seq(|rows|, i requires 0 <= i < |rows| =>
          seq(|cols|, j requires 0 <= j < |cols| => CellOf(ts, rows[i], cols[j])))))
  }

  lemma IntStrictTotal()
    ensures StrictTotal(IntLess)
  {
  }

  /** The rows of a pivot: every label a rating, in strictly ascending string order, exactly the ratings of `ts`. */
  ghost predicate RatingAxis(ts: seq<Triple>, index: seq<Key>) {
    (forall i :: 0 <= i < |index| ==> index[i].Label?)
    && (forall i, j :: 0 <= i < j < |index| ==> LexLess(index[i].text, index[j].text))
    && (forall rating :: Label(rating) in index <==> exists k :: 0 <= k < |ts| && ts[k].rating == rating)
  }

  /** The columns of a pivot: strictly ascending, exactly the tenors of `ts`. */
  ghost predicate TenorAxis(ts: seq<Triple>, columns: seq<int>) {
    (forall i, j :: 0 <= i < j < |columns| ==> columns[i] < columns[j])
    && (forall tenor :: tenor in columns <==> exists k :: 0 <= k < |ts| && ts[k].tenor == tenor)
  }

  /** The rows of a pivot are the distinct ratings in ascending string order. */
  lemma PivotRows(ts: seq<Triple>)
    requires Pivot(ts).Success?
    ensures RatingAxis(ts, Pivot(ts).value.index)
  {
    LexStrictTotal();
    var rows := SortedDistinct(Ratings(ts), LexLess);
    SortedDistinctSpec(Ratings(ts), LexLess);
    var index := Pivot(ts).value.index;
    assert |index| == |rows| && forall i :: 0 <= i < |rows| ==> index[i] == Label(rows[i]);
    forall rating ensures Label(rating) in index <==> rating in rows {
      if Label(rating) in index {
        var i :| 0 <= i < |index| && index[i] == Label(rating);
      }
      if rating in rows {
        var i :| 0 <= i < |rows| && rows[i] == rating;
        assert index[i] == Label(rating);
      }
    }
    forall rating ensures rating in Ratings(ts) <==> exists k :: 0 <= k < |ts| && ts[k].rating == rating {
      if rating in Ratings(ts) {
        var k :| 0 <= k < |ts| && Ratings(ts)[k] == rating;
      }
    }
  }

  /** The columns of a pivot are the distinct tenors in ascending order. */
  lemma PivotColumns(ts: seq<Triple>)
    requires Pivot(ts).Success?
    ensures TenorAxis(ts, Pivot(ts).value.columns)
  {
    IntStrictTotal();
    SortedDistinctSpec(Tenors(ts), IntLess);
    forall tenor ensures tenor in Tenors(ts) <==> exists k :: 0 <= k < |ts| && ts[k].tenor == tenor {
      if tenor in Tenors(ts) {
        var k :| 0 <= k < |ts| && Tenors(ts)[k] == tenor;
      }
    }
  }

  lemma {:induction false} CellOfFound(ts: seq<Triple>, k: nat)
    requires k < |ts| && !HasDuplicateCell(ts)
    ensures CellOf(ts, ts[k].rating, ts[k].tenor) == ts[k].value
  {
    if k > 0 {
      if ts[0].rating == ts[k].rating && ts[0].tenor == ts[k].tenor {
        assert false;
      }
      assert !HasDuplicateCell(ts[1..]);
      assert ts[1..][k - 1] == ts[k];
      CellOfFound(ts[1..], k - 1);
    }
  }

  lemma {:induction false} CellOfMissing(ts: seq<Triple>, rating: string, tenor: int)
    requires forall k :: 0 <= k < |ts| ==> ts[k].rating != rating || ts[k].tenor != tenor
    ensures CellOf(ts, rating, tenor) == None
  {
    if |ts| > 0 {
      assert forall k :: 0 <= k < |ts| - 1 ==> ts[1..][k] == ts[k + 1];
      CellOfMissing(ts[1..], rating, tenor);
    }
  }

  /** Each triple lands at row `rating`, column `tenor` of the pivot, and its value is that cell. */
  lemma PivotPlacement(ts: seq<Triple>, k: nat)
    requires k < |ts| && Pivot(ts).Success?
    ensures HoldsAt(Pivot(ts).value, ts[k].rating, ts[k].tenor, ts[k].value)
  {
    PivotRows(ts);
    PivotColumns(ts);
    var t := Pivot(ts).value;
    var rows := SortedDistinct(Ratings(ts), LexLess);
    var i := IndexOf(t.index, Label(ts[k].rating));
    var j := IndexOf(t.columns, ts[k].tenor);
    assert rows[i] == ts[k].rating;
    CellOfFound(ts, k);
  }

  /** A cell no triple names stays NaN. */
  lemma PivotMissing(ts: seq<Triple>, i: nat, j: nat)
    requires Pivot(ts).Success?
    requires i < |Pivot(ts).value.index| && j < |Pivot(ts).value.columns|
    requires forall k :: 0 <= k < |ts| ==>
      Label(ts[k].rating) != Pivot(ts).value.index[i] || ts[k].tenor != Pivot(ts).value.columns[j]
    ensures Pivot(ts).value.cells[i][j] == None
  {
    var t := Pivot(ts).value;
    var rows := SortedDistinct(Ratings(ts), LexLess);
    CellOfMissing(ts, rows[i], t.columns[j]);
  }

  // ------------------------------------------------------------ loading

  /** What `read_csv(path, index_col=0)` yields: a date per row, a header per column, a cell per both. */
  datatype Csv = Csv(dates: seq<string>, headers: seq<string>, rows: seq<seq<Float>>) {
    predicate WellFormed() {
      |rows| == |dates| && forall r :: 0 <= r < |rows| ==> |rows[r]| == |headers|
    }
  }

  /** `data_for_date`: one triple per column, in column order; the first malformed header raises. */
  function RowTriples(headers: seq<string>, row: seq<Float>): Result<seq<Triple>, Error>
    requires |row| == |headers|
  {
    if |headers| == 0 then Success([])
    else
      var n := |headers| - 1;
      match RowTriples(headers[..n], row[..n])
      case Failure(e) => Failure(e)
      case Success(front) =>
        match ParseHeader(headers[n])
        case Failure(e) => Failure(e)
        case Success(h) => Success(front + [Triple(h.0, h.1, row[n])])
  }

  /** `ts` has one triple per column: the column's parsed header and the row's value. */
  ghost predicate TriplesOf(headers: seq<string>, row: seq<Float>, ts: seq<Triple>) {
    |ts| == |headers| && |row| == |headers|
    && forall k :: 0 <= k < |ts| ==>
      ParseHeader(headers[k]) == Success((ts[k].rating, ts[k].tenor)) && ts[k].value == row[k]
  }

  /** `e` is the error of the first malformed header. */
  ghost predicate FirstHeaderError(headers: seq<string>, e: Error) {
    exists k :: 0 <= k < |headers| && ParseHeader(headers[k]) == Failure(e)
      && forall j :: 0 <= j < k ==> ParseHeader(headers[j]).Success?
  }

  /** A row that parses yields exactly one triple per column: the column's parsed header and the row's value. */
  lemma {:induction false} RowTriplesSuccess(headers: seq<string>, row: seq<Float>)
    requires |row| == |headers| && RowTriples(headers, row).Success?
    ensures TriplesOf(headers, row, RowTriples(headers, row).value)
  {
    if |headers| > 0 {
      var n := |headers| - 1;
      var hs, rs := headers[..n], row[..n];
      RowTriplesSuccess(hs, rs);
      var front := RowTriples(hs, rs).value;
      var h := ParseHeader(headers[n]).value;
      var ts := RowTriples(headers, row).value;
      assert ts == front + [Triple(h.0, h.1, row[n])];
      forall k | 0 <= k < |ts|
        ensures ParseHeader(headers[k]) == Success((ts[k].rating, ts[k].tenor)) && ts[k].value == row[k]
      {
        if k < n {
          assert headers[k] == hs[k] && row[k] == rs[k] && ts[k] == front[k];
        }
      }
    }
  }

  /** A row fails with the error of its first malformed header. */
  lemma {:induction false} RowTriplesFailure(headers: seq<string>, row: seq<Float>)
    requires |row| == |headers| && RowTriples(headers, row).Failure?
    ensures FirstHeaderError(headers, RowTriples(headers, row).error)
  {
    var n := |headers| - 1;
    var hs, rs := headers[..n], row[..n];
    var e := RowTriples(headers, row).error;
    if RowTriples(hs, rs).Failure? {
      RowTriplesFailure(hs, rs);
      var k :| 0 <= k < |hs| && ParseHeader(hs[k]) == Failure(e)
        && forall j :: 0 <= j < k ==> ParseHeader(hs[j]).Success?;
      assert headers[k] == hs[k];
      assert forall j :: 0 <= j < k ==> headers[j] == hs[j];
    } else {
      RowTriplesSuccess(hs, rs);
      assert forall j :: 0 <= j < n ==> headers[j] == hs[j];
      assert ParseHeader(headers[n]) == Failure(e);
    }
  }

  /** A row whose every header is well formed always yields its triples. */
  lemma {:induction false} RowTriplesTotal(headers: seq<string>, row: seq<Float>)
    requires |row| == |headers|
    requires forall k :: 0 <= k < |headers| ==> ParseHeader(headers[k]).Success?
    ensures RowTriples(headers, row).Success?
  {
    if |headers| > 0 {
      var n := |headers| - 1;
      assert forall k :: 0 <= k < n ==> headers[..n][k] == headers[k];
      RowTriplesTotal(headers[..n], row[..n]);
    }
  }

  /** Once a prefix of the columns fails, the whole row fails the same way. */
  lemma {:induction false} RowTriplesPrefixFails(headers: seq<string>, row: seq<Float>, k: nat)
    requires |row| == |headers| && k <= |headers|
    requires RowTriples(headers[..k], row[..k]).Failure?
    ensures RowTriples(headers, row) == RowTriples(headers[..k], row[..k])
    decreases |headers|
  {
    if k < |headers| {
      var n := |headers| - 1;
      assert headers[..n][..k] == headers[..k] && row[..n][..k] == row[..k];
      RowTriplesPrefixFails(headers[..n], row[..n], k);
    } else {
      assert headers[..k] == headers && row[..k] == row;
    }
  }

  /** The inner loop of `load_bond_yields`: split each header, parse its tenor, append the triple. */
  method CollectTriples(headers: seq<string>, row: seq<Float>) returns (res: Result<seq<Triple>, Error>)
    requires |row| == |headers|
    ensures res == RowTriples(headers, row)
  {
    var dataForDate: seq<Triple> := [];
    var k := 0;
    while k < |headers|
      invariant 0 <= k <= |headers|
      invariant RowTriples(headers[..k], row[..k]) == Success(dataForDate)
    {
      assert headers[..k + 1][..k] == headers[..k] && row[..k + 1][..k] == row[..k];
      var parsed := ParseHeader(headers[k]);
      if parsed.Failure? {
        RowTriplesPrefixFails(headers, row, k + 1);
        return Failure(parsed.error);
      }
      var (rating, tenorDays) := parsed.value;
      dataForDate := dataForDate + [Triple(rating, tenorDays, row[k])];
      k := k + 1;
    }
    assert headers[..k] == headers && row[..k] == row;
    return Success(dataForDate);
  }

  /** `df.index.unique()`: each date once, in order of first appearance. */
  function UniqueDates(dates: seq<string>): (u: seq<string>)
    ensures forall d :: d in u <==> d in dates
    ensures Distinct(u)
    ensures FirstAppearanceOrder(dates, u)
  {
    if |dates| == 0 then []
    else
      var n := |dates| - 1;
      var front := UniqueDates(dates[..n]);
      assert forall d :: d in dates <==> d in dates[..n] || d == dates[n] by {
        assert dates == dates[..n] + [dates[n]];
      }
      forall d | d in dates[..n] ensures IndexOf(dates, d) == IndexOf(dates[..n], d) {
        IndexOfPrefix(dates, n, d);
      }
      if dates[n] in front then front
      else
        assert IndexOf(dates, dates[n]) == n;
        front + [dates[n]]
  }

  /** The dates of u come in the order of their first row in dates. */
  ghost predicate FirstAppearanceOrder(dates: seq<string>, u: seq<string>) {
    forall i, j :: 0 <= i < j < |u| ==> u[i] in dates && u[j] in dates && IndexOf(dates, u[i]) < IndexOf(dates, u[j])
  }

  /** The first position of x is the same in s and in a prefix of s that holds x. */
  lemma IndexOfPrefix(s: seq<string>, n: nat, x: string)
    requires n <= |s| && x in s[..n]
    ensures x in s && IndexOf(s, x) == IndexOf(s[..n], x) < n
  {
    var b := IndexOf(s[..n], x);
    assert s[b] == x;
  }

  /**
   * The grid of one date: the triples of the date's row, pivoted. A date the
   * file does not have is a KeyError at `df.at`; the dates visited always
   * come from the file.
   */
  function DateGrid(csv: Csv, date: string): Result<Table, Error>
    requires csv.WellFormed()
  {
    if date !in csv.dates then Failure(RowOutOfRange)
    else
      match RowTriples(csv.headers, csv.rows[IndexOf(csv.dates, date)])
      case Failure(e) => Failure(e)
      case Success(ts) => Pivot(ts)
  }

  /** `DateGrid` for one file, as a function of the date. */
  function GridOf(csv: Csv): string -> Result<Table, Error>
    requires csv.WellFormed()
  {
    date => DateGrid(csv, date)
  }

  /** The returned dict, in insertion order: the dates and the grid stored under each. */
  datatype Loaded = Loaded(dates: seq<string>, grids: seq<Table>)

  /** The outer loop over the dates `ds`, storing each date's grid and stopping at the first that fails. */
  function LoadDates(ds: seq<string>, grid: string -> Result<Table, Error>): Result<Loaded, Error>
  {
    if |ds| == 0 then Success(Loaded([], []))
    else
      var n := |ds| - 1;
      match LoadDates(ds[..n], grid)
      case Failure(e) => Failure(e)
      case Success(front) =>
        match grid(ds[n])
        case Failure(e) => Failure(e)
        case Success(g) => Success(Loaded(front.dates + [ds[n]], front.grids + [g]))
  }

  /** `load_bond_yields` on the parsed file. */
  function LoadSpec(csv: Csv): Result<Loaded, Error>
    requires csv.WellFormed()
  {
    LoadDates(UniqueDates(csv.dates), GridOf(csv))
  }

  lemma {:induction false} LoadDatesPrefixFails(ds: seq<string>, grid: string -> Result<Table, Error>, k: nat)
    requires k <= |ds| && LoadDates(ds[..k], grid).Failure?
    ensures LoadDates(ds, grid) == LoadDates(ds[..k], grid)
    decreases |ds|
  {
    if k < |ds| {
      var n := |ds| - 1;
      assert ds[..n][..k] == ds[..k];
      LoadDatesPrefixFails(ds[..n], grid, k);
    } else {
      assert ds[..k] == ds;
    }
  }

  /** One more date: its grid goes after those of the dates before it. */
  lemma LoadDatesSnoc(ds: seq<string>, grid: string -> Result<Table, Error>, i: nat, l: Loaded, g: Table)
    requires i < |ds| && LoadDates(ds[..i], grid) == Success(l) && grid(ds[i]) == Success(g)
    ensures LoadDates(ds[..i + 1], grid) == Success(Loaded(l.dates + [ds[i]], l.grids + [g]))
  {
    assert ds[..i + 1][..i] == ds[..i];
  }

  /** A date whose grid fails ends the pass with that error. */
  lemma LoadDatesStop(ds: seq<string>, grid: string -> Result<Table, Error>, i: nat, e: Error)
    requires i < |ds| && LoadDates(ds[..i], grid).Success? && grid(ds[i]) == Failure(e)
    ensures LoadDates(ds, grid) == Failure(e)
  {
    assert ds[..i + 1][..i] == ds[..i];
    LoadDatesPrefixFails(ds, grid, i + 1);
  }

  /** `load_bond_yields`: one pass over the distinct dates, each date's triples pivoted into its grid. */
  method LoadBondYields(csv: Csv) returns (res: Result<Loaded, Error>)
    requires csv.WellFormed()
    ensures res == LoadSpec(csv)
  {
    var dates := UniqueDates(csv.dates);
    var dateDataframes := Loaded([], []);
    var i := 0;
    while i < |dates|
      invariant 0 <= i <= |dates|
      invariant LoadDates(dates[..i], GridOf(csv)) == Success(dateDataframes)
    {
      var date := dates[i];
      var row := csv.rows[IndexOf(csv.dates, date)];
      var dataForDate := CollectTriples(csv.headers, row);
      if dataForDate.Failure? {
        LoadDatesStop(dates, GridOf(csv), i, dataForDate.error);
        return Failure(dataForDate.error);
      }
      var dateDf := Pivot(dataForDate.value);
      if dateDf.Failure? {
        LoadDatesStop(dates, GridOf(csv), i, dateDf.error);
        return Failure(dateDf.error);
      }
      LoadDatesSnoc(dates, GridOf(csv), i, dateDataframes, dateDf.value);
      dateDataframes := Loaded(dateDataframes.dates + [date], dateDataframes.grids + [dateDf.value]);
      i := i + 1;
    }
    assert dates[..i] == dates;
    return Success(dateDataframes);
  }

  /** `l` holds the dates `ds` in order and, under each, that date's grid. */
  ghost predicate GridsOf(ds: seq<string>, grid: string -> Result<Table, Error>, l: Loaded) {
    l.dates == ds && |l.grids| == |ds|
    && forall i :: 0 <= i < |ds| ==> grid(ds[i]) == Success(l.grids[i])
  }

  lemma GridsOfSnoc(ds: seq<string>, grid: string -> Result<Table, Error>, l: Loaded, g: Table)
    requires |ds| > 0 && GridsOf(ds[..|ds| - 1], grid, l) && grid(ds[|ds| - 1]) == Success(g)
    ensures GridsOf(ds, grid, Loaded(l.dates + [ds[|ds| - 1]], l.grids + [g]))
  {
    var n := |ds| - 1;
    assert ds == ds[..n] + [ds[n]];
    forall i | 0 <= i < n ensures grid(ds[i]) == Success((l.grids + [g])[i]) {
      assert ds[..n][i] == ds[i];
    }
  }

  /** A successful pass over `ds` keeps one grid per date, in order. */
  lemma {:induction false} LoadDatesGrids(ds: seq<string>, grid: string -> Result<Table, Error>)
    requires LoadDates(ds, grid).Success?
    ensures GridsOf(ds, grid, LoadDates(ds, grid).value)
  {
    if |ds| > 0 {
      var n := |ds| - 1;
      LoadDatesGrids(ds[..n], grid);
      GridsOfSnoc(ds, grid, LoadDates(ds[..n], grid).value, grid(ds[n]).value);
    }
  }

  /** A pass over `ds` fails exactly when the grid of one of its dates does. */
  lemma {:induction false} LoadDatesFailure(ds: seq<string>, grid: string -> Result<Table, Error>)
    ensures LoadDates(ds, grid).Failure? <==> exists i :: 0 <= i < |ds| && grid(ds[i]).Failure?
  {
    if |ds| > 0 {
      var n := |ds| - 1;
      var front := ds[..n];
      LoadDatesFailure(front, grid);
      assert forall i :: 0 <= i < n ==> front[i] == ds[i];
    }
  }

  /**
   * Exactly one grid per distinct date, keyed by that date: the keys are the
   * dates of the file, each once, in order of first appearance, and the grid
   * under a date is its row's triples pivoted.
   */
  lemma OneGridPerDate(csv: Csv)
    requires csv.WellFormed() && LoadSpec(csv).Success?
    ensures LoadSpec(csv).value.dates == UniqueDates(csv.dates)
    ensures Distinct(LoadSpec(csv).value.dates)
    ensures forall d :: d in LoadSpec(csv).value.dates <==> d in csv.dates
    ensures forall i, j :: 0 <= i < j < |LoadSpec(csv).value.dates| ==>
      LoadSpec(csv).value.dates[i] in csv.dates && LoadSpec(csv).value.dates[j] in csv.dates &&
      IndexOf(csv.dates, LoadSpec(csv).value.dates[i]) < IndexOf(csv.dates, LoadSpec(csv).value.dates[j])
    ensures |LoadSpec(csv).value.grids| == |LoadSpec(csv).value.dates|
    ensures forall i :: 0 <= i < |LoadSpec(csv).value.dates| ==>
      DateGrid(csv, LoadSpec(csv).value.dates[i]) == Success(LoadSpec(csv).value.grids[i])
  {
    LoadDatesGrids(UniqueDates(csv.dates), GridOf(csv));
  }

  /** Row `rating`, column `tenor` of `t` exists and holds `v`. */
  ghost predicate HoldsAt(t: Table, rating: string, tenor: int, v: Float) {
    t.WellFormed() && Label(rating) in t.index && tenor in t.columns
    && t.cells[IndexOf(t.index, Label(rating))][IndexOf(t.columns, tenor)] == v
  }

  /**
   * End to end: the value in column `k` of a date's row lands in that date's
   * grid at the row of the column's rating and the column of its tenor.
   * (A header that does not parse fails the whole load: `LoadHeaderFails`.)
   */
  lemma LoadPlacement(csv: Csv, i: nat, k: nat, rating: string, tenor: int)
    requires csv.WellFormed() && LoadSpec(csv).Success?
    requires i < |LoadSpec(csv).value.dates| && k < |csv.headers|
    requires ParseHeader(csv.headers[k]) == Success((rating, tenor))
    ensures i < |LoadSpec(csv).value.grids| && LoadSpec(csv).value.dates[i] in csv.dates
    ensures HoldsAt(LoadSpec(csv).value.grids[i], rating, tenor,
      csv.rows[IndexOf(csv.dates, LoadSpec(csv).value.dates[i])][k])
  {
    OneGridPerDate(csv);
    var l := LoadSpec(csv).value;
    assert l.dates[i] in l.dates;
    var row := csv.rows[IndexOf(csv.dates, l.dates[i])];
    assert DateGrid(csv, l.dates[i]) == Success(l.grids[i]);
    RowTriplesSuccess(csv.headers, row);
    var ts := RowTriples(csv.headers, row).value;
    PivotPlacement(ts, k);
  }

  /** A malformed header fails the whole load as soon as the file has a date (and never when it has none). */
  lemma LoadHeaderFails(csv: Csv, k: nat)
    requires csv.WellFormed() && k < |csv.headers|
    ensures ParseHeader(csv.headers[k]).Failure? && |csv.dates| > 0 ==> LoadSpec(csv).Failure?
    ensures |csv.dates| == 0 ==> LoadSpec(csv) == Success(Loaded([], []))
  {
    var ds := UniqueDates(csv.dates);
    if ParseHeader(csv.headers[k]).Failure? && |csv.dates| > 0 {
      LoadDatesFailure(ds, GridOf(csv));
      assert csv.dates[0] in ds;
      var i :| 0 <= i < |ds| && ds[i] == csv.dates[0];
      var row := csv.rows[IndexOf(csv.dates, ds[i])];
      if RowTriples(csv.headers, row).Success? {
        RowTriplesSuccess(csv.headers, row);
      }
      assert GridOf(csv)(ds[i]).Failure?;
    }
    if |csv.dates| == 0 {
      assert ds == [];
    }
  }
}

=== FILE: rating_converter.dfy ===
/**
 * Fixed and yield-based rating converters: `SimpleRatingConverter` maps the
 * fourteen listed ratings to 1..14, `YieldBasedRatingConverter` maps a rating
 * to the mean yield of its row. Both fall back to 0 for an unknown rating.
 */
module RatingConverter {
  import opened Wrappers
  import opened Frames
  import Stats

  /** The ratings of the fixed scale, best quality first. */
  const SimpleLabels: seq<string> :=
    ["AAA", "AA+", "AA", "AA-", "A+", "A", "A-", "BBB", "BB", "B", "CCC", "CC", "C", "D"]

  /** `SimpleRatingConverter.rating_map`. */
  const SimpleRatingMap: map<Key, int> := map[
    Label("AAA") := 1, Label("AA+") := 2, Label("AA") := 3, Label("AA-") := 4,
    Label("A+") := 5, Label("A") := 6, Label("A-") := 7, Label("BBB") := 8,
    Label("BB") := 9, Label("B") := 10, Label("CCC") := 11, Label("CC") := 12,
    Label("C") := 13, Label("D") := 14]

  /** `SimpleRatingConverter.convert`: the listed position, or 0 for any other rating; never fails. */
  function SimpleConvert(rating: Key): (r: int)
    ensures 0 <= r <= 14
    ensures r == 0 <==> rating !in SimpleRatingMap
  {
    if rating in SimpleRatingMap then SimpleRatingMap[rating] else 0
  }

  /** The i-th listed rating converts to i + 1. */
  lemma SimpleScaleListed(i: nat)
    requires i < |SimpleLabels|
    ensures SimpleConvert(Label(SimpleLabels[i])) == i + 1
  {
  }

  /** The fixed scale is strictly increasing in listed order. */
  lemma SimpleScaleIncreasing(i: nat, j: nat)
    requires i < j < |SimpleLabels|
    ensures SimpleConvert(Label(SimpleLabels[i])) < SimpleConvert(Label(SimpleLabels[j]))
  {
    SimpleScaleListed(i);
    SimpleScaleListed(j);
  }

  /** Exactly the fourteen listed ratings are known to the fixed scale. */
  lemma SimpleScaleKeys(rating: Key)
    ensures rating in SimpleRatingMap <==> exists i :: 0 <= i < |SimpleLabels| && rating == Label(SimpleLabels[i])
  {
    if rating in SimpleRatingMap {
      assert 1 <= SimpleRatingMap[rating] <= 14;
      assert rating == Label(SimpleLabels[SimpleRatingMap[rating] - 1]);
    }
  }

  /** The fixed scale is injective: two known ratings with the same position are the same rating. */
  lemma SimpleScaleInjective(a: Key, b: Key)
    requires a in SimpleRatingMap && b in SimpleRatingMap
    requires SimpleConvert(a) == SimpleConvert(b)
    ensures a == b
  {
    SimpleScaleKeys(a);
    SimpleScaleKeys(b);
    var i :| 0 <= i < |SimpleLabels| && a == Label(SimpleLabels[i]);
    var j :| 0 <= j < |SimpleLabels| && b == Label(SimpleLabels[j]);
    SimpleScaleListed(i);
    SimpleScaleListed(j);
  }

  /**
   * The present (non-NaN) values of a row, in column order: each present
   * cell contributes its value once, so a value occurs as often among them
   * as it occurs among the row's cells.
   */
  function PresentValues(row: seq<Float>): (vs: seq<real>)
    ensures |vs| <= |row|
    ensures |vs| == 0 <==> forall c :: 0 <= c < |row| ==> row[c].None?
    ensures forall v :: multiset(vs)[v] == multiset(row)[Some(v)]
    decreases |row|
  {
    if |row| == 0 then []
    else
      var init := PresentValues(row[..|row| - 1]);
      assert row == row[..|row| - 1] + [row[|row| - 1]];
      assert multiset(row) == multiset(row[..|row| - 1]) + multiset{row[|row| - 1]};
      match row[|row| - 1]
      case Some(v) =>
        assert multiset(init + [v]) == multiset(init) + multiset{v};
        init + [v]
      case None => init
  }

  /** pandas' row mean: the mean of the present values, NaN when every value is missing. */
  function RowMean(row: seq<Float>): (m: Float)
    ensures m.None? <==> forall c :: 0 <= c < |row| ==> row[c].None?
  {
    var vs := PresentValues(row);
    if |vs| == 0 then None else Some(Stats.Mean(vs))
  }

  /** A row mean lies between any bounds of the row's present values. */
  lemma RowMeanWithin(row: seq<Float>, lo: real, hi: real)
    requires forall c :: 0 <= c < |row| && row[c].Some? ==> lo <= row[c].value <= hi
    requires exists c :: 0 <= c < |row| && row[c].Some?
    ensures RowMean(row).Some? && lo <= RowMean(row).value <= hi
  {
    var vs := PresentValues(row);
    forall k | 0 <= k < |vs| ensures lo <= vs[k] <= hi {
      var c :| 0 <= c < |row| && row[c] == Some(vs[k]);
    }
    Stats.MeanWithin(vs, lo, hi);
  }

  /** Position of the first occurrence of `k` in `s`. */
  function IndexOf<T(==)>(s: seq<T>, k: T): (i: nat)
    requires k in s
    ensures i < |s| && s[i] == k && forall j :: 0 <= j < i ==> s[j] != k
  {
    if s[0] == k then 0 else 1 + IndexOf(s[1..], k)
  }

  /**
   * `YieldBasedRatingConverter.convert`: the mean yield of the rating's row,
   * ignoring missing cells, or 0 when the rating is not in the index.
   */
  function YieldBasedConvert(t: Table, rating: Key): (r: Float)
    requires t.WellFormed() && Distinct(t.index)
    ensures rating !in t.index ==> r == Some(0.0)
    ensures forall i :: 0 <= i < |t.index| && t.index[i] == rating ==> r == RowMean(t.cells[i])
  {
    if rating in t.index then RowMean(t.cells[IndexOf(t.index, rating)]) else Some(0.0)
  }
}

=== FILE: rating_converter_by_slopes.dfy ===
/**
 * The slope-minimizing rating converter: penalty strategies, the objective
 * over a yield grid, the adjacent-gap constraint and the fail-soft update of
 * the rating scale from an external optimizer's answer.
 *
 * The objective as written penalises, for every column j and every i in
 * 0..n-3, the single slope between rows i+1 and i+2,
 * (y[i+2][j] - y[i+1][j]) / (r[i+2] - r[i+1]); it is not a difference of two
 * slopes, and row 0 never contributes.
 */
module SlopeRating {
  import opened Wrappers
  import opened Frames

  /** Minimum gap between adjacent ratings in the optimizer's constraint. */
  const MinGap: real := 0.02

  datatype StrategyKind = AbsoluteDifference | SquaredDifference

  /** `calculate` of the two strategies: the absolute value or the square of its argument. */
  function Calculate(kind: StrategyKind, slopeDifference: real): (penalty: real)
    ensures penalty >= 0.0
    ensures slopeDifference == 0.0 ==> penalty == 0.0
    ensures kind.AbsoluteDifference? ==> penalty == (if slopeDifference < 0.0 then -slopeDifference else slopeDifference)
    ensures kind.SquaredDifference? ==> penalty == slopeDifference * slopeDifference
  {
    match kind
    case AbsoluteDifference => if slopeDifference < 0.0 then -slopeDifference else slopeDifference
    case SquaredDifference =>
      slopeDifference * slopeDifference
  }

  /**
   * A strategy object. Besides its penalty it carries a `bond_yield_df`
   * attribute that the slope cross-validators assign and nothing reads.
   */
  class Strategy {
    const kind: StrategyKind
    var bondYieldDf: Option<Table>

    constructor (kind: StrategyKind)
      ensures this.kind == kind && bondYieldDf == None
    {
      this.kind := kind;
      bondYieldDf := None;
    }
  }

  /** `adj_constraint`: the (i-1)-th value is r[i] - r[i-1] - 0.02, one per adjacent pair. */
  function AdjConstraint(r: seq<real>): (c: seq<real>)
    ensures |c| == if |r| == 0 then 0 else |r| - 1
    ensures forall i :: 1 <= i < |r| ==> c[i - 1] == r[i] - r[i - 1] - MinGap
  {
    if |r| <= 1 then [] else seq(|r| - 1, k requires 0 <= k < |r| - 1 => r[k + 1] - r[k] - MinGap)
  }

  /** Every constraint value is non-negative exactly when every adjacent gap is at least 0.02. */
  lemma AdjConstraintFeasible(r: seq<real>)
    ensures (forall k :: 0 <= k < |AdjConstraint(r)| ==> AdjConstraint(r)[k] >= 0.0)
        <==> (forall i :: 1 <= i < |r| ==> r[i] - r[i - 1] >= MinGap)
  {
    var c := AdjConstraint(r);
    if forall i :: 1 <= i < |r| ==> r[i] - r[i - 1] >= MinGap {
      forall k | 0 <= k < |c| ensures c[k] >= 0.0 {
        assert c[(k + 1) - 1] == r[k + 1] - r[k] - MinGap;
      }
    }
  }

  /** A feasible point is strictly increasing: ratings i < j are at least 0.02·(j-i) apart. */
  lemma {:induction false} FeasibleSpread(r: seq<real>, i: nat, j: nat)
    requires forall k :: 1 <= k < |r| ==> r[k] - r[k - 1] >= MinGap
    requires i <= j < |r|
    ensures r[j] - r[i] >= MinGap * ((j - i) as real)
    decreases j - i
  {
    if i < j {
      FeasibleSpread(r, i, j - 1);
    }
  }

  /** Number of slope positions the objective visits: `range(len(r) - 2)`. */
  function Slots(r: seq<real>): nat {
    if |r| >= 2 then |r| - 2 else 0
  }

  /** True when the objective's positional row accesses stay inside the grid. */
  predicate InRange(t: Table, r: seq<real>) {
    |t.columns| == 0 || Slots(r) == 0 || Slots(r) + 2 <= |t.index|
  }

  /** The penalty at slope position i of column j: skipped when a yield is missing or the ratings coincide. */
  function Term(t: Table, kind: StrategyKind, r: seq<real>, i: nat, j: nat): (p: real)
    requires t.WellFormed() && i + 2 < |r| && i + 2 < |t.index| && j < |t.columns|
  {
    var y2 := t.cells[i + 2][j];
    var y1 := t.cells[i + 1][j];
    if y2.Some? && y1.Some? && r[i + 2] != r[i + 1] then
      Calculate(kind, (y2.value - y1.value) / (r[i + 2] - r[i + 1]))
    else
      0.0
  }

  /** The first m penalties of column j. */
  function ColumnSum(t: Table, kind: StrategyKind, r: seq<real>, j: nat, m: nat): (s: real)
    requires t.WellFormed() && j < |t.columns|
    requires m <= Slots(r) && (m == 0 || m + 1 < |t.index|)
    ensures s >= 0.0
    ensures m == 0 ==> s == 0.0
  {
    if m == 0 then 0.0 else ColumnSum(t, kind, r, j, m - 1) + Term(t, kind, r, m - 1, j)
  }

  /** The penalties of the first n columns, every slope position of each. */
  function ObjectiveSum(t: Table, kind: StrategyKind, r: seq<real>, n: nat): (s: real)
    requires t.WellFormed() && n <= |t.columns| && (n == 0 || InRange(t, r))
    ensures s >= 0.0
    ensures Slots(r) == 0 ==> s == 0.0
  {
    if n == 0 then 0.0 else ObjectiveSum(t, kind, r, n - 1) + ColumnSum(t, kind, r, n - 1, Slots(r))
  }

  /**
   * `objective`: the summed penalties, or the IndexError raised by a positional
   * row access past the end of the grid.
   */
  function SlopeObjective(t: Table, kind: StrategyKind, r: seq<real>): (res: Result<real, Error>)
    requires t.WellFormed()
    ensures res.Failure? <==> !InRange(t, r)
    ensures res.Success? ==> res.value >= 0.0
    ensures |r| < 3 || |t.columns| == 0 ==> res == Success(0.0)
  {
    if InRange(t, r) then Success(ObjectiveSum(t, kind, r, |t.columns|)) else Failure(RowOutOfRange)
  }

  /** Two grids and two rating vectors that agree everywhere except, possibly, at row and rating 0. */
  ghost predicate AgreeFromRowOne(t: Table, t': Table, r: seq<real>, r': seq<real>) {
    && t.WellFormed() && t'.WellFormed()
    && |t.index| == |t'.index| && |t.columns| == |t'.columns|
    && (forall k :: 1 <= k < |t.cells| ==> t.cells[k] == t'.cells[k])
    && |r| == |r'| && (forall k :: 1 <= k < |r| ==> r[k] == r'[k])
  }

  lemma {:induction false} ColumnSumIgnoresRowZero(t: Table, t': Table, kind: StrategyKind, r: seq<real>, r': seq<real>, j: nat, m: nat)
    requires AgreeFromRowOne(t, t', r, r')
    requires j < |t.columns| && m <= Slots(r) && (m == 0 || m + 1 < |t.index|)
    ensures ColumnSum(t, kind, r, j, m) == ColumnSum(t', kind, r', j, m)
  {
    if m > 0 {
      ColumnSumIgnoresRowZero(t, t', kind, r, r', j, m - 1);
      assert t.cells[m + 1] == t'.cells[m + 1] && t.cells[m] == t'.cells[m];
    }
  }

  /** Row 0 of the grid and rating 0 never enter the objective. */
  lemma {:induction false} ObjectiveIgnoresRowZero(t: Table, t': Table, kind: StrategyKind, r: seq<real>, r': seq<real>)
    requires AgreeFromRowOne(t, t', r, r')
    ensures SlopeObjective(t, kind, r) == SlopeObjective(t', kind, r')
  {
    if InRange(t, r) {
      var n := 0;
      while n < |t.columns|
        invariant n <= |t.columns|
        invariant ObjectiveSum(t, kind, r, n) == ObjectiveSum(t', kind, r', n)
      {
        ColumnSumIgnoresRowZero(t, t', kind, r, r', n, Slots(r));
        n := n + 1;
      }
    }
  }

  /**
   * On a three-row, one-column grid the objective is the penalty of the one
   * slope between rows 1 and 2, whatever row 0 holds.
   */
  lemma ObjectiveOnThreeRows(t: Table, kind: StrategyKind, r: seq<real>, y1: real, y2: real)
    requires t.WellFormed() && |t.index| == 3 && |t.columns| == 1 && |r| == 3
    requires t.cells[1][0] == Some(y1) && t.cells[2][0] == Some(y2) && r[2] != r[1]
    ensures SlopeObjective(t, kind, r) == Success(Calculate(kind, (y2 - y1) / (r[2] - r[1])))
  {
    assert Slots(r) == 1 && InRange(t, r);
    assert ColumnSum(t, kind, r, 0, 1) == Term(t, kind, r, 0, 0);
    assert ObjectiveSum(t, kind, r, 1) == ColumnSum(t, kind, r, 0, 1);
  }

  /** What the optimizer reports: its success flag, its final point and its message. */
  datatype OptimizeResult = OptimizeResult(success: bool, x: seq<real>, message: string)

  /**
   * The external constrained minimizer (SLSQP): given the objective, the
   * starting point, the bounds and the inequality constraint, it returns its
   * result, or the exception it propagated.
   */
  type Minimizer = (seq<real> -> Result<real, Error>, seq<real>, seq<(real, real)>, seq<real> -> seq<real>)
    -> Result<OptimizeResult, Error>

  /** Whether `optimize_ratings` replaced the scale or kept it after a reported failure. */
  datatype OptimizeStatus = Updated | KeptAfterFailure(message: string)

  function Min(a: nat, b: nat): nat {
    if a <= b then a else b
  }

  /** `dict(zip(labels, x))` for distinct labels: pairs up to the shorter of the two. */
  function ZipScale(labels: seq<Key>, xs: seq<real>): (s: Scale)
    ensures |s.labels| == |s.values| == Min(|labels|, |xs|)
  {
    var m := Min(|labels|, |xs|);
    Scale(labels[..m], xs[..m])
  }

  /**
   * With a vector of the scale's length, the new scale keeps the labels in
   * their order and gives the i-th label the i-th coordinate.
   */
  lemma ZipScaleKeepsLabels(old_: Scale, xs: seq<real>)
    requires old_.Valid() && |xs| == |old_.labels|
    ensures ZipScale(old_.labels, xs).Valid()
    ensures ZipScale(old_.labels, xs).labels == old_.labels
    ensures forall i :: 0 <= i < |xs| ==> Lookup(ZipScale(old_.labels, xs), old_.labels[i]) == Some(xs[i])
  {
    var s := ZipScale(old_.labels, xs);
    assert s.labels == old_.labels;
    forall i | 0 <= i < |xs| ensures Lookup(s, old_.labels[i]) == Some(xs[i]) {
      LookupAt(s, i);
    }
  }

  /**
   * One call of `optimize_ratings` on a scale: the optimizer starts from the
   * scale's values; on reported success the labels are paired with its final
   * point, on reported failure the scale is kept; an exception propagates.
   */
  function OptimizeStep(t: Table, kind: StrategyKind, ratings: Scale, bounds: seq<(real, real)>, minimize: Minimizer)
    : (res: Result<(Scale, OptimizeStatus), Error>)
    requires t.WellFormed()
  {
    var objective := (r: seq<real>) => SlopeObjective(t, kind, r);
    match minimize(objective, ratings.values, bounds, AdjConstraint)
    case Failure(e) => Failure(e)
    case Success(result) =>
      if result.success then Success((ZipScale(ratings.labels, result.x), Updated))
      else Success((ratings, KeptAfterFailure(result.message)))
  }

  /** A step keeps a valid scale valid, and keeps it unchanged unless the optimizer reports success. */
  lemma OptimizeStepKeepsScale(t: Table, kind: StrategyKind, ratings: Scale, bounds: seq<(real, real)>, minimize: Minimizer)
    requires t.WellFormed() && ratings.Valid()
    ensures OptimizeStep(t, kind, ratings, bounds, minimize).Success? ==>
      var (s, status) := OptimizeStep(t, kind, ratings, bounds, minimize).value;
      && s.Valid()
      && (status.KeptAfterFailure? ==> s == ratings)
      && (status.Updated? ==> s.labels == ratings.labels[..|s.labels|])
  {
    var res := OptimizeStep(t, kind, ratings, bounds, minimize);
    if res.Success? && res.value.1.Updated? {
      var s := res.value.0;
      assert forall i, j :: 0 <= i < j < |s.labels| ==> s.labels[i] == ratings.labels[i] && s.labels[j] == ratings.labels[j];
    }
  }

  /** `SlopeMinimizingRatingConverter`: a grid, the current rating scale and a strategy. */
  class SlopeMinimizingRatingConverter {
    var bondYieldDf: Table
    var ratings: Scale
    const strategy: Strategy

    ghost predicate Valid()
      reads this
    {
      bondYieldDf.WellFormed() && ratings.Valid()
    }

    constructor (bondYieldDf: Table, initialRatings: Scale, strategy: Strategy)
      requires bondYieldDf.WellFormed() && initialRatings.Valid()
      ensures Valid()
      ensures this.bondYieldDf == bondYieldDf && ratings == initialRatings && this.strategy == strategy
    {
      this.bondYieldDf := bondYieldDf;
      ratings := initialRatings;
      this.strategy := strategy;
    }

    /** `convert`: the stored position of a known label, 0 for any other; never fails. */
    function Convert(rating: Key): (r: real)
      reads this
      requires Valid()
      ensures forall i :: 0 <= i < |ratings.labels| && ratings.labels[i] == rating ==> r == ratings.values[i]
      ensures rating !in ratings.labels ==> r == 0.0
    {
      if Lookup(ratings, rating).Some? then
        forall i | 0 <= i < |ratings.labels| && ratings.labels[i] == rating ensures Lookup(ratings, rating) == Some(ratings.values[i]) {
          LookupAt(ratings, i);
        }
        Lookup(ratings, rating).value
      else
        0.0
    }

    /** The nested loop of `objective`, reading this converter's own grid. */
    method Objective(r: seq<real>) returns (res: Result<real, Error>)
      requires bondYieldDf.WellFormed()
      ensures res == SlopeObjective(bondYieldDf, strategy.kind, r)
    {
      var t := bondYieldDf;
      var kind := strategy.kind;
      var total := 0.0;
      var j := 0;
      while j < |t.columns|
        invariant 0 <= j <= |t.columns|
        invariant j == 0 || InRange(t, r)
        invariant total == ObjectiveSum(t, kind, r, j)
      {
        var i := 0;
        while i < Slots(r)
          invariant 0 <= i <= Slots(r)
          invariant i == 0 || i + 1 < |t.index|
          invariant j == 0 || InRange(t, r)
          invariant total == ObjectiveSum(t, kind, r, j) + ColumnSum(t, kind, r, j, i)
        {
          if i + 2 >= |t.index| {
            return Failure(RowOutOfRange);
          }
          var y2 := t.cells[i + 2][j];
          var y1 := t.cells[i + 1][j];
          if y2.Some? && y1.Some? && r[i + 2] != r[i + 1] {
            total := total + Calculate(kind, (y2.value - y1.value) / (r[i + 2] - r[i + 1]));
          }
          i := i + 1;
        }
        j := j + 1;
      }
      return Success(total);
    }

    /**
     * `optimize_ratings`: run the optimizer from the current values; replace
     * the scale only when it reports success, keep it otherwise.
     */
    method OptimizeRatings(bounds: seq<(real, real)>, minimize: Minimizer) returns (status: Result<OptimizeStatus, Error>)
      requires Valid()
      modifies this`ratings
      ensures Valid()
      ensures var step := OptimizeStep(bondYieldDf, strategy.kind, old(ratings), bounds, minimize);
        && (step.Failure? ==> status == Failure(step.error) && ratings == old(ratings))
        && (step.Success? ==> status == Success(step.value.1) && ratings == step.value.0)
    {
      var labels := ratings.labels;
      var initialValues := ratings.values;
      var t := bondYieldDf;
      var kind := strategy.kind;
      var objective := (r: seq<real>) => SlopeObjective(t, kind, r);
      var result := minimize(objective, initialValues, bounds, AdjConstraint);
      OptimizeStepKeepsScale(t, kind, ratings, bounds, minimize);
      if result.Failure? {
        return Failure(result.error);
      }
      if result.value.success {
        ratings := ZipScale(labels, result.value.x);
        status := Success(Updated);
      } else {
        status := Success(KeptAfterFailure(result.value.message));
      }
    }
  }
}

=== FILE: stats.dfy ===
/** Sums and means over real numbers, accumulated left to right as the source's loops do. */
module Stats {

  function Sum(s: seq<real>): real
    decreases |s|
  {
    if |s| == 0 then 0.0 else Sum(s[..|s| - 1]) + s[|s| - 1]
  }

  /** The arithmetic mean (numpy's mean of a non-empty array). */
  function Mean(s: seq<real>): real
    requires |s| > 0
  {
    Sum(s) / (|s| as real)
  }

  ghost predicate AllWithin(s: seq<real>, lo: real, hi: real) {
    forall i :: 0 <= i < |s| ==> lo <= s[i] <= hi
  }

  lemma {:induction false} SumWithin(s: seq<real>, lo: real, hi: real)
    requires AllWithin(s, lo, hi)
    ensures (|s| as real) * lo <= Sum(s) <= (|s| as real) * hi
    decreases |s|
  {
    if |s| > 0 {
      var init := s[..|s| - 1];
      assert AllWithin(init, lo, hi) by {
        forall i | 0 <= i < |init| ensures init[i] == s[i] { }
      }
      SumWithin(init, lo, hi);
      var m := |init| as real;
      var last := s[|s| - 1];
      assert lo <= last <= hi;
      assert |s| as real == m + 1.0;
      assert Sum(s) == Sum(init) + last;
      assert (m + 1.0) * lo == m * lo + lo;
      assert (m + 1.0) * hi == m * hi + hi;
      assert m * lo + lo <= Sum(init) + last <= m * hi + hi;
    }
  }

  /** A mean lies between any lower and upper bound of its terms. */
  lemma MeanWithin(s: seq<real>, lo: real, hi: real)
    requires |s| > 0 && AllWithin(s, lo, hi)
    ensures lo <= Mean(s) <= hi
  {
    SumWithin(s, lo, hi);
    var n := |s| as real;
    assert Mean(s) * n == Sum(s);
  }

  lemma {:induction false} SumNonNegative(s: seq<real>)
    requires forall i :: 0 <= i < |s| ==> s[i] >= 0.0
    ensures Sum(s) >= 0.0
    decreases |s|
  {
    if |s| > 0 {
      SumNonNegative(s[..|s| - 1]);
    }
  }

  lemma MeanNonNegative(s: seq<real>)
    requires |s| > 0 && forall i :: 0 <= i < |s| ==> s[i] >= 0.0
    ensures Mean(s) >= 0.0
  {
    SumNonNegative(s);
  }

  /** a ≤ b gives a·k ≤ b·k for natural numbers. */
  lemma {:induction false} MulMonotone(a: nat, b: nat, k: nat)
    requires a <= b
    ensures a * k <= b * k
    decreases k
  {
    if k > 0 {
      MulMonotone(a, b, k - 1);
      assert a * k == a * (k - 1) + a;
      assert b * k == b * (k - 1) + b;
    }
  }
}

=== FILE: tenor_converter.dfy ===
/** The tenor axis scaler: `IdentityTenorScaler` leaves every tenor as it is. */
module TenorConverter {

  /** `IdentityTenorScaler.scale_tenor`: any real tenor, including zero, negative and fractional ones. */
  function ScaleTenor(tenor: real): (scaled: real)
    ensures scaled == tenor
  {
    tenor
  }

  /** Scaling twice is scaling once. */
  lemma ScaleTenorIdempotent(tenor: real)
    ensures ScaleTenor(ScaleTenor(tenor)) == ScaleTenor(tenor)
  {
  }

  /** The scaler preserves the order of tenors. */
  lemma ScaleTenorMonotone(t1: real, t2: real)
    requires t1 <= t2
    ensures ScaleTenor(t1) <= ScaleTenor(t2)
  {
  }
}

=== FILE: thin_plate_spline.dfy ===
/**
 * The thin-plate-spline interpolator over points in the plane: the kernel
 * matrix with a zero diagonal, the design matrix of rows [1, x, y], the
 * regularised kernel matrix, the fit that stores points, design matrix and
 * coefficients, and the prediction of the kernel sum plus an affine term.
 *
 * The Green's function depends only on the distance between two points; here
 * it is the parameter `profile`, applied to the squared distance. The linear
 * algebra of the fit (the matrix inversions) is the parameter `solve`.
 */
module ThinPlateSpline {
  import opened Wrappers
  import opened Frames

  type P2 = (real, real)

  /** The Green's function as a function of the squared distance between two points. */
  type Profile = real -> real

  /**
   * The coefficient solve of `fit`: from the regularised kernel matrix, the
   * design matrix and the targets, the non-affine coefficients a and the
   * affine coefficients b, or the error the linear algebra raises.
   */
  type Solver = (seq<seq<real>>, seq<seq<real>>, seq<real>) -> Result<(seq<real>, seq<real>), Error>

  /** The default regularisation parameter. */
  const DefaultLambda: real := 0.1

  function Dist2(p: P2, q: P2): real {
    (p.0 - q.0) * (p.0 - q.0) + (p.1 - q.1) * (p.1 - q.1)
  }

  /** `compute_green_function` for two points. */
  function Green(profile: Profile, p: P2, q: P2): real {
    profile(Dist2(p, q))
  }

  /** The kernel is symmetric: it depends only on the distance between its two points. */
  lemma GreenSymmetric(profile: Profile, p: P2, q: P2)
    ensures Green(profile, p, q) == Green(profile, q, p)
  {
    assert (p.0 - q.0) * (p.0 - q.0) == (q.0 - p.0) * (q.0 - p.0);
    assert (p.1 - q.1) * (p.1 - q.1) == (q.1 - p.1) * (q.1 - p.1);
  }

  /** The matrix `construct_M` fills: zero on the diagonal, the kernel of the two points elsewhere. */
  function KernelMatrix(profile: Profile, points: seq<P2>): (M: seq<seq<real>>)
    ensures |M| == |points| && forall i :: 0 <= i < |M| ==> |M[i]| == |points|
    ensures forall i :: 0 <= i < |M| ==> M[i][i] == 0.0
    ensures forall i, j :: 0 <= i < |M| && 0 <= j < |M| && i != j ==> M[i][j] == Green(profile, points[i], points[j])
  {
    seq(|points|, i requires 0 <= i < |points| =>
      seq(|points|, j requires 0 <= j < |points| => if i == j then 0.0 else Green(profile, points[i], points[j])))
  }

  /** The kernel matrix is symmetric. */
  lemma KernelMatrixSymmetric(profile: Profile, points: seq<P2>)
    ensures var M := KernelMatrix(profile, points);
      forall i, j :: 0 <= i < |M| && 0 <= j < |M| ==> M[i][j] == M[j][i]
  {
    var M := KernelMatrix(profile, points);
    forall i, j | 0 <= i < |M| && 0 <= j < |M| ensures M[i][j] == M[j][i] {
      if i != j {
        GreenSymmetric(profile, points[i], points[j]);
      }
    }
  }

  /** `construct_N`: one row [1, x, y] per point. */
  function ConstructN(points: seq<P2>): (N: seq<seq<real>>)
    ensures |N| == |points|
    ensures forall i :: 0 <= i < |N| ==> |N[i]| == 3 && N[i][0] == 1.0 && N[i][1] == points[i].0 && N[i][2] == points[i].1
  {
    seq(|points|, i requires 0 <= i < |points| => [1.0, points[i].0, points[i].1])
  }

  /** `M + λ·I` for a square matrix M. */
  function Regularised(M: seq<seq<real>>, lambdaVal: real): (R: seq<seq<real>>)
    requires forall i :: 0 <= i < |M| ==> |M[i]| == |M|
    ensures |R| == |M| && forall i :: 0 <= i < |R| ==> |R[i]| == |M|
    ensures forall i, j :: 0 <= i < |M| && 0 <= j < |M| ==> R[i][j] == M[i][j] + (if i == j then lambdaVal else 0.0)
  {
    seq(|M|, i requires 0 <= i < |M| =>
      seq(|M|, j requires 0 <= j < |M| => M[i][j] + (if i == j then lambdaVal else 0.0)))
  }

  /** The regularised kernel matrix has λ on its diagonal and the kernel of the two points elsewhere. */
  lemma RegularisedKernel(profile: Profile, points: seq<P2>, lambdaVal: real)
    ensures var R := Regularised(KernelMatrix(profile, points), lambdaVal);
      && (forall i :: 0 <= i < |points| ==> R[i][i] == lambdaVal)
      && (forall i, j :: 0 <= i < |points| && 0 <= j < |points| && i != j ==> R[i][j] == Green(profile, points[i], points[j]))
  {
  }

  /** Σ_i g(xi_i, q)·a_i over the first n training points. */
  function KernelPart(profile: Profile, xi: seq<P2>, a: seq<real>, q: P2, n: nat): real
    requires n <= |xi| && n <= |a|
  {
    if n == 0 then 0.0 else KernelPart(profile, xi, a, q, n - 1) + Green(profile, xi[n - 1], q) * a[n - 1]
  }

  /** The affine function with coefficients b at point p: b0 + b1·x + b2·y. */
  function Affine(b: seq<real>, p: P2): real
    requires |b| == 3
  {
    b[0] + b[1] * p.0 + b[2] * p.1
  }

  /** The predictions as written: the kernel part of each query plus N[0]·b, the first training row's affine value. */
  function Predict(profile: Profile, xi: seq<P2>, a: seq<real>, b: seq<real>, queries: seq<P2>): (ys: seq<real>)
    requires 0 < |xi| == |a| && |b| == 3
    ensures |ys| == |queries|
    ensures forall k :: 0 <= k < |queries| ==> ys[k] == KernelPart(profile, xi, a, queries[k], |xi|) + Affine(b, xi[0])
  {
    seq(|queries|, k requires 0 <= k < |queries| => KernelPart(profile, xi, a, queries[k], |xi|) + Affine(b, xi[0]))
  }

  /** The predictions as evidently intended: the affine term evaluated at each query. */
  function PredictIntended(profile: Profile, xi: seq<P2>, a: seq<real>, b: seq<real>, queries: seq<P2>): (ys: seq<real>)
    requires 0 < |xi| == |a| && |b| == 3
    ensures |ys| == |queries|
  {
    seq(|queries|, k requires 0 <= k < |queries| => KernelPart(profile, xi, a, queries[k], |xi|) + Affine(b, queries[k]))
  }

  /** As written, every query receives the same affine term, whatever its position. */
  lemma PredictAffineConstant(profile: Profile, xi: seq<P2>, a: seq<real>, b: seq<real>, queries: seq<P2>, k: nat, l: nat)
    requires 0 < |xi| == |a| && |b| == 3 && k < |queries| && l < |queries|
    ensures var ys := Predict(profile, xi, a, b, queries);
      ys[k] - KernelPart(profile, xi, a, queries[k], |xi|) == ys[l] - KernelPart(profile, xi, a, queries[l], |xi|)
  {
  }

  /** With zero non-affine coefficients the kernel part vanishes. */
  lemma {:induction false} KernelPartZero(profile: Profile, xi: seq<P2>, a: seq<real>, q: P2, n: nat)
    requires n <= |xi| && n <= |a| && forall i :: 0 <= i < |a| ==> a[i] == 0.0
    ensures KernelPart(profile, xi, a, q, n) == 0.0
  {
    if n > 0 {
      KernelPartZero(profile, xi, a, q, n - 1);
    }
  }

  /** The intended prediction reproduces an affine surface exactly: with a = 0 it is b0 + b1·x + b2·y at each query. */
  lemma PredictIntendedReproducesAffine(profile: Profile, xi: seq<P2>, a: seq<real>, b: seq<real>, queries: seq<P2>)
    requires 0 < |xi| == |a| && |b| == 3 && forall i :: 0 <= i < |a| ==> a[i] == 0.0
    ensures forall k :: 0 <= k < |queries| ==> PredictIntended(profile, xi, a, b, queries)[k] == Affine(b, queries[k])
  {
    forall k | 0 <= k < |queries| ensures PredictIntended(profile, xi, a, b, queries)[k] == Affine(b, queries[k]) {
      KernelPartZero(profile, xi, a, queries[k], |xi|);
    }
  }

  /**
   * The affine surface z = x fitted exactly (one training point at the
   * origin, a = [0], b = [0, 1, 0]) is predicted as 0 at (5, 0) as written,
   * and as 5 as intended.
   */
  lemma PredictAffineFromFirstRow(profile: Profile)
    ensures Predict(profile, [(0.0, 0.0)], [0.0], [0.0, 1.0, 0.0], [(5.0, 0.0)]) == [0.0]
    ensures PredictIntended(profile, [(0.0, 0.0)], [0.0], [0.0, 1.0, 0.0], [(5.0, 0.0)]) == [5.0]
  {
    KernelPartZero(profile, [(0.0, 0.0)], [0.0], (5.0, 0.0), 1);
    assert PredictIntended(profile, [(0.0, 0.0)], [0.0], [0.0, 1.0, 0.0], [(5.0, 0.0)])[0] == 5.0;
  }

  class ThinPlateSplineInterpolator {
    var lambdaVal: real
    var a: Option<seq<real>>
    var b: Option<seq<real>>
    var xi: Option<seq<P2>>
    var N: Option<seq<seq<real>>>

    /** The stored design matrix is the one built from the stored points. */
    ghost predicate Valid()
      reads this
    {
      (xi.Some? <==> N.Some?) && (xi.Some? ==> N.value == ConstructN(xi.value))
    }

    /** A new interpolator with regularisation λ and nothing fitted. */
    constructor (lambdaVal: real)
      ensures Valid()
      ensures this.lambdaVal == lambdaVal && a == None && b == None && xi == None && N == None
    {
      this.lambdaVal := lambdaVal;
      a, b, xi, N := None, None, None, None;
    }

    /** A new interpolator with the default regularisation 0.1. */
    constructor Default()
      ensures Valid()
      ensures lambdaVal == DefaultLambda && a == None && b == None && xi == None && N == None
    {
      lambdaVal := DefaultLambda;
      a, b, xi, N := None, None, None, None;
    }

    /** `construct_M`: the kernel matrix filled entry by entry. */
    static method ConstructM(profile: Profile, points: seq<P2>) returns (M: array2<real>)
      ensures fresh(M) && M.Length0 == |points| && M.Length1 == |points|
      ensures forall i, j :: 0 <= i < |points| && 0 <= j < |points| ==> M[i, j] == KernelMatrix(profile, points)[i][j]
      ensures forall i, j :: 0 <= i < |points| && 0 <= j < |points| ==> M[i, j] == M[j, i]
    {
      var n := |points|;
      M := new real[n, n]((i, j) => 0.0);
      var i := 0;
      while i < n
        invariant 0 <= i <= n
        invariant forall i', j :: 0 <= i' < i && 0 <= j < n ==> M[i', j] == KernelMatrix(profile, points)[i'][j]
      {
        var j := 0;
        while j < n
          invariant 0 <= j <= n
          invariant forall i', j' :: 0 <= i' < i && 0 <= j' < n ==> M[i', j'] == KernelMatrix(profile, points)[i'][j']
          invariant forall j' :: 0 <= j' < j ==> M[i, j'] == KernelMatrix(profile, points)[i][j']
        {
          if i == j {
            M[i, j] := 0.0;
          } else {
            M[i, j] := Green(profile, points[i], points[j]);
          }
          j := j + 1;
        }
        i := i + 1;
      }
      KernelMatrixSymmetric(profile, points);
    }

    /**
     * `fit`: store the points and the design matrix, then solve for the
     * coefficients; when the solve raises, the coefficients of any earlier
     * fit stay.
     */
    method Fit(profile: Profile, solve: Solver, points: seq<P2>, yi: seq<real>) returns (res: Result<(), Error>)
      modifies this
      ensures Valid() && lambdaVal == old(lambdaVal)
      ensures xi == Some(points) && N == Some(ConstructN(points))
      ensures var s := solve(Regularised(KernelMatrix(profile, points), lambdaVal), ConstructN(points), yi);
        && (s.Success? ==> res == Success(()) && a == Some(s.value.0) && b == Some(s.value.1))
        && (s.Failure? ==> res == Failure(s.error) && a == old(a) && b == old(b))
    {
      xi := Some(points);
      var M := ConstructM(profile, points);
      N := Some(ConstructN(points));
      var n := |points|;
      var rows := seq(n, i requires 0 <= i < n reads M => seq(n, j requires 0 <= j < n reads M => M[i, j]));
      forall i | 0 <= i < n ensures rows[i] == KernelMatrix(profile, points)[i] {
        assert forall j :: 0 <= j < n ==> rows[i][j] == M[i, j];
      }
      assert rows == KernelMatrix(profile, points);
      var mLambda := Regularised(rows, lambdaVal);
      var s := solve(mLambda, N.value, yi);
      if s.Failure? {
        return Failure(s.error);
      }
      a := Some(s.value.0);
      b := Some(s.value.1);
      return Success(());
    }

    /**
     * `interpolate`: iterating the stored points, multiplying by a, then by b
     * and indexing the first affine row, in that order; each raises on an
     * unset or ill-shaped attribute.
     */
    function Interpolate(profile: Profile, queries: seq<P2>): (res: Result<seq<real>, Error>)
      reads this
      requires Valid()
      ensures res.Failure? <==> (xi.None? || a.None? || b.None? || |a.value| != |xi.value| || |b.value| != 3 || |xi.value| == 0)
      ensures res.Failure? && (xi.None? || a.None?) ==> res.error == NotFitted
      ensures res.Success? ==> res.value == Predict(profile, xi.value, a.value, b.value, queries)
      ensures res.Success? ==> N.value[0] == [1.0, xi.value[0].0, xi.value[0].1]
    {
      if xi.None? || a.None? then Failure(NotFitted)
      else if |a.value| != |xi.value| then Failure(ShapeMismatch)
      else if b.None? then Failure(NotFitted)
      else if |b.value| != 3 then Failure(ShapeMismatch)
      else if |xi.value| == 0 then Failure(NoTrainingPoints)
      else Success(Predict(profile, xi.value, a.value, b.value, queries))
    }
  }
}

=== FILE: wrappers.dfy ===
/** Failure-compatible wrappers shared by every module of the model. */
module Wrappers {

  /** A value that may be absent. */
  datatype Option<+T> = None | Some(value: T) {
    function GetOr(default: T): T {
      match this
      case Some(v) => v
      case None => default
    }
  }

  /** The outcome of an operation that either returns a value or raises an error. */
  datatype Result<+T, +E> = Success(value: T) | Failure(error: E) {
    predicate IsFailure() {
      Failure?
    }

    function PropagateFailure<U>(): Result<U, E>
      requires Failure?
    {
      Failure(error)
    }

    function Extract(): T
      requires Success?
    {
      value
    }
  }
}
